=== FILE: README.md ===
# Clubs enrollment engine — a Dafny model

This project models the core of the school clubs system. Students of several
sites (*sedes*) sign up for at most one extracurricular club at a time. Each
club has a capacity, and an administrator manages clubs, students and
enrollments.

The model covers:

- the four tables (`sedes`, `estudiantes`, `clubs`, `inscripciones`) and the
  `configuracion` key/value table, held in one `Database` object whose
  sequence fields the write operations reassign;
- the model layer's queries, as pure functions over those tables, and its
  INSERT / UPDATE / DELETE statements, as methods;
- the services:
  - public registration and its admin twin;
  - the status check by document;
  - cancellation and the move to another club;
  - the enrollment report;
  - club creation, update and deletion;
  - the CSV student import and the two eligibility checks;
- the error taxonomy, the admin access-code guard and the client's base-path
  normaliser.

Each service that writes is split in two:

- a pure *decision* function runs the checks in the source's order and
  returns either the first error or what will be written;
- a method calls it and then performs the writes.

The business rules the operations keep are stated once, in module
`Invariants`:

- at most one ACTIVO enrollment per student;
- no club above its capacity;
- an enrollment's student and club share a sede;
- enrollment rows are never removed and a cancellation is never undone.

Lemmas prove which operations preserve them.

Files:

- `values.dfy`, `errors.dfy`, `text.dfy`, `ordering.dfy`: the JavaScript values, `AppError`, trimming and casing, and stable sorting by a string key.
- `schema.dfy`: rows, keys and the `Database` class.
- `sede_model.dfy`, `student_model.dfy`, `club_model.dfy`, `enrollment_model.dfy`, `config_model.dfy`: the model layer.
- `invariants.dfy`: the business rules.
- `enrollment_service.dfy`, `report.dfy`, `club_service.dfy`, `student_service.dfy`: the services.
- `admin_auth.dfy`, `base_path.dfy`: the access-code guard and the base path.

## Model

| member | source | states |
|---|---|---|
| Errors.NewAppError | src/utils/errors.js:1-7 | the error keeps its message; an omitted status is 500 |
| Errors.BadRequest | src/utils/errors.js:9-11 | status 400 and the message as given |
| Errors.NotFound | src/utils/errors.js:13-15 | status 404; an empty message becomes 'No encontrado' |
| Errors.Conflict | src/utils/errors.js:17-19 | status 409; an empty message becomes 'Conflicto' |
| Errors.Unauthorized | src/utils/errors.js:21-23 | status 401; an empty message becomes 'No autorizado' |
| Values.ToNumber | src/services/enrollmentService.js:126 | `Number(x)` is a number exactly for numeric input, and that number |
| Text.Trim | src/models/studentModel.js:4 | the result has no white space at either end and is no longer than the input |
| Text.TrimIgnoresPadding | src/models/studentModel.js:4 | white space around a value never changes what `trim` returns |
| Text.TrimIdempotent | src/models/studentModel.js:4 | trimming twice is trimming once |
| Text.NormalizeDocumentInsensitive | src/models/studentModel.js:4 | a document's stored form ignores surrounding white space and letter case |
| Text.NormalizeDocumentIdempotent | src/models/studentModel.js:4 | normalising a document twice is normalising once |
| Text.ReplaceWhitespaceRuns | src/services/studentService.js:14 | the result has no white space and is unchanged on input without white space |
| Text.KeepSlugChars | src/services/studentService.js:15 | only `[a-z0-9-]` remains, a single character is kept exactly when it is one of those, and input made only of those is unchanged |
| Text.KeepSlugCharsConcat | src/services/studentService.js:15 | the filter distributes over concatenation, so a mixed input keeps its `[a-z0-9-]` characters in order |
| Text.NormalizeSlug | src/services/studentService.js:9-16 | the result is made only of `[a-z0-9-]` |
| Text.NormalizeSlugIdempotent | src/services/studentService.js:9-16 | a slug is a fixed point of the normaliser |
| Text.NormalizeSlugOfWord | src/services/studentService.js:9-16 | on letters, digits and '-', the normaliser only lower-cases |
| Text.NormalizeSlugOfTwoWords | src/services/studentService.js:9-16 | two words separated by white space become `word-word` |
| Ordering.StrLeTotal | src/models/sedeModel.js:6 | any two strings are ordered one way or the other |
| Ordering.StrLeTrans | src/models/sedeModel.js:6 | the string order is transitive |
| Ordering.StrLeAntisymmetric | src/models/sedeModel.js:6 | strings ordered both ways are equal |
| Ordering.KeyLeTotal | src/models/clubModel.js:53 | multi-column keys are totally ordered |
| Ordering.KeyLeTrans | src/models/clubModel.js:53 | the multi-column order is transitive |
| Ordering.SortBy | src/models/enrollmentModel.js:145 | `ORDER BY`: the result is a permutation of the input and is sorted by the key |
| Ordering.SortByMembers | src/models/enrollmentModel.js:145 | sorting keeps exactly the same elements |
| Schema.StudentById | src/models/enrollmentModel.js:98 | finds a student with the id, or reports that none has it |
| Schema.ClubById | src/models/enrollmentModel.js:99 | finds a club with the id, or reports that none has it |
| Schema.ClubByIdOfMember | src/models/enrollmentModel.js:99 | with unique club ids, the lookup finds each club |
| Schema.StudentByIdOfMember | src/models/enrollmentModel.js:98 | with unique student ids, the lookup finds each student |
| Schema.SedeOfId | src/models/sedeModel.js:20-27 | with unique sede ids, one id names one sede |
| Schema.Database.SetStudents | src/models/studentModel.js:16-28 | the write of the student table and its counter; keys kept, the rest of the store untouched |
| SedeModel.GetAllSedes | src/models/sedeModel.js:3-9 | every sede exactly once, sorted by name |
| SedeModel.GetSedeBySlug | src/models/sedeModel.js:11-18 | a sede with that slug, or none exactly when no sede has it |
| SedeModel.GetSedeById | src/models/sedeModel.js:20-27 | a sede with that id, or none exactly when no sede has it |
| StudentModel.StudentByDocument | src/models/studentModel.js:6-13 | a student with exactly that document, or none exactly when no student has it |
| StudentModel.FindStudentByDocument | src/models/studentModel.js:3-14 | the lookup of the trimmed, upper-cased document |
| StudentModel.FindStudentByDocumentInsensitive | src/models/studentModel.js:3-14 | padding and lower case in the argument do not change the student found |
| StudentModel.CreateStudent | src/models/studentModel.js:16-28 | a used document inserts nothing (duplicate); otherwise one row with the normalized document is appended under the next id |
| StudentModel.StudentKeysAppend | src/models/studentModel.js:16-28 | a row under the counter's id with an unused document keeps ids and documents unique |
| StudentModel.EnsureStudent | src/models/studentModel.js:30-42 | inserts exactly when the document is new; either way the returned id is that of the one student carrying the document |
| StudentModel.StudentByDocumentAppendFresh | src/models/studentModel.js:16-28 | after inserting a new document, the lookup finds the new row |
| StudentModel.StudentByDocumentOfMember | src/models/studentModel.js:3-14 | with the unique document index, the lookup finds each student |
| StudentModel.FilterStudents | src/models/studentModel.js:44-71 | exactly the students that pass every supplied filter, each as many times as in the table |
| StudentModel.GetStudents | src/models/studentModel.js:44-71 | the filtered students, each as many times as in the table, sorted by name |
| StudentModel.GetStudentsUnfiltered | src/models/studentModel.js:44-71 | with no filter, each student is listed as often as it is in the table (once each under unique ids, by `GetStudentsOnce`) |
| StudentModel.GetStudentsOnce | src/models/studentModel.js:44-71 | with unique student ids, the listing holds each student at most once |
| ClubModel.AvailableSeats | src/models/clubModel.js:20 | `GREATEST(capacidad - inscritos, 0)`: never negative; positive exactly when seats remain |
| ClubModel.ViewOf | src/models/clubModel.js:59-85 | the joined row: absent exactly when the sede is missing; `inscritos` is the club's ACTIVO count and `cuposDisponibles` its free seats |
| ClubModel.InscritosIgnoresCancelled | src/models/clubModel.js:23 | cancelling one of the club's ACTIVO rows lowers `inscritos` by one; other cancellations leave it alone |
| ClubModel.Views | src/models/clubModel.js:32-57 | exactly the clubs whose sede exists, each with its view and as many times as in the table |
| ClubModel.GetClubById | src/models/clubModel.js:59-85 | the view of the club with the id; none when no club has it or its sede is missing |
| ClubModel.GetClubsBySedeId | src/models/clubModel.js:4-30 | exactly the joinable clubs of the sede, each as many times as in the table, sorted by name |
| ClubModel.GetAllClubs | src/models/clubModel.js:32-57 | exactly the joinable clubs, each as many times as in the table, sorted by sede name then club name |
| ClubModel.ClubListingsOnce | src/models/clubModel.js:4-57 | with unique club ids, both club listings hold each club at most once |
| ClubModel.UpdateClubRows | src/models/clubModel.js:104-125 | the row with the id gets the new fields and keeps its id and sede; every other row is unchanged |
| ClubModel.UpdateClubRowsFound | src/models/clubModel.js:104-125 | the updated club is found with the new fields |
| ClubModel.UpdateClubRowsOthers | src/models/clubModel.js:104-125 | other clubs' lookups are unchanged by the update |
| ClubModel.DeleteClubRows | src/models/clubModel.js:127-130 | exactly the rows with another id remain, each as often as before |
| ClubModel.DeleteClubRowsDistinct | src/models/clubModel.js:127-130 | deleting keeps club ids unique |
| ClubModel.CreateClubRow | src/models/clubModel.js:87-102 | appends one club under the next id and returns its view |
| ClubModel.ClubByIdAppendFresh | src/models/clubModel.js:87-102 | after the insert, the new club is found by its id |
| ClubModel.UpdateClubRow | src/models/clubModel.js:104-125 | the table becomes `UpdateClubRows` of the old one; returns the fresh view |
| ClubModel.DeleteClubRow | src/models/clubModel.js:127-130 | the table becomes `DeleteClubRows` of the old one |
| ConfigModel.GetConfiguracion | src/models/configuracionModel.js:8-15 | the stored value exactly when the key exists, otherwise none |
| ConfigModel.UpdatedConfig | src/models/configuracionModel.js:23-29 | `UPDATE`: an existing key gets the value, no key is added, others are unchanged |
| ConfigModel.SetConfiguracion | src/models/configuracionModel.js:23-29 | the table becomes `UpdatedConfig` of the old one |
| ConfigModel.GetAfterSet | src/models/configuracionModel.js:8-29 | reading after a write gives the value written exactly when the key existed |
| ConfigModel.InscripcionesHabilitadas | src/models/configuracionModel.js:35-38 | enrollment is open exactly when the flag is stored as 'true' |
| ConfigModel.SetFlag | src/models/configuracionModel.js:23-38 | writing the flag opens enrollment exactly when the value is 'true' and the key exists |
| EnrollmentModel.CountActive | src/models/enrollmentModel.js:4-12 | zero exactly when no row is ACTIVO for the key |
| EnrollmentModel.CountActiveEnrollmentsByClub | src/models/enrollmentModel.js:4-12 | zero exactly when the club has no ACTIVO row |
| EnrollmentModel.CountActiveAppend | src/models/enrollmentModel.js:57-68 | appending a row adds one to exactly the counts it is ACTIVO in |
| EnrollmentModel.EnrollmentById | src/models/enrollmentModel.js:100 | a row with the id, or none exactly when no row has it |
| EnrollmentModel.CancelRows | src/models/enrollmentModel.js:70-80 | the row with the id becomes CANCELADO whatever its state; the others are unchanged |
| EnrollmentModel.CancelRowsIdempotent | src/models/enrollmentModel.js:70-80 | cancelling twice is cancelling once |
| EnrollmentModel.CancelRowsAbsent | src/models/enrollmentModel.js:70-80 | cancelling an unknown id changes nothing |
| EnrollmentModel.CountActiveCancel | src/models/enrollmentModel.js:70-80 | cancelling lowers a count by one exactly when the cancelled row was ACTIVO in it |
| EnrollmentModel.GetActiveEnrollmentByStudentId | src/models/enrollmentModel.js:46-55 | an ACTIVO row of the student, or none exactly when the student has none |
| EnrollmentModel.CreateEnrollment | src/models/enrollmentModel.js:57-68 | appends one ACTIVO row under the next id; only that club's count rises, by one |
| EnrollmentModel.CancelEnrollment | src/models/enrollmentModel.js:70-80 | the table becomes `CancelRows` of the old one |
| EnrollmentModel.Join | src/models/enrollmentModel.js:36-38 | the inner join with the row's student, club and club's sede |
| EnrollmentModel.FindActiveEnrollmentByDocument | src/models/enrollmentModel.js:14-44 | an ACTIVO joined row of the student with the document, or none exactly when there is none |
| EnrollmentModel.GetEnrollmentWithDetails | src/models/enrollmentModel.js:82-104 | the row with its student's sede and its club; present exactly when the row, student and club exist |
| EnrollmentModel.ActiveJoined | src/models/enrollmentModel.js:138-146 | exactly the ACTIVO rows that join, each as many times as in the table |
| EnrollmentModel.FilterRows | src/models/enrollmentModel.js:106-126 | exactly the rows passing every truthy filter, each as many times as given |
| EnrollmentModel.ListEnrollments | src/models/enrollmentModel.js:106-149 | exactly the joinable ACTIVO rows passing the filters, each as many times as in the table, sorted by sede, club and student name |
| EnrollmentModel.ListEnrollmentsOnce | src/models/enrollmentModel.js:106-149 | with unique enrollment ids, the listing holds each joined row at most once |
| Invariants.OneActiveIffCountAtMostOne | src/models/enrollmentModel.js:46-55 | "no two ACTIVO rows per student" equals "every student's ACTIVO count is at most one" |
| Invariants.CountAtMostOne | src/models/enrollmentModel.js:46-55 | under the rule, each student's ACTIVO count is at most one |
| Invariants.CountAtLeastTwo | src/models/enrollmentModel.js:46-55 | two ACTIVO rows of one student make a count of at least two |
| EnrollmentService.EnsureClubAvailable | src/services/enrollmentService.js:9-15 | the club's view exactly when the club exists, otherwise NotFound 'Club no encontrado' |
| EnrollmentService.RegisterDecision | src/services/enrollmentService.js:17-49 | admits exactly when all five conditions hold; each earlier failing check names the error |
| EnrollmentService.RegisterLateChecks | src/services/enrollmentService.js:36-48 | sede mismatch, then already enrolled, then club full, in that order |
| EnrollmentService.RegisterEnrollment | src/services/enrollmentService.js:17-64 | on admission appends one ACTIVO row and returns its details; on any error the table is untouched |
| EnrollmentService.AdmittedDetailsFound | src/services/enrollmentService.js:50-57 | the details of the appended row are the admitted student and club |
| EnrollmentService.EnrollmentByIdAppendFresh | src/models/enrollmentModel.js:57-68 | the appended row is found by its new id |
| EnrollmentService.AdminAssignEnrollment | src/services/enrollmentService.js:66-68 | behaves exactly as registration |
| EnrollmentService.AppendActiveKeepsConsistent | src/services/enrollmentService.js:36-53 | an ACTIVO row for a student without one, in the club's sede and below capacity, keeps every rule |
| EnrollmentService.RegisterKeepsConsistent | src/services/enrollmentService.js:17-64 | a successful registration keeps every rule |
| EnrollmentService.AppendExtends | src/services/enrollmentService.js:50-53 | appending keeps the history |
| EnrollmentService.CheckEnrollmentStatus | src/services/enrollmentService.js:70-102 | BadRequest exactly for an empty document; "not enrolled" exactly when the student has no ACTIVO joined row; otherwise the status is built from such a row's joined student, sede and club |
| EnrollmentService.StatusSedeIsClubSede | src/services/enrollmentService.js:88-92 | under the sede rule, the reported sede is the club's |
| EnrollmentService.FindActiveAppend | src/models/enrollmentModel.js:14-44 | a new ACTIVO row of a student without one is what the status lookup finds |
| EnrollmentService.RegisterThenStatus | src/services/enrollmentService.js:17-102 | right after registering, the status check reports the admitted club and student |
| EnrollmentService.CancelEnrollment | src/services/enrollmentService.js:104-123 | NotFound for an unknown enrollment; otherwise the row becomes CANCELADO and the old details come back with CANCELADO |
| EnrollmentService.EnrollmentByIdCancel | src/models/enrollmentModel.js:70-80 | the cancelled row is found, CANCELADO |
| EnrollmentService.CancelThenDetails | src/services/enrollmentService.js:104-123 | reading the details after cancelling gives the returned value |
| EnrollmentService.CancelKeepsConsistent | src/services/enrollmentService.js:104-123 | cancelling keeps every rule and the history |
| EnrollmentService.MoveDecision | src/services/enrollmentService.js:125-153 | moves exactly when all checks pass; the first failing check names the error; the row's state is not checked |
| EnrollmentService.MovedDetailsFound | src/services/enrollmentService.js:155-164 | the new row's details are the old ones with the target club |
| EnrollmentService.MoveEnrollment | src/services/enrollmentService.js:125-171 | on success cancels the row and appends an ACTIVO row for the target club; on error the table is untouched |
| EnrollmentService.MoveKeepsConsistent | src/services/enrollmentService.js:125-171 | moving an ACTIVO row keeps every rule |
| EnrollmentService.MoveShiftsOneSeat | src/services/enrollmentService.js:150-160 | the old club loses one seat holder, the target gains one, the student keeps exactly one ACTIVO row |
| EnrollmentService.MoveExtends | src/services/enrollmentService.js:155-160 | a move keeps the history |
| EnrollmentService.MoveOfCancelledRowBreaksOneActive | src/services/enrollmentService.js:131-160 | moving a CANCELADO row is accepted and leaves a student with two ACTIVO rows |
| Report.StudentsOf | src/services/enrollmentService.js:234-239 | a club's listed students, in listing order |
| Report.BaseFor | src/services/enrollmentService.js:203-217 | the last base club with the id, or none exactly when there is none |
| Report.FirstRowFor | src/services/enrollmentService.js:220-232 | the first listing row of the club, or none exactly when there is none |
| Report.IndexOf | src/services/enrollmentService.js:220 | `map.get`: the position of the club's entry, or none exactly when it has none |
| Report.SetEntry | src/services/enrollmentService.js:204-244 | `map.set`: replaces the club's entry in place or appends it; keys stay unique |
| Report.Fill | src/services/enrollmentService.js:201-217 | the base pass leaves unique keys |
| Report.FillEntries | src/services/enrollmentService.js:203-217 | each base club has an entry built from its (last) view, with zero students |
| Report.FillBase | src/services/enrollmentService.js:203-217 | the loop builds exactly `Fill` |
| Report.AddRow | src/services/enrollmentService.js:234-243 | adds one student; the occupied count is the number of students and the free seats are recomputed |
| Report.MergeRow | src/services/enrollmentService.js:219-245 | one listing row keeps the keys unique |
| Report.Merge | src/services/enrollmentService.js:219-245 | the row pass keeps the keys unique |
| Report.AddRows | src/services/enrollmentService.js:219-245 | the loop builds exactly `Merge` |
| Report.FillInvariant | src/services/enrollmentService.js:201-217 | the base pass establishes the entry invariant |
| Report.EntryInvariantOther | src/services/enrollmentService.js:219-245 | a row of another club leaves an entry's invariant intact |
| Report.EntryInvariantRow | src/services/enrollmentService.js:219-245 | adding a row to its club's entry (or a fresh one) keeps the invariant |
| Report.StudentsOfNone | src/services/enrollmentService.js:234-239 | a club without rows has no students |
| Report.MergeRowInvariant | src/services/enrollmentService.js:219-245 | one row keeps the report invariant |
| Report.MergeInvariantHolds | src/services/enrollmentService.js:201-245 | after both passes every entry has its students, counts and header, and every base club and listed club has an entry |
| Report.DistinctOnce | src/services/enrollmentService.js:247 | with unique keys no entry occurs twice |
| Report.PermutedEntries | src/services/enrollmentService.js:247-252 | sorting keeps keys unique and keeps every club's entry |
| Report.ReportSede | src/services/enrollmentService.js:174-183 | NotFound exactly when a slug is given and unknown; otherwise the sede with that slug, or none |
| Report.BaseClubs | src/services/enrollmentService.js:191-199 | for a non-number id, the failed `getClubById(NaN)` query as a 500 error; otherwise the club with the id (or nothing); the sede's clubs; or all clubs |
| Report.GetReport | src/services/enrollmentService.js:173-262 | NotFound for an unknown slug; else a 500 error for a non-number club id; otherwise echoes the filters and returns the entries, sorted by sede and club name, keys unique, each satisfying the entry invariant, covering every base and listed club |
| ClubService.ListClubsBySedeSlug | src/services/clubService.js:11-18 | NotFound exactly when no sede has the slug; otherwise the sede and exactly its joinable clubs, each as many times as in the table |
| ClubService.GetClubDetails | src/services/clubService.js:20-26 | the club's view with its ACTIVO count, or NotFound exactly when there is none |
| ClubService.FieldsOf | src/services/clubService.js:46-53 | the written fields: numeric capacity and absent texts as '' |
| ClubService.CreateDecision | src/services/clubService.js:28-53 | creates exactly when slug, name and manager are given, the sede exists and the capacity is a number ≥ 0; the checks keep the source's order |
| ClubService.CreateClub | src/services/clubService.js:28-56 | on success appends one club under the next id and returns its view, with its sede's name and slug; that view is what `getClubById` reads back for the new id; on error nothing is written |
| ClubService.UpdateDecision | src/services/clubService.js:58-83 | updates exactly when the club exists, the fields are valid and the ACTIVO count fits the new capacity; the checks keep the source's order |
| ClubService.UpdateClub | src/services/clubService.js:58-106 | on success the club gets the new fields, keeps its id and sede, and has no more students than seats; the returned view is what `getClubById` reads back for the id; on error nothing is written |
| ClubService.UpdateKeepsConsistent | src/services/clubService.js:78-95 | an accepted update keeps every rule |
| ClubService.DeleteDecision | src/services/clubService.js:108-116 | deletes exactly when the club exists and has no ACTIVO row |
| ClubService.DeleteClub | src/services/clubService.js:108-119 | on success the club's row is removed; on error nothing is written |
| ClubService.DeleteClubRowsLookup | src/models/clubModel.js:127-130 | after deleting, the id is gone and every other club is found as before |
| ClubService.DeleteKeepsConsistent | src/services/clubService.js:108-119 | an accepted delete keeps every rule |
| StudentService.TrimField | src/services/studentService.js:57-60 | `x?.trim()`: absent stays absent, present is trimmed |
| StudentService.SedeMapLookup | src/services/studentService.js:24-28 | the last sede whose slug or normalized name is the key, or none exactly when no sede matches |
| StudentService.SlugFindsSede | src/services/studentService.js:24-28 | a sede's own slug always finds a sede |
| StudentService.RecordDocument | src/services/studentService.js:60-61 | the trimmed, upper-cased document, or '' |
| StudentService.CheckRecordOrder | src/services/studentService.js:57-82 | the checks of a record in order (blank field, seen before, unknown sede, bad document) and what acceptance means |
| StudentService.AcceptedIsNormal | src/services/studentService.js:60-92 | an accepted document is already trimmed and upper-cased, so `ensureStudent`'s own normalization leaves it unchanged |
| StudentService.Step | src/services/studentService.js:53-101 | one record adds one outcome and keeps the earlier ones and the seen set; an accepted document, already in normal form, is stored as it is |
| StudentService.StepFacts | src/services/studentService.js:63-97 | an error exactly for a rejected record; an added record was accepted, unseen, and grows the table by one student carrying the accepted document |
| StudentService.StepPartition | src/services/studentService.js:63-97 | each case of a step as the three lists see it |
| StudentService.RunAll | src/services/studentService.js:53-101 | one outcome per record |
| StudentService.PrepareAll | src/services/studentService.js:57-61 | each record read in its place |
| StudentService.AddedOf | src/services/studentService.js:94 | `agregados` never longer than the records |
| StudentService.DuplicatesOf | src/services/studentService.js:69-96 | `duplicados` never longer than the records |
| StudentService.ErrorsOf | src/services/studentService.js:64-80 | `errores` never longer than the records |
| StudentService.PartitionCounts | src/services/studentService.js:53-101 | every record lands in exactly one of the three lists |
| StudentService.ImportStudentsCsv | src/services/studentService.js:18-113 | a missing file is BadRequest; no records gives only the empty-file error; otherwise the three lists and the student table are those of the run over the records |
| StudentService.ImportAll | src/services/studentService.js:53-100 | the records in order: the three lists and the student table are those of the run over the prepared records |
| StudentService.ImportRecord | src/services/studentService.js:54-99 | one record moves the lists, the seen documents and the student table from one run state to the next step's |
| StudentService.RunAllAt | src/services/studentService.js:53-101 | record i's outcome depends only on the state the earlier records left |
| StudentService.RecordRejected | src/services/studentService.js:63-82 | record i is an error exactly when a check rejects it, with that check's error |
| StudentService.BlankFieldIsError | src/services/studentService.js:63-66 | a record with a blank field is the "missing fields" error of its line |
| StudentService.RunAllAddsDistinct | src/services/studentService.js:68-84 | no document is added twice in one import |
| StudentService.DistinctStep | src/services/studentService.js:68-84 | one step keeps the added documents pairwise distinct |
| StudentService.NewlyStoredGrows | src/services/studentService.js:86-97 | a student added earlier stays in the table |
| StudentService.AddedAreStored | src/services/studentService.js:86-97 | every added record is a new student of the table, under the document the record was accepted with |
| StudentService.StoredStep | src/services/studentService.js:86-97 | one step keeps every added record stored |
| StudentService.StudentsBelowNext | src/services/studentService.js:86-97 | the run only appends to the student table and never lowers the id counter |
| StudentService.GetEligibleStudent | src/services/studentService.js:115-126 | the student with the document; NotFound when none; Conflict when a given sede differs |
| StudentService.EnsureStudentAvailableForClub | src/services/studentService.js:128-149 | the student exactly when found, in the club's sede and without an ACTIVO row; otherwise the first failing check's error |
| StudentService.AvailableIsEligible | src/services/studentService.js:115-149 | a student available for a club is eligible for the club's sede |
| StudentService.AvailableKeepsOneActive | src/services/studentService.js:128-149 | enrolling an available student as ACTIVO keeps one ACTIVO row per student and the sede rule for the new row |
| AdminAuth.GetProvidedCode | src/middleware/adminAuth.js:3-12 | a `Bearer` header wins, trimmed; otherwise the trimmed `x-admin-code`; none exactly when neither is sent |
| AdminAuth.RequireAdmin | src/middleware/adminAuth.js:14-31 | 500 whenever no code is configured; otherwise passes exactly when a non-empty provided code equals it, else 401 |
| AdminAuth.BearerCodePasses | src/middleware/adminAuth.js:4-7 | the configured code sent as `Bearer`, padded with white space, passes |
| AdminAuth.HeaderCodePasses | src/middleware/adminAuth.js:8-10 | the configured code in `x-admin-code`, padded, passes |
| AdminAuth.BearerShadowsHeader | src/middleware/adminAuth.js:4-10 | a wrong bearer code is refused even when `x-admin-code` is right |
| AdminAuth.UntrimmedCodeRefusesAll | src/middleware/adminAuth.js:22-28 | a configured code with white space at either end refuses every request |
| BasePath.NormalizeBase | client/vite.config.js:5-8 | the result starts and ends with '/' and adds at most two characters |
| BasePath.NormalizeBaseKeepsValue | client/vite.config.js:5-8 | the value sits inside the result, with a '/' added in front only when missing and at most one at the end; a value with both slashes is unchanged |
| BasePath.NormalizeBaseIdempotent | client/vite.config.js:5-8 | normalizing twice is normalizing once |
| BasePath.NormalizeBaseOfRoot | client/vite.config.js:14 | '' and '/' both give '/' |
| BasePath.NormalizeBaseOfName | client/vite.config.js:6-7 | a bare name gets both slashes |

## Left out

- Database I/O, connections, transactions and rollback are not modelled. Each service call is one atomic step that either writes everything or nothing.
- Concurrency is not modelled.
  - `ClubService.DeleteClub` checks `inscritos` outside any transaction. The race with a concurrent registration is not captured.
  - In the same way, the race between the capacity check and the INSERT in registration is not captured.
- Timestamps (`creado_en`) and any other column the checks do not read are not modelled.
- Foreign keys and `ON DELETE` behaviour of the schema are not modelled; the schema file is not part of this model.
- `src/utils/constants.js` is not part of this model. ACTIVO and CANCELADO are two enumeration values.
- Ordering.SortBy: orders by char code, not by MySQL collation or by `localeCompare`. Accents and letter case may sort differently.
- Text.ToUpper, Text.ToLower: only ASCII letters change case. Other Unicode letters are left as they are.
- Text.NormalizeSlug: the NFD decomposition and the removal of combining accents are not modelled. Accented letters are dropped rather than reduced to their base letter.
- StudentModel.FilterStudents: `LIKE '%x%'` is plain substring search. LIKE wildcards inside the search text and case-insensitive collation are not modelled.
- Values.ToNumber: numbers are integers. Fractional capacities and ids are not modelled, and `''` or `null` given as a capacity is read as `Num(0)`, as `Number` does.
- ClubService.CreateDecision: a capacity sent as `null` (which `Number` turns into 0) is modelled as `Num(0)`.
- SedeModel.GetSedeBySlug, StudentModel.StudentByDocument, StudentModel.FindStudentByDocument, StudentModel.CreateStudent: `WHERE slug = ?`, `WHERE documento = ?` and the unique index on `documento` compare with the column's collation. MySQL's default utf8mb4 collations ignore letter case and accents. The model compares strings exactly, so `Centro` does not find the slug `centro` here, although the database would find it. Documents are upper-cased before every lookup and insert, so for them the difference is limited to accented letters.
- StudentModel.CreateStudent, StudentModel.EnsureStudent, StudentService.Step: a duplicate document leaves the id counter unchanged. InnoDB can use up an AUTO_INCREMENT value on an INSERT that fails with a duplicate key, leaving a gap. The model's ids come from a counter without gaps, so after an "already registered" record the database may hand out larger ids than the model states.
- Errors.NewAppError: the optional `details` argument of `AppError` is not modelled. No service in this model passes it, so no error carries it.
- Report.BaseClubs: the failed query's message is MySQL's text for an unknown column; its exact wording belongs to the server, not to this program.
- StudentService.ImportStudentsCsv:
  - reading and parsing the file (`parseCsvFile`) and deleting the file afterwards are not modelled; the records arrive already parsed and the file's existence is a parameter;
  - a database error while inserting one record (the "Error al guardar" error of its line) is not modelled;
  - `errores` holds tagged values instead of the formatted Spanish messages.
- StudentService.SedeMapLookup: the sede map is a plain JavaScript object. A key such as `constructor` finds an inherited property; this is not modelled.
- StudentModel.EnsureStudent: the case where the duplicate document's student cannot be read back (`existing?.id` undefined) cannot occur in the model, since the unique index guarantees the row.
- `listSedes` and `listStudents` hand the call straight to `SedeModel.GetAllSedes` and `StudentModel.GetStudents`. They have no member of their own.
- AdminAuth.GetProvidedCode: a repeated `x-admin-code` header, which Node delivers as an array, is not modelled. Headers are single strings or absent.
- The HTTP layer (routes, controllers, the JSON shapes of responses) and the client pages are not modelled.

=== FILE: admin_auth.dfy ===
/** The guard in front of the admin routes: the access code a request carries,
    and the decision to let it through, answer 500 (no code configured) or
    answer 401. The configured code is a parameter instead of the environment. */
module AdminAuth {
  import opened Values
  import opened Text

  const BearerPrefix: string := "Bearer "
  const MsgNotConfigured: string := "Código de administrador no configurado"
  const MsgUnauthorized: string := "No autorizado"

  /** The two headers the guard reads; a header that is not sent is `None`. */
  datatype Headers = Headers(authorization: Option<string>, adminCode: Option<string>)

  /** `s.startsWith(p)`. */
  predicate StartsWith(s: string, p: string) {
    |p| <= |s| && s[..|p|] == p
  }

  /** `getProvidedCode`: a truthy `Authorization` header that starts with
      `Bearer ` wins, and the code is the trimmed rest of it; otherwise a truthy
      `x-admin-code` header, trimmed; otherwise nothing. */
  function GetProvidedCode(h: Headers): (r: Option<string>)
    ensures TruthyString(h.authorization) && StartsWith(h.authorization.value, BearerPrefix)
            ==> r == Some(Trim(h.authorization.value[|BearerPrefix|..]))
    ensures !(TruthyString(h.authorization) && StartsWith(h.authorization.value, BearerPrefix))
            && TruthyString(h.adminCode)
            ==> r == Some(Trim(h.adminCode.value))
    ensures r.None? <==> !(TruthyString(h.authorization) && StartsWith(h.authorization.value, BearerPrefix))
                         && !TruthyString(h.adminCode)
    ensures r.Some? ==> Trimmed(r.value)
  {
    var auth := h.authorization;
    if auth.Some? && auth.value != "" && StartsWith(auth.value, BearerPrefix) then
      Some(Trim(auth.value[7..]))
    else if h.adminCode.Some? && h.adminCode.value != "" then
      Some(Trim(h.adminCode.value))
    else
      None
  }

  /** What `requireAdmin` does with a request: hand it on, or answer it. */
  datatype Decision = Next | Respond(status: int, message: string)

  /** `requireAdmin`: 500 whenever no code is configured, whatever the request;
      otherwise the request passes exactly when it carries a non-empty code equal
      to the configured one, and is answered 401 when it does not. */
  function RequireAdmin(configured: Option<string>, h: Headers): (r: Decision)
    ensures !TruthyString(configured) ==> r == Respond(500, MsgNotConfigured)
    ensures TruthyString(configured) ==>
              (r == Next <==> GetProvidedCode(h).Some? && GetProvidedCode(h).value != ""
                              && GetProvidedCode(h).value == configured.value)
    ensures TruthyString(configured) && r != Next ==> r == Respond(401, MsgUnauthorized)
  {
    if configured.None? || configured.value == "" then Respond(500, MsgNotConfigured)
    else
      var provided := GetProvidedCode(h);
      if provided.None? || provided.value == "" || provided.value != configured.value then
        Respond(401, MsgUnauthorized)
      else
        Next
  }

  /** The configured code sent as `Bearer <code>`, with any white space around
      it, passes, whatever the `x-admin-code` header says. */
  lemma BearerCodePasses(code: string, w1: string, w2: string, other: Option<string>)
    requires code != "" && Trimmed(code)
    requires AllWhitespace(w1) && AllWhitespace(w2)
    ensures RequireAdmin(Some(code), Headers(Some(BearerPrefix + (w1 + code + w2)), other)) == Next
  {
    var padded := w1 + code + w2;
    var auth := BearerPrefix + padded;
    assert auth[..|BearerPrefix|] == BearerPrefix;
    assert auth[|BearerPrefix|..] == padded;
    TrimIgnoresPadding(w1, code, w2);
    TrimOfTrimmed(code);
    assert GetProvidedCode(Headers(Some(auth), other)) == Some(code);
  }

  /** Without an `Authorization` header, the configured code sent in
      `x-admin-code`, with any white space around it, passes. */
  lemma HeaderCodePasses(code: string, w1: string, w2: string)
    requires code != "" && Trimmed(code)
    requires AllWhitespace(w1) && AllWhitespace(w2)
    ensures RequireAdmin(Some(code), Headers(None, Some(w1 + code + w2))) == Next
  {
    var padded := w1 + code + w2;
    assert |padded| == |w1| + |code| + |w2|;
    TrimIgnoresPadding(w1, code, w2);
    TrimOfTrimmed(code);
    assert GetProvidedCode(Headers(None, Some(padded))) == Some(code);
  }

  /** A `Bearer` header shadows `x-admin-code`: with a wrong bearer code the
      request is refused even when `x-admin-code` carries the right one. */
  lemma BearerShadowsHeader(code: string, auth: string, adminCode: Option<string>)
    requires code != ""
    requires StartsWith(auth, BearerPrefix) && Trim(auth[|BearerPrefix|..]) != code
    ensures RequireAdmin(Some(code), Headers(Some(auth), adminCode)) == Respond(401, MsgUnauthorized)
  {
  }

  /** The provided code is always trimmed, so a configured code with white space
      at either end refuses every request. */
  lemma UntrimmedCodeRefusesAll(code: string, h: Headers)
    requires code != "" && !Trimmed(code)
    ensures RequireAdmin(Some(code), h) == Respond(401, MsgUnauthorized)
  {
  }
}

=== FILE: base_path.dfy ===
/** The client build's base path: `normalizeBase` makes the configured value
    start and end with a slash. */
module BasePath {

  /** `normalizeBase`: a slash is put in front unless the value starts with one,
      and one at the end unless the result already ends with one. */
  function NormalizeBase(raw: string): (r: string)
    ensures |r| > 0 && r[0] == '/' && r[|r| - 1] == '/'
    ensures |raw| <= |r| <= |raw| + 2
  {
    var withLeading := if |raw| > 0 && raw[0] == '/' then raw else "/" + raw;
    if withLeading[|withLeading| - 1] == '/' then withLeading else withLeading + "/"
  }

  /** The value sits inside the result unchanged: at most one slash is added in
      front and at most one at the end, and each only where one was missing. */
  lemma NormalizeBaseKeepsValue(raw: string)
    ensures var r := NormalizeBase(raw);
            exists a, b :: r == a + raw + b && a in {"", "/"} && b in {"", "/"}
    ensures |raw| > 0 && raw[0] == '/' && raw[|raw| - 1] == '/' ==> NormalizeBase(raw) == raw
    ensures !(|raw| > 0 && raw[0] == '/') ==> NormalizeBase(raw)[0] == '/' && NormalizeBase(raw)[1..][..|raw|] == raw
    ensures |raw| > 0 && raw[0] == '/' ==> NormalizeBase(raw)[..|raw|] == raw
  {
    var r := NormalizeBase(raw);
    if |raw| > 0 && raw[0] == '/' {
      if raw[|raw| - 1] == '/' {
        assert r == "" + raw + "";
      } else {
        assert r == "" + raw + "/";
      }
    } else {
      var w := "/" + raw;
      if w[|w| - 1] == '/' {
        assert r == "/" + raw + "";
      } else {
        assert r == "/" + raw + "/";
      }
    }
  }

  /** A base path already normalized is left alone. */
  lemma NormalizeBaseIdempotent(raw: string)
    ensures NormalizeBase(NormalizeBase(raw)) == NormalizeBase(raw)
  {
  }

  /** The value the build falls back to, `/`, and the empty value both give `/`. */
  lemma NormalizeBaseOfRoot()
    ensures NormalizeBase("") == "/"
    ensures NormalizeBase("/") == "/"
  {
  }

  /** A bare name gets both slashes. */
  lemma NormalizeBaseOfName(name: string)
    requires |name| > 0 && name[0] != '/' && name[|name| - 1] != '/'
    ensures NormalizeBase(name) == "/" + name + "/"
  {
  }
}

=== FILE: club_model.dfy ===
/** The `clubs` table: the aggregate views that join each club with its sede and
    its active-enrollment count, and the INSERT, UPDATE and DELETE statements. */
module ClubModel {
  import opened Values
  import opened Schema
  import opened Ordering
  import SedeModel
  import EnrollmentModel

  /** `GREATEST(capacidad - inscritos, 0)`: the free seats, never negative. */
  function AvailableSeats(capacidad: int, inscritos: nat): (r: nat)
    ensures r >= capacidad - inscritos
    ensures r == 0 || r == capacidad - inscritos
    ensures r > 0 <==> inscritos < capacidad
  {
    if capacidad - inscritos > 0 then capacidad - inscritos else 0
  }

  /** A club row as the club queries return it: with its sede's name and slug,
      the active-enrollment count and the free seats. */
  datatype ClubView = ClubView(club: Club, sedeNombre: string, sedeSlug: string,
                               inscritos: nat, cuposDisponibles: nat)

  /** One group of the `clubs INNER JOIN sedes LEFT JOIN inscripciones(ACTIVO)`
      aggregate; a club whose sede is missing drops out of the inner join. */
  function ViewOf(c: Club, sedes: seq<Sede>, enrollments: seq<Enrollment>): (r: Option<ClubView>)
    ensures r.None? <==> SedeModel.GetSedeById(sedes, c.sedeId).None?
    ensures r.Some? ==> r.value.club == c
                        && r.value.inscritos == EnrollmentModel.CountActiveEnrollmentsByClub(enrollments, c.id)
                        && r.value.cuposDisponibles >= c.capacidad - r.value.inscritos
                        && (r.value.cuposDisponibles == 0
                            || r.value.cuposDisponibles + r.value.inscritos == c.capacidad)
                        && Sede(c.sedeId, r.value.sedeNombre, r.value.sedeSlug) in sedes
  {
    var s := SedeModel.GetSedeById(sedes, c.sedeId);
    if s.None? then None
    else
      var n := EnrollmentModel.CountActiveEnrollmentsByClub(enrollments, c.id);
      Some(ClubView(c, s.value.nombre, s.value.slug, n, AvailableSeats(c.capacidad, n)))
  }

  /** Cancelled rows never count: cancelling a club's active row frees one seat
      of that club and leaves every other club's count alone. */
  lemma InscritosIgnoresCancelled(enrollments: seq<Enrollment>, id: int, c: Club, sedes: seq<Sede>)
    requires forall i, j :: 0 <= i < j < |enrollments| ==> enrollments[i].id != enrollments[j].id
    requires ViewOf(c, sedes, enrollments).Some?
    ensures var hit := EnrollmentModel.EnrollmentById(enrollments, id);
            ViewOf(c, sedes, EnrollmentModel.CancelRows(enrollments, id)).value.inscritos
              + (if hit.Some? && hit.value.estado == Activo && hit.value.clubId == c.id then 1 else 0)
            == ViewOf(c, sedes, enrollments).value.inscritos
  {
    EnrollmentModel.CountActiveCancel(enrollments, id, EnrollmentModel.ClubColumn, c.id);
  }

  /** Every club that joins its sede, in table order, each as often as in the table. */
  function Views(clubs: seq<Club>, sedes: seq<Sede>, enrollments: seq<Enrollment>): (r: seq<ClubView>)
    ensures forall v :: v in r <==> v.club in clubs && ViewOf(v.club, sedes, enrollments) == Some(v)
    ensures forall v :: multiset(r)[v] == if ViewOf(v.club, sedes, enrollments) == Some(v)
                                          then multiset(clubs)[v.club] else 0
  {
    if clubs == [] then []
    else
      assert clubs == [clubs[0]] + clubs[1..];
      var v := ViewOf(clubs[0], sedes, enrollments);
      var rest := Views(clubs[1..], sedes, enrollments);
      if v.Some? then [v.value] + rest else rest
  }

  /** `getClubById`: the view of the club with that id; nothing when the id is
      absent (or its sede is). */
  function GetClubById(clubs: seq<Club>, sedes: seq<Sede>, enrollments: seq<Enrollment>, id: int)
    : (r: Option<ClubView>)
    ensures r.Some? ==> r.value.club.id == id && r.value.club in clubs
                        && ViewOf(r.value.club, sedes, enrollments) == r
    ensures ClubById(clubs, id).None? ==> r.None?
    ensures ClubById(clubs, id).Some? ==>
              (r.Some? <==> SedeModel.GetSedeById(sedes, ClubById(clubs, id).value.sedeId).Some?)
  {
    var c := ClubById(clubs, id);
    if c.None? then None else ViewOf(c.value, sedes, enrollments)
  }

  function ClubNameKey(v: ClubView): seq<string> {
    [v.club.nombre]
  }

  function SedeThenClubKey(v: ClubView): seq<string> {
    [v.sedeNombre, v.club.nombre]
  }

  function ViewsOfSede(views: seq<ClubView>, sedeId: int): (r: seq<ClubView>)
    ensures forall v :: v in r <==> v in views && v.club.sedeId == sedeId
    ensures forall v :: multiset(r)[v] == if v.club.sedeId == sedeId then multiset(views)[v] else 0
  {
    if views == [] then []
    else
      assert views == [views[0]] + views[1..];
      if views[0].club.sedeId == sedeId then [views[0]] + ViewsOfSede(views[1..], sedeId)
      else ViewsOfSede(views[1..], sedeId)
  }

  /** `getClubsBySedeId`: exactly the sede's clubs, each as often as in the
      table, `ORDER BY c.nombre`. */
  function GetClubsBySedeId(clubs: seq<Club>, sedes: seq<Sede>, enrollments: seq<Enrollment>, sedeId: int)
    : (r: seq<ClubView>)
    ensures forall v :: v in r <==> v.club in clubs && v.club.sedeId == sedeId
                                    && ViewOf(v.club, sedes, enrollments) == Some(v)
    ensures forall v :: multiset(r)[v] == if v.club.sedeId == sedeId && ViewOf(v.club, sedes, enrollments) == Some(v)
                                          then multiset(clubs)[v.club] else 0
    ensures SortedBy(r, ClubNameKey)
  {
    var mine := ViewsOfSede(Views(clubs, sedes, enrollments), sedeId);
    var r := SortBy(mine, ClubNameKey);
    forall v ensures v in r <==> v in mine {
      SortByMembers(mine, ClubNameKey, v);
    }
    r
  }

  /** `getAllClubs`: every club that joins its sede, each as often as in the
      table, `ORDER BY s.nombre, c.nombre`. */
  function GetAllClubs(clubs: seq<Club>, sedes: seq<Sede>, enrollments: seq<Enrollment>): (r: seq<ClubView>)
    ensures forall v :: v in r <==> v.club in clubs && ViewOf(v.club, sedes, enrollments) == Some(v)
    ensures forall v :: multiset(r)[v] == if ViewOf(v.club, sedes, enrollments) == Some(v)
                                          then multiset(clubs)[v.club] else 0
    ensures SortedBy(r, SedeThenClubKey)
  {
    var all := Views(clubs, sedes, enrollments);
    var r := SortBy(all, SedeThenClubKey);
    forall v ensures v in r <==> v in all {
      SortByMembers(all, SedeThenClubKey, v);
    }
    r
  }

  /** Under the primary key, both club listings hold each club at most once. */
  lemma ClubListingsOnce(clubs: seq<Club>, sedes: seq<Sede>, enrollments: seq<Enrollment>, sedeId: int)
    requires ClubIdsDistinct(clubs)
    ensures forall v :: multiset(GetAllClubs(clubs, sedes, enrollments))[v] <= 1
    ensures forall v :: multiset(GetClubsBySedeId(clubs, sedes, enrollments, sedeId))[v] <= 1
  {
    forall c ensures multiset(clubs)[c] <= 1 {
      RowsOnce(clubs, c);
    }
  }

  /** The five columns `updateClub` writes; `sede_id` is not among them. */
  datatype ClubFields = ClubFields(nombre: string, descripcion: string, responsable: string,
                                   capacidad: int, imagenUrl: string)

  /** `UPDATE clubs SET nombre, descripcion, responsable, capacidad, imagen_url WHERE id = ?`. */
  function UpdateClubRows(rows: seq<Club>, id: int, f: ClubFields): (r: seq<Club>)
    ensures |r| == |rows|
    ensures forall i :: 0 <= i < |rows| ==>
              r[i] == if rows[i].id == id
                      then Club(id, rows[i].sedeId, f.nombre, f.descripcion, f.responsable, f.capacidad, f.imagenUrl)
                      else rows[i]
  {
    seq(|rows|, i requires 0 <= i < |rows| =>
      if rows[i].id == id
      then rows[i].(nombre := f.nombre, descripcion := f.descripcion, responsable := f.responsable,
                    capacidad := f.capacidad, imagenUrl := f.imagenUrl)
      else rows[i])
  }

  /** The updated club, found again by its id, carries the new fields and its old sede. */
  lemma {:induction false} UpdateClubRowsFound(rows: seq<Club>, id: int, f: ClubFields)
    requires ClubById(rows, id).Some?
    ensures ClubById(UpdateClubRows(rows, id, f), id)
            == Some(Club(id, ClubById(rows, id).value.sedeId, f.nombre, f.descripcion, f.responsable,
                         f.capacidad, f.imagenUrl))
  {
    var r := UpdateClubRows(rows, id, f);
    if rows[0].id != id {
      assert r[1..] == UpdateClubRows(rows[1..], id, f);
      UpdateClubRowsFound(rows[1..], id, f);
    }
  }

  /** Rows with other ids are found unchanged. */
  lemma {:induction false} UpdateClubRowsOthers(rows: seq<Club>, id: int, f: ClubFields, other: int)
    requires other != id
    ensures ClubById(UpdateClubRows(rows, id, f), other) == ClubById(rows, other)
  {
    if rows != [] {
      var r := UpdateClubRows(rows, id, f);
      assert r[1..] == UpdateClubRows(rows[1..], id, f);
      UpdateClubRowsOthers(rows[1..], id, f, other);
    }
  }

  /** `DELETE FROM clubs WHERE id = ?`. */
  function DeleteClubRows(rows: seq<Club>, id: int): (r: seq<Club>)
    ensures forall c :: c in r <==> c in rows && c.id != id
    ensures forall c :: multiset(r)[c] == if c.id != id then multiset(rows)[c] else 0
    ensures |r| <= |rows|
  {
    if rows == [] then []
    else
      assert rows == [rows[0]] + rows[1..];
      if rows[0].id == id then DeleteClubRows(rows[1..], id)
      else [rows[0]] + DeleteClubRows(rows[1..], id)
  }

  /** A club whose id no later row carries can head a table of distinct ids. */
  lemma ConsClubDistinct(x: Club, rest: seq<Club>)
    requires ClubIdsDistinct(rest)
    requires forall c :: c in rest ==> c.id != x.id
    ensures ClubIdsDistinct([x] + rest)
  {
    var r := [x] + rest;
    forall i, j | 0 <= i < j < |r| ensures r[i].id != r[j].id {
      assert r[j] == rest[j - 1];
      if i > 0 {
        assert r[i] == rest[i - 1];
      }
    }
  }

  /** Deleting rows keeps the ids distinct. */
  lemma {:induction false} DeleteClubRowsDistinct(rows: seq<Club>, id: int)
    requires ClubIdsDistinct(rows)
    ensures ClubIdsDistinct(DeleteClubRows(rows, id))
  {
    if rows != [] {
      var t := rows[1..];
      assert ClubIdsDistinct(t) by {
        forall i, j | 0 <= i < j < |t| ensures t[i].id != t[j].id {
          assert t[i] == rows[i + 1] && t[j] == rows[j + 1];
        }
      }
      DeleteClubRowsDistinct(t, id);
      var rest := DeleteClubRows(t, id);
      if rows[0].id != id {
        forall c | c in rest ensures c.id != rows[0].id {
          assert c in t;
          var k :| 0 <= k < |t| && t[k] == c;
          assert rows[k + 1] == c;
        }
        ConsClubDistinct(rows[0], rest);
      }
    }
  }

  /** `createClub`: INSERT under the next AUTO_INCREMENT id, then `getClubById`. */
  method CreateClubRow(db: Database, sedeId: int, f: ClubFields) returns (id: int, view: Option<ClubView>)
    requires db.Valid()
    modifies db`clubs, db`nextClubId
    ensures db.Valid()
    ensures id == old(db.nextClubId) && ClubById(old(db.clubs), id).None?
    ensures db.nextClubId == old(db.nextClubId) + 1
    ensures db.clubs == old(db.clubs)
                        + [Club(id, sedeId, f.nombre, f.descripcion, f.responsable, f.capacidad, f.imagenUrl)]
    ensures ClubById(db.clubs, id).Some? && ClubById(db.clubs, id).value.sedeId == sedeId
    ensures view == GetClubById(db.clubs, db.sedes, db.enrollments, id)
  {
    id := db.nextClubId;
    var row := Club(id, sedeId, f.nombre, f.descripcion, f.responsable, f.capacidad, f.imagenUrl);
    ClubByIdAppendFresh(db.clubs, row);
    db.clubs := db.clubs + [row];
    db.nextClubId := db.nextClubId + 1;
    view := GetClubById(db.clubs, db.sedes, db.enrollments, id);
  }

  lemma {:induction false} ClubByIdAppendFresh(rows: seq<Club>, c: Club)
    requires ClubById(rows, c.id).None?
    ensures ClubById(rows + [c], c.id) == Some(c)
  {
    if rows == [] {
      assert rows + [c] == [c];
    } else {
      assert (rows + [c])[1..] == rows[1..] + [c];
      ClubByIdAppendFresh(rows[1..], c);
    }
  }

  /** `updateClub` (model): writes the five editable columns of row `id` and
      reads the row back; no other row and no other column changes. */
  method UpdateClubRow(db: Database, id: int, f: ClubFields) returns (view: Option<ClubView>)
    requires db.Valid()
    modifies db`clubs
    ensures db.Valid()
    ensures db.clubs == UpdateClubRows(old(db.clubs), id, f)
    ensures view == GetClubById(db.clubs, db.sedes, db.enrollments, id)
  {
    var r := UpdateClubRows(db.clubs, id, f);
    forall c | c in r ensures 1 <= c.id < db.nextClubId {
      var k :| 0 <= k < |r| && r[k] == c;
      assert db.clubs[k] in db.clubs;
    }
    db.clubs := r;
    view := GetClubById(db.clubs, db.sedes, db.enrollments, id);
  }

  /** `deleteClub` (model): removes the row with that id. */
  method DeleteClubRow(db: Database, id: int)
    requires db.Valid()
    modifies db`clubs
    ensures db.Valid()
    ensures db.clubs == DeleteClubRows(old(db.clubs), id)
  {
    DeleteClubRowsDistinct(db.clubs, id);
    db.clubs := DeleteClubRows(db.clubs, id);
  }
}

=== FILE: club_service.dfy ===
/** The club service: the public listing of a sede's clubs, a club's details,
    and the administrator's creation, update and deletion of clubs with the
    checks that guard them. */
module ClubService {
  import opened Values
  import opened Errors
  import opened Schema
  import opened ClubModel
  import SedeModel
  import EnrollmentModel
  import opened Invariants

  const MsgSedeNotFound: string := "Sede no encontrada"
  const MsgClubNotFound: string := "Club no encontrado"
  const MsgCreateRequired: string := "Sede, nombre y capacidad son obligatorios"
  const MsgResponsableRequired: string := "El responsable es obligatorio"
  const MsgInvalidCapacity: string := "Capacidad inválida"
  const MsgUpdateRequired: string := "Nombre y capacidad válidos son obligatorios"
  const MsgCapacityBelowEnrolled: string := "La capacidad no puede ser menor al número de estudiantes ya inscritos"
  const MsgDeleteWithEnrollments: string := "No se puede eliminar un club con inscripciones activas"

  /** A sede and its clubs, as the public sede page receives them. */
  datatype SedeClubs = SedeClubs(sede: Sede, clubs: seq<ClubView>)

  /** `listClubsBySedeSlug`: the first sede with the slug and exactly its clubs
      sorted by name, or "Sede no encontrada". */
  function ListClubsBySedeSlug(clubs: seq<Club>, sedes: seq<Sede>, rows: seq<Enrollment>, slug: string)
    : (r: Result<SedeClubs>)
    ensures r.Err? <==> forall s :: s in sedes ==> s.slug != slug
    ensures r.Err? ==> r.error == NotFound(MsgSedeNotFound)
    ensures r.Ok? ==> r.value.sede in sedes && r.value.sede.slug == slug
                      && r.value.sede == SedeModel.GetSedeBySlug(sedes, slug).value
    ensures r.Ok? ==> forall v :: v in r.value.clubs <==> (v.club in clubs && v.club.sedeId == r.value.sede.id
                                                         && ViewOf(v.club, sedes, rows) == Some(v))
    ensures r.Ok? ==> forall v :: multiset(r.value.clubs)[v]
                                  == if v.club.sedeId == r.value.sede.id && ViewOf(v.club, sedes, rows) == Some(v)
                                     then multiset(clubs)[v.club] else 0
  {
    var sede := SedeModel.GetSedeBySlug(sedes, slug);
    if sede.None? then Err(NotFound(MsgSedeNotFound))
    else Ok(SedeClubs(sede.value, GetClubsBySedeId(clubs, sedes, rows, sede.value.id)))
  }

  /** `getClubDetails`: the club's view, or "Club no encontrado". */
  function GetClubDetails(clubs: seq<Club>, sedes: seq<Sede>, rows: seq<Enrollment>, id: int)
    : (r: Result<ClubView>)
    ensures r.Err? <==> GetClubById(clubs, sedes, rows, id).None?
    ensures r.Err? ==> r.error == NotFound(MsgClubNotFound)
    ensures r.Ok? ==> r.value.club.id == id && r.value.club in clubs
                      && r.value.inscritos == EnrollmentModel.CountActiveEnrollmentsByClub(rows, id)
  {
    var v := GetClubById(clubs, sedes, rows, id);
    if v.None? then Err(NotFound(MsgClubNotFound)) else Ok(v.value)
  }

  /** The request body of `createClub` and `updateClub`; an absent text field is
      `None`. */
  datatype ClubInput = ClubInput(sedeSlug: Option<string>, nombre: Option<string>, descripcion: Option<string>,
                                 responsable: Option<string>, capacidad: NumberArg, imagenUrl: Option<string>)

  /** The columns written for a validated body: optional texts default to the
      empty text and the capacity is `Number(capacidad)`. */
  function FieldsOf(input: ClubInput): (r: ClubFields)
    requires input.capacidad.Num?
    ensures r.capacidad == input.capacidad.n
    ensures r.nombre == OrEmpty(input.nombre) && r.descripcion == OrEmpty(input.descripcion)
    ensures r.responsable == OrEmpty(input.responsable) && r.imagenUrl == OrEmpty(input.imagenUrl)
  {
    ClubFields(OrEmpty(input.nombre), OrEmpty(input.descripcion), OrEmpty(input.responsable),
               input.capacidad.n, OrEmpty(input.imagenUrl))
  }

  /** The checks of `createClub`, in their order: the sede slug, name and
      capacity must be supplied, then the person in charge, then the sede must
      exist, then the capacity must be a number that is not negative. On success
      the sede and the columns to insert. */
  function CreateDecision(sedes: seq<Sede>, input: ClubInput): (r: Result<(Sede, ClubFields)>)
    ensures r.Ok? <==> TruthyString(input.sedeSlug) && TruthyString(input.nombre) && TruthyString(input.responsable)
                       && SedeModel.GetSedeBySlug(sedes, input.sedeSlug.value).Some?
                       && input.capacidad.Num? && input.capacidad.n >= 0
    ensures r.Ok? ==> r.value.0 == SedeModel.GetSedeBySlug(sedes, input.sedeSlug.value).value
                      && r.value.1 == FieldsOf(input)
                      && r.value.1.nombre == input.nombre.value && r.value.1.responsable == input.responsable.value
    ensures !TruthyString(input.sedeSlug) || !TruthyString(input.nombre) || input.capacidad.Undefined?
            ==> r == Err(BadRequest(MsgCreateRequired))
    ensures (TruthyString(input.sedeSlug) && TruthyString(input.nombre) && !input.capacidad.Undefined?
             && !TruthyString(input.responsable)) ==> r == Err(BadRequest(MsgResponsableRequired))
    ensures (TruthyString(input.sedeSlug) && TruthyString(input.nombre) && !input.capacidad.Undefined?
             && TruthyString(input.responsable) && SedeModel.GetSedeBySlug(sedes, input.sedeSlug.value).None?)
            ==> r == Err(NotFound(MsgSedeNotFound))
    ensures r.Err? ==> r.error in {BadRequest(MsgCreateRequired), BadRequest(MsgResponsableRequired),
                                   NotFound(MsgSedeNotFound), BadRequest(MsgInvalidCapacity)}
  {
    if !TruthyString(input.sedeSlug) || !TruthyString(input.nombre) || input.capacidad.Undefined? then
      Err(BadRequest(MsgCreateRequired))
    else if !TruthyString(input.responsable) then Err(BadRequest(MsgResponsableRequired))
    else
      var sede := SedeModel.GetSedeBySlug(sedes, input.sedeSlug.value);
      if sede.None? then Err(NotFound(MsgSedeNotFound))
      else if input.capacidad.NaN? || input.capacidad.n < 0 then Err(BadRequest(MsgInvalidCapacity))
      else Ok((sede.value, FieldsOf(input)))
  }

  /** `createClub`: on a valid body, a new club under the next id in the sede
      named by the slug, returned as its view with its ACTIVO count. */
  method CreateClub(db: Database, input: ClubInput) returns (r: Result<ClubView>)
    requires db.Valid()
    modifies db`clubs, db`nextClubId
    ensures db.Valid()
    ensures var d := CreateDecision(old(db.sedes), input);
            (r.Err? <==> d.Err?)
            && (d.Err? ==> r.error == d.error && db.clubs == old(db.clubs) && db.nextClubId == old(db.nextClubId))
            && (d.Ok? ==>
                  var f := d.value.1;
                  db.clubs == old(db.clubs) + [Club(old(db.nextClubId), d.value.0.id, f.nombre, f.descripcion,
                                                    f.responsable, f.capacidad, f.imagenUrl)]
                  && db.nextClubId == old(db.nextClubId) + 1
                  && r.value.club == db.clubs[|db.clubs| - 1]
                  && r.value.sedeNombre == d.value.0.nombre && r.value.sedeSlug == d.value.0.slug
                  && r.value.inscritos == EnrollmentModel.CountActiveEnrollmentsByClub(db.enrollments, old(db.nextClubId))
                  && Some(r.value) == GetClubById(db.clubs, db.sedes, db.enrollments, old(db.nextClubId)))
  {
    var d := CreateDecision(db.sedes, input);
    if d.Err? {
      return Err(d.error);
    }
    var sede := d.value.0;
    var id, view := CreateClubRow(db, sede.id, d.value.1);
    assert view.Some?;
    SedeOfId(db.sedes, sede, Sede(sede.id, view.value.sedeNombre, view.value.sedeSlug));
    r := Ok(view.value);
  }

  /** The checks of `updateClub`, in their order: the club must exist, the name
      must be supplied and the capacity be a number that is not negative, the
      person in charge must be supplied, and the capacity may not fall below the
      club's ACTIVO enrollments. On success the columns to write. */
  function UpdateDecision(clubs: seq<Club>, sedes: seq<Sede>, rows: seq<Enrollment>, id: int, input: ClubInput)
    : (r: Result<ClubFields>)
    ensures r.Ok? <==> GetClubById(clubs, sedes, rows, id).Some? && TruthyString(input.nombre)
                       && TruthyString(input.responsable) && input.capacidad.Num?
                       && EnrollmentModel.CountActiveEnrollmentsByClub(rows, id) <= input.capacidad.n
    ensures r.Ok? ==> r == Ok(FieldsOf(input)) && r.value.capacidad >= 0
                      && EnrollmentModel.CountActiveEnrollmentsByClub(rows, id) <= r.value.capacidad
    ensures GetClubById(clubs, sedes, rows, id).None? ==> r == Err(NotFound(MsgClubNotFound))
    ensures GetClubById(clubs, sedes, rows, id).Some?
            && (!TruthyString(input.nombre) || !input.capacidad.Num? || input.capacidad.n < 0)
            ==> r == Err(BadRequest(MsgUpdateRequired))
    ensures GetClubById(clubs, sedes, rows, id).Some? && TruthyString(input.nombre)
            && input.capacidad.Num? && input.capacidad.n >= 0 && TruthyString(input.responsable)
            ==> (r == Err(Conflict(MsgCapacityBelowEnrolled))
                 <==> EnrollmentModel.CountActiveEnrollmentsByClub(rows, id) > input.capacidad.n)
    ensures r.Err? ==> r.error in {NotFound(MsgClubNotFound), BadRequest(MsgUpdateRequired),
                                   BadRequest(MsgResponsableRequired), Conflict(MsgCapacityBelowEnrolled)}
  {
    if GetClubById(clubs, sedes, rows, id).None? then Err(NotFound(MsgClubNotFound))
    else if !TruthyString(input.nombre) || !input.capacidad.Num? || input.capacidad.n < 0 then
      Err(BadRequest(MsgUpdateRequired))
    else if !TruthyString(input.responsable) then Err(BadRequest(MsgResponsableRequired))
    else if EnrollmentModel.CountActiveEnrollmentsByClub(rows, id) > input.capacidad.n then
      Err(Conflict(MsgCapacityBelowEnrolled))
    else Ok(FieldsOf(input))
  }

  /** `updateClub`: on a valid body, the club's editable columns are written and
      the club is read back, still in its sede. */
  method UpdateClub(db: Database, id: int, input: ClubInput) returns (r: Result<ClubView>)
    requires db.Valid()
    modifies db`clubs
    ensures db.Valid()
    ensures var d := UpdateDecision(old(db.clubs), db.sedes, db.enrollments, id, input);
            (r.Err? <==> d.Err?)
            && (d.Err? ==> r.error == d.error && db.clubs == old(db.clubs))
            && (d.Ok? ==> db.clubs == UpdateClubRows(old(db.clubs), id, d.value)
                          && r.value.club.id == id
                          && r.value.club.sedeId == ClubById(old(db.clubs), id).value.sedeId
                          && r.value.club.nombre == input.nombre.value
                          && r.value.club.capacidad == d.value.capacidad
                          && r.value.inscritos <= r.value.club.capacidad
                          && r.value.club == Club(id, ClubById(old(db.clubs), id).value.sedeId, d.value.nombre,
                                                  d.value.descripcion, d.value.responsable, d.value.capacidad,
                                                  d.value.imagenUrl)
                          && Some(r.value) == GetClubById(db.clubs, db.sedes, db.enrollments, id))
  {
    var d := UpdateDecision(db.clubs, db.sedes, db.enrollments, id, input);
    if d.Err? {
      return Err(d.error);
    }
    UpdateClubRowsFound(db.clubs, id, d.value);
    var view := UpdateClubRow(db, id, d.value);
    r := Ok(view.value);
  }

  /** An accepted update keeps every club within its capacity, every enrollment
      inside its student's sede, and the ACTIVO rows as they were. */
  lemma UpdateKeepsConsistent(students: seq<Student>, clubs: seq<Club>, sedes: seq<Sede>, rows: seq<Enrollment>,
                              id: int, input: ClubInput)
    requires ClubIdsDistinct(clubs) && Consistent(students, clubs, rows)
    requires UpdateDecision(clubs, sedes, rows, id, input).Ok?
    ensures Consistent(students, UpdateClubRows(clubs, id, UpdateDecision(clubs, sedes, rows, id, input).value), rows)
  {
    var f := UpdateDecision(clubs, sedes, rows, id, input).value;
    var after := UpdateClubRows(clubs, id, f);
    forall c | c in after ensures EnrollmentModel.CountActiveEnrollmentsByClub(rows, c.id) <= c.capacidad {
      var k :| 0 <= k < |after| && after[k] == c;
      assert clubs[k] in clubs;
    }
    forall e | e in rows ensures SameSede(e, students, after) {
      assert SameSede(e, students, clubs);
      if e.clubId == id {
        if ClubById(clubs, id).Some? {
          UpdateClubRowsFound(clubs, id, f);
        }
      } else {
        UpdateClubRowsOthers(clubs, id, f, e.clubId);
      }
    }
  }

  /** The checks of `deleteClub`: the club must exist and have no ACTIVO
      enrollment. */
  function DeleteDecision(clubs: seq<Club>, sedes: seq<Sede>, rows: seq<Enrollment>, id: int): (r: Result<()>)
    ensures r.Ok? <==> GetClubById(clubs, sedes, rows, id).Some?
                       && EnrollmentModel.CountActiveEnrollmentsByClub(rows, id) == 0
    ensures GetClubById(clubs, sedes, rows, id).None? ==> r == Err(NotFound(MsgClubNotFound))
    ensures GetClubById(clubs, sedes, rows, id).Some? && EnrollmentModel.CountActiveEnrollmentsByClub(rows, id) > 0
            ==> r == Err(Conflict(MsgDeleteWithEnrollments))
  {
    var v := GetClubById(clubs, sedes, rows, id);
    if v.None? then Err(NotFound(MsgClubNotFound))
    else if v.value.inscritos > 0 then Err(Conflict(MsgDeleteWithEnrollments))
    else Ok(())
  }

  /** `deleteClub`: a club with no ACTIVO enrollment is removed; nothing else is. */
  method DeleteClub(db: Database, id: int) returns (r: Result<()>)
    requires db.Valid()
    modifies db`clubs
    ensures db.Valid()
    ensures var d := DeleteDecision(old(db.clubs), db.sedes, db.enrollments, id);
            r == d
            && (d.Err? ==> db.clubs == old(db.clubs))
            && (d.Ok? ==> db.clubs == DeleteClubRows(old(db.clubs), id))
  {
    r := DeleteDecision(db.clubs, db.sedes, db.enrollments, id);
    if r.Ok? {
      DeleteClubRow(db, id);
    }
  }

  /** Deleting a club keeps every remaining club found under its id, and the
      deleted one found under none. */
  lemma {:induction false} DeleteClubRowsLookup(rows: seq<Club>, id: int, other: int)
    requires ClubIdsDistinct(rows)
    ensures ClubById(DeleteClubRows(rows, id), other) == if other == id then None else ClubById(rows, other)
  {
    var after := DeleteClubRows(rows, id);
    if other != id {
      if ClubById(rows, other).Some? {
        var c := ClubById(rows, other).value;
        DeleteClubRowsDistinct(rows, id);
        ClubByIdOfMember(after, c);
      }
    }
  }

  /** A permitted deletion keeps the enrollments consistent. */
  lemma DeleteKeepsConsistent(students: seq<Student>, clubs: seq<Club>, sedes: seq<Sede>, rows: seq<Enrollment>,
                              id: int)
    requires ClubIdsDistinct(clubs) && Consistent(students, clubs, rows)
    requires DeleteDecision(clubs, sedes, rows, id).Ok?
    ensures Consistent(students, DeleteClubRows(clubs, id), rows)
  {
    var after := DeleteClubRows(clubs, id);
    forall e | e in rows ensures SameSede(e, students, after) {
      assert SameSede(e, students, clubs);
      DeleteClubRowsLookup(clubs, id, e.clubId);
    }
  }
}

=== FILE: config_model.dfy ===
/** The `configuracion` key/value table and the enrollment gate stored in it. */
module ConfigModel {
  import opened Values
  import opened Schema

  /** The key of the flag that opens public enrollment. */
  const EnrollmentFlag: string := "inscripciones_habilitadas"

  /** `getConfiguracion`: the stored value, or nothing for an absent key. */
  function GetConfiguracion(config: map<string, string>, clave: string): (r: Option<string>)
    ensures r.Some? <==> clave in config
    ensures r.Some? ==> r.value == config[clave]
  {
    if clave in config then Some(config[clave]) else None
  }

  /** `UPDATE configuracion SET valor = ? WHERE clave = ?`: an UPDATE, not an
      upsert, so an absent key stays absent. */
  function UpdatedConfig(config: map<string, string>, clave: string, valor: string): (r: map<string, string>)
    ensures r.Keys == config.Keys
    ensures clave in config ==> r[clave] == valor
    ensures forall k :: k in config && k != clave ==> r[k] == config[k]
  {
    if clave in config then config[clave := valor] else config
  }

  /** `setConfiguracion`. */
  method SetConfiguracion(db: Database, clave: string, valor: string)
    modifies db`config
    ensures db.config == UpdatedConfig(old(db.config), clave, valor)
  {
    db.config := UpdatedConfig(db.config, clave, valor);
  }

  /** Reading a key back after setting it. */
  lemma GetAfterSet(config: map<string, string>, clave: string, valor: string, k: string)
    ensures GetConfiguracion(UpdatedConfig(config, clave, valor), k)
            == if k == clave && clave in config then Some(valor) else GetConfiguracion(config, k)
  {
  }

  /** `inscripcionesHabilitadas`: open exactly when the stored value is the text
      `true`; a missing key means closed. */
  function InscripcionesHabilitadas(config: map<string, string>): (r: bool)
    ensures r <==> EnrollmentFlag in config && config[EnrollmentFlag] == "true"
  {
    GetConfiguracion(config, EnrollmentFlag) == Some("true")
  }

  /** Setting the flag opens or closes enrollment exactly when the flag row exists. */
  lemma SetFlag(config: map<string, string>, valor: string)
    ensures InscripcionesHabilitadas(UpdatedConfig(config, EnrollmentFlag, valor))
            == if EnrollmentFlag in config then valor == "true" else false
  {
  }
}

=== FILE: enrollment_model.dfy ===
/** Queries and statements over the `inscripciones` table: active-row counts,
    lookups, the INSERT of a new ACTIVO row, the UPDATE to CANCELADO, and the
    joined listings the report and the status check read. */
module EnrollmentModel {
  import opened Values
  import opened Schema
  import opened Ordering
  import SedeModel

  /** The column an active-row count or lookup filters on. */
  datatype Column = ClubColumn | StudentColumn

  /** `estado = ACTIVO AND <column> = key`. */
  predicate ActiveIn(e: Enrollment, col: Column, key: int) {
    e.estado == Activo && (if col == ClubColumn then e.clubId else e.estudianteId) == key
  }

  /** `SELECT COUNT(*) FROM inscripciones WHERE <column> = key AND estado = ACTIVO`. */
  function CountActive(rows: seq<Enrollment>, col: Column, key: int): (n: nat)
    ensures n <= |rows|
    ensures n == 0 <==> forall e :: e in rows ==> !ActiveIn(e, col, key)
  {
    if rows == [] then 0
    else (if ActiveIn(rows[0], col, key) then 1 else 0) + CountActive(rows[1..], col, key)
  }

  /** `countActiveEnrollmentsByClub`: the club's occupancy; 0 when it has no active row. */
  function CountActiveEnrollmentsByClub(rows: seq<Enrollment>, clubId: int): (n: nat)
    ensures n == 0 <==> forall e :: e in rows ==> !(e.clubId == clubId && e.estado == Activo)
  {
    CountActive(rows, ClubColumn, clubId)
  }

  /** Appending a row adds one to exactly the counts it is active in. */
  lemma {:induction false} CountActiveAppend(rows: seq<Enrollment>, e: Enrollment, col: Column, key: int)
    ensures CountActive(rows + [e], col, key)
            == CountActive(rows, col, key) + (if ActiveIn(e, col, key) then 1 else 0)
  {
    if rows == [] {
      assert rows + [e] == [e];
    } else {
      assert (rows + [e])[1..] == rows[1..] + [e];
      CountActiveAppend(rows[1..], e, col, key);
    }
  }

  /** `WHERE id = ?`: the row with that primary key. */
  function EnrollmentById(rows: seq<Enrollment>, id: int): (r: Option<Enrollment>)
    ensures r.Some? ==> r.value in rows && r.value.id == id
    ensures r.None? <==> forall e :: e in rows ==> e.id != id
  {
    if rows == [] then None
    else if rows[0].id == id then Some(rows[0])
    else EnrollmentById(rows[1..], id)
  }

  /** `UPDATE inscripciones SET estado = CANCELADO WHERE id = ?`, whatever the
      previous state. */
  function CancelRows(rows: seq<Enrollment>, id: int): (r: seq<Enrollment>)
    ensures |r| == |rows|
    ensures forall i :: 0 <= i < |rows| ==>
              r[i] == if rows[i].id == id then rows[i].(estado := Cancelado) else rows[i]
  {
    seq(|rows|, i requires 0 <= i < |rows| =>
      if rows[i].id == id then rows[i].(estado := Cancelado) else rows[i])
  }

  /** Cancelling twice is cancelling once. */
  lemma CancelRowsIdempotent(rows: seq<Enrollment>, id: int)
    ensures CancelRows(CancelRows(rows, id), id) == CancelRows(rows, id)
  {
  }

  /** Cancelling an absent id changes nothing. */
  lemma CancelRowsAbsent(rows: seq<Enrollment>, id: int)
    requires EnrollmentById(rows, id).None?
    ensures CancelRows(rows, id) == rows
  {
    forall i | 0 <= i < |rows| ensures CancelRows(rows, id)[i] == rows[i] {
      assert rows[i] in rows;
    }
  }

  lemma CancelRowsTail(rows: seq<Enrollment>, id: int)
    requires rows != []
    ensures CancelRows(rows, id)[1..] == CancelRows(rows[1..], id)
  {
  }

  /** With distinct ids, cancelling removes the cancelled row from every count it
      was active in, and from no other. */
  lemma {:induction false} CountActiveCancel(rows: seq<Enrollment>, id: int, col: Column, key: int)
    requires forall i, j :: 0 <= i < j < |rows| ==> rows[i].id != rows[j].id
    ensures var hit := EnrollmentById(rows, id);
            CountActive(CancelRows(rows, id), col, key)
              + (if hit.Some? && ActiveIn(hit.value, col, key) then 1 else 0)
            == CountActive(rows, col, key)
  {
    if rows != [] {
      var r := CancelRows(rows, id);
      CancelRowsTail(rows, id);
      if rows[0].id == id {
        forall e | e in rows[1..] ensures e.id != id {
          var j :| 0 <= j < |rows[1..]| && rows[1..][j] == e;
          assert rows[j + 1] == e;
        }
        CancelRowsAbsent(rows[1..], id);
        assert !ActiveIn(r[0], col, key);
      } else {
        assert r[0] == rows[0];
        CountActiveCancel(rows[1..], id, col, key);
      }
    }
  }

  /** `getActiveEnrollmentByStudentId`: an ACTIVO row of the student (the first). */
  function GetActiveEnrollmentByStudentId(rows: seq<Enrollment>, studentId: int): (r: Option<Enrollment>)
    ensures r.Some? ==> r.value in rows && r.value.estado == Activo && r.value.estudianteId == studentId
    ensures r.None? <==> CountActive(rows, StudentColumn, studentId) == 0
  {
    if rows == [] then None
    else if ActiveIn(rows[0], StudentColumn, studentId) then Some(rows[0])
    else GetActiveEnrollmentByStudentId(rows[1..], studentId)
  }

  /** `createEnrollment`: INSERT of an ACTIVO row under the next AUTO_INCREMENT id. */
  method CreateEnrollment(db: Database, estudianteId: int, clubId: int) returns (id: int)
    requires db.Valid()
    modifies db`enrollments, db`nextEnrollmentId
    ensures db.Valid()
    ensures id == old(db.nextEnrollmentId) && EnrollmentById(old(db.enrollments), id).None?
    ensures db.enrollments == old(db.enrollments) + [Enrollment(id, estudianteId, clubId, Activo)]
    ensures CountActiveEnrollmentsByClub(db.enrollments, clubId)
            == CountActiveEnrollmentsByClub(old(db.enrollments), clubId) + 1
    ensures forall c :: c != clubId ==>
              CountActiveEnrollmentsByClub(db.enrollments, c) == CountActiveEnrollmentsByClub(old(db.enrollments), c)
  {
    id := db.nextEnrollmentId;
    var row := Enrollment(id, estudianteId, clubId, Activo);
    CountActiveAppend(db.enrollments, row, ClubColumn, clubId);
    forall c | c != clubId
      ensures CountActive(db.enrollments + [row], ClubColumn, c) == CountActive(db.enrollments, ClubColumn, c)
    {
      CountActiveAppend(db.enrollments, row, ClubColumn, c);
    }
    db.enrollments := db.enrollments + [row];
    db.nextEnrollmentId := db.nextEnrollmentId + 1;
  }

  /** `cancelEnrollment`: sets CANCELADO on the row with that id; no other row and
      no other column changes, and an absent id changes nothing. */
  method CancelEnrollment(db: Database, id: int)
    requires db.Valid()
    modifies db`enrollments
    ensures db.Valid()
    ensures db.enrollments == CancelRows(old(db.enrollments), id)
  {
    db.enrollments := CancelRows(db.enrollments, id);
  }

  /** One row of `inscripciones` inner-joined with its student, its club and the
      club's sede. */
  datatype JoinedRow = JoinedRow(enrollment: Enrollment, student: Student, club: Club, sede: Sede)

  function Join(e: Enrollment, students: seq<Student>, clubs: seq<Club>, sedes: seq<Sede>): (r: Option<JoinedRow>)
    ensures r.Some? ==> r.value.enrollment == e && r.value.student in students && r.value.club in clubs
                        && r.value.sede in sedes && r.value.student.id == e.estudianteId
                        && r.value.club.id == e.clubId && r.value.sede.id == r.value.club.sedeId
  {
    var s := StudentById(students, e.estudianteId);
    var c := ClubById(clubs, e.clubId);
    if s.None? || c.None? then None
    else
      var sd := SedeModel.GetSedeById(sedes, c.value.sedeId);
      if sd.None? then None else Some(JoinedRow(e, s.value, c.value, sd.value))
  }

  /** The rows `findActiveEnrollmentByDocument` can return for a document. */
  predicate ActiveForDocument(e: Enrollment, students: seq<Student>, clubs: seq<Club>, sedes: seq<Sede>, documento: string) {
    e.estado == Activo && Join(e, students, clubs, sedes).Some?
    && Join(e, students, clubs, sedes).value.student.documento == documento
  }

  /** `findActiveEnrollmentByDocument`: the joined ACTIVO row of the student with
      that document (the first), or nothing. */
  function FindActiveEnrollmentByDocument(rows: seq<Enrollment>, students: seq<Student>, clubs: seq<Club>,
                                          sedes: seq<Sede>, documento: string): (r: Option<JoinedRow>)
    ensures r.Some? ==> r.value.enrollment in rows && ActiveForDocument(r.value.enrollment, students, clubs, sedes, documento)
                        && Join(r.value.enrollment, students, clubs, sedes) == r
    ensures r.None? <==> forall e :: e in rows ==> !ActiveForDocument(e, students, clubs, sedes, documento)
  {
    if rows == [] then None
    else if ActiveForDocument(rows[0], students, clubs, sedes, documento) then Join(rows[0], students, clubs, sedes)
    else FindActiveEnrollmentByDocument(rows[1..], students, clubs, sedes, documento)
  }

  /** The columns `getEnrollmentWithDetails` selects; `sedeId` is the student's. */
  datatype EnrollmentDetails = EnrollmentDetails(
    id: int, estudianteId: int, clubId: int, estado: EnrollmentState,
    estudianteNombre: string, estudianteDocumento: string, estudianteGrupo: string,
    sedeId: int, clubNombre: string, clubSedeId: int)

  /** `getEnrollmentWithDetails`: the row with that id in any state, joined with its
      student and club; nothing when the id is absent. */
  function GetEnrollmentWithDetails(rows: seq<Enrollment>, students: seq<Student>, clubs: seq<Club>, id: int)
    : (r: Option<EnrollmentDetails>)
    ensures EnrollmentById(rows, id).None? ==> r.None?
    ensures r.Some? ==> var e := EnrollmentById(rows, id).value;
                        && r.value.id == id && r.value.estado == e.estado
                        && r.value.estudianteId == e.estudianteId && r.value.clubId == e.clubId
                        && StudentById(students, e.estudianteId).Some?
                        && r.value.sedeId == StudentById(students, e.estudianteId).value.sedeId
                        && ClubById(clubs, e.clubId).Some?
                        && r.value.clubSedeId == ClubById(clubs, e.clubId).value.sedeId
    ensures (EnrollmentById(rows, id).Some? && StudentById(students, EnrollmentById(rows, id).value.estudianteId).Some?
             && ClubById(clubs, EnrollmentById(rows, id).value.clubId).Some?) ==> r.Some?
  {
    var e := EnrollmentById(rows, id);
    if e.None? then None
    else
      var s := StudentById(students, e.value.estudianteId);
      var c := ClubById(clubs, e.value.clubId);
      if s.None? || c.None? then None
      else Some(EnrollmentDetails(id, e.value.estudianteId, e.value.clubId, e.value.estado,
                                  s.value.nombre, s.value.documento, s.value.grupo, s.value.sedeId,
                                  c.value.nombre, c.value.sedeId))
  }

  /** Every ACTIVO row that joins, in table order, each as often as in the table. */
  function ActiveJoined(rows: seq<Enrollment>, students: seq<Student>, clubs: seq<Club>, sedes: seq<Sede>)
    : (r: seq<JoinedRow>)
    ensures forall j :: j in r <==> j.enrollment in rows && j.enrollment.estado == Activo
                                    && Join(j.enrollment, students, clubs, sedes) == Some(j)
    ensures forall j :: multiset(r)[j] == if j.enrollment.estado == Activo && Join(j.enrollment, students, clubs, sedes) == Some(j)
                                          then multiset(rows)[j.enrollment] else 0
  {
    if rows == [] then []
    else
      assert rows == [rows[0]] + rows[1..];
      var rest := ActiveJoined(rows[1..], students, clubs, sedes);
      var j := Join(rows[0], students, clubs, sedes);
      if rows[0].estado == Activo && j.Some? then [j.value] + rest else rest
  }

  /** The optional filters of `listEnrollments`; each applies only when truthy. */
  datatype EnrollmentFilter = EnrollmentFilter(sedeId: Option<int>, grupo: Option<string>, clubId: Option<int>)

  predicate MatchesFilter(j: JoinedRow, f: EnrollmentFilter) {
    (TruthyNumber(f.sedeId) ==> j.club.sedeId == f.sedeId.value)
    && (TruthyString(f.grupo) ==> j.student.grupo == f.grupo.value)
    && (TruthyNumber(f.clubId) ==> j.enrollment.clubId == f.clubId.value)
  }

  function FilterRows(rows: seq<JoinedRow>, f: EnrollmentFilter): (r: seq<JoinedRow>)
    ensures forall j :: j in r <==> j in rows && MatchesFilter(j, f)
    ensures forall j :: multiset(r)[j] == if MatchesFilter(j, f) then multiset(rows)[j] else 0
  {
    if rows == [] then []
    else
      assert rows == [rows[0]] + rows[1..];
      if MatchesFilter(rows[0], f) then [rows[0]] + FilterRows(rows[1..], f)
      else FilterRows(rows[1..], f)
  }

  /** `ORDER BY sed.nombre, c.nombre, e.nombre`. */
  function ListingKey(j: JoinedRow): seq<string> {
    [j.sede.nombre, j.club.nombre, j.student.nombre]
  }

  /** `listEnrollments`: exactly the joined ACTIVO rows that pass every supplied
      filter, each as often as in the table, ordered by sede, club and student name. */
  function ListEnrollments(rows: seq<Enrollment>, students: seq<Student>, clubs: seq<Club>, sedes: seq<Sede>,
                           f: EnrollmentFilter): (r: seq<JoinedRow>)
    ensures forall j :: j in r <==> j.enrollment in rows && j.enrollment.estado == Activo
                                    && Join(j.enrollment, students, clubs, sedes) == Some(j) && MatchesFilter(j, f)
    ensures forall j :: multiset(r)[j] == if j.enrollment.estado == Activo
                                             && Join(j.enrollment, students, clubs, sedes) == Some(j) && MatchesFilter(j, f)
                                          then multiset(rows)[j.enrollment] else 0
    ensures SortedBy(r, ListingKey)
  {
    var filtered := FilterRows(ActiveJoined(rows, students, clubs, sedes), f);
    var r := SortBy(filtered, ListingKey);
    forall j ensures j in r <==> j in filtered {
      SortByMembers(filtered, ListingKey, j);
    }
    r
  }

  /** Under the primary key, the listing holds each joined row at most once. */
  lemma ListEnrollmentsOnce(rows: seq<Enrollment>, students: seq<Student>, clubs: seq<Club>, sedes: seq<Sede>,
                            f: EnrollmentFilter)
    requires forall i, j :: 0 <= i < j < |rows| ==> rows[i].id != rows[j].id
    ensures forall j :: multiset(ListEnrollments(rows, students, clubs, sedes, f))[j] <= 1
  {
    forall e ensures multiset(rows)[e] <= 1 {
      RowsOnce(rows, e);
    }
  }
}

=== FILE: enrollment_service.dfy ===
/** The enrollment operations: public registration and its admin twin, the
    status check by document, cancellation and the move to another club. Each
    operation is one atomic step on the store: it commits or changes nothing. */
module EnrollmentService {
  import opened Values
  import opened Errors
  import opened Schema
  import opened Text
  import EnrollmentModel
  import opened ClubModel
  import opened StudentModel
  import opened Invariants

  const MsgDocumentAndClubRequired: string := "Documento y club son obligatorios"
  const MsgClubNotFound: string := "Club no encontrado"
  const MsgStudentNotEligible: string := "Estudiante no habilitado"
  const MsgSedeMismatch: string := "La sede del estudiante no coincide con el club seleccionado"
  const MsgAlreadyEnrolled: string := "El estudiante ya se encuentra inscrito en un club"
  const MsgClubFull: string := "El club ya alcanzó el cupo máximo"
  const MsgDocumentRequired: string := "Documento obligatorio"
  const MsgEnrollmentNotFound: string := "Inscripción no encontrada"
  const MsgNewClubRequired: string := "Debe seleccionar el nuevo club"
  const MsgSameClub: string := "La inscripción ya pertenece a este club"
  const MsgOtherSede: string := "Solo se puede mover a clubs de la misma sede"
  const MsgNewClubFull: string := "El nuevo club ya alcanzó el cupo máximo"

  /** `ensureClubAvailable`: the club as `getClubById` returns it, or NotFound. */
  function EnsureClubAvailable(clubs: seq<Club>, sedes: seq<Sede>, rows: seq<Enrollment>, clubId: int)
    : (r: Result<ClubView>)
    ensures r.Ok? <==> GetClubById(clubs, sedes, rows, clubId).Some?
    ensures r.Ok? ==> r.value.club in clubs && r.value.club.id == clubId
    ensures r.Err? ==> r.error == NotFound(MsgClubNotFound) && KindOf(r.error) == NotFoundKind
  {
    var c := GetClubById(clubs, sedes, rows, clubId);
    if c.None? then Err(NotFound(MsgClubNotFound)) else Ok(c.value)
  }

  /** The student a registration admits, and the club it admits them to. */
  datatype Admission = Admission(student: Student, club: ClubView)

  /** The five conditions of admission, in no particular order: a document and a
      club are given, the club and the student exist, they share a sede, the
      student has no ACTIVO enrollment and the club has a free seat. */
  predicate Admissible(students: seq<Student>, clubs: seq<Club>, sedes: seq<Sede>, rows: seq<Enrollment>,
                       documento: string, clubId: Option<int>)
  {
    NormalizeDocument(documento) != [] && TruthyNumber(clubId)
    && var c := GetClubById(clubs, sedes, rows, clubId.value);
       var s := FindStudentByDocument(students, documento);
       c.Some? && s.Some? && s.value.sedeId == c.value.club.sedeId
       && EnrollmentModel.CountActive(rows, EnrollmentModel.StudentColumn, s.value.id) == 0
       && EnrollmentModel.CountActiveEnrollmentsByClub(rows, clubId.value) < c.value.club.capacidad
  }

  /** The decision `registerEnrollment` takes, check by check in the order of
      the source; the first failing check names the error. */
  function RegisterDecision(students: seq<Student>, clubs: seq<Club>, sedes: seq<Sede>, rows: seq<Enrollment>,
                            documento: string, clubId: Option<int>): (r: Result<Admission>)
    ensures r.Ok? <==> Admissible(students, clubs, sedes, rows, documento, clubId)
    ensures r.Ok? ==> r.value.student == FindStudentByDocument(students, documento).value
                      && r.value.club == GetClubById(clubs, sedes, rows, clubId.value).value
                      && r.value.club.club.id == clubId.value
    ensures NormalizeDocument(documento) == [] || !TruthyNumber(clubId)
            ==> r == Err(BadRequest(MsgDocumentAndClubRequired))
    ensures NormalizeDocument(documento) != [] && TruthyNumber(clubId)
            && GetClubById(clubs, sedes, rows, clubId.value).None?
            ==> r == Err(NotFound(MsgClubNotFound))
    ensures NormalizeDocument(documento) != [] && TruthyNumber(clubId)
            && GetClubById(clubs, sedes, rows, clubId.value).Some?
            && FindStudentByDocument(students, documento).None?
            ==> r == Err(NotFound(MsgStudentNotEligible))
    ensures r.Err? ==> r.error in {BadRequest(MsgDocumentAndClubRequired), NotFound(MsgClubNotFound),
                                   NotFound(MsgStudentNotEligible), Conflict(MsgSedeMismatch),
                                   Conflict(MsgAlreadyEnrolled), Conflict(MsgClubFull)}
  {
    if NormalizeDocument(documento) == [] || !TruthyNumber(clubId) then Err(BadRequest(MsgDocumentAndClubRequired))
    else
      var c := EnsureClubAvailable(clubs, sedes, rows, clubId.value);
      if c.Err? then Err(c.error)
      else
        var s := FindStudentByDocument(students, documento);
        if s.None? then Err(NotFound(MsgStudentNotEligible))
        else if s.value.sedeId != c.value.club.sedeId then Err(Conflict(MsgSedeMismatch))
        else if EnrollmentModel.GetActiveEnrollmentByStudentId(rows, s.value.id).Some? then Err(Conflict(MsgAlreadyEnrolled))
        else if EnrollmentModel.CountActiveEnrollmentsByClub(rows, clubId.value) >= c.value.club.capacidad
        then Err(Conflict(MsgClubFull))
        else Ok(Admission(s.value, c.value))
  }

  /** The last three checks, in order, once the club and the student are found. */
  lemma RegisterLateChecks(students: seq<Student>, clubs: seq<Club>, sedes: seq<Sede>, rows: seq<Enrollment>,
                           documento: string, clubId: Option<int>)
    requires NormalizeDocument(documento) != [] && TruthyNumber(clubId)
    requires GetClubById(clubs, sedes, rows, clubId.value).Some?
    requires FindStudentByDocument(students, documento).Some?
    ensures var c := GetClubById(clubs, sedes, rows, clubId.value).value;
            var s := FindStudentByDocument(students, documento).value;
            var r := RegisterDecision(students, clubs, sedes, rows, documento, clubId);
            (s.sedeId != c.club.sedeId ==> r == Err(Conflict(MsgSedeMismatch)))
            && (s.sedeId == c.club.sedeId && EnrollmentModel.CountActive(rows, EnrollmentModel.StudentColumn, s.id) > 0
                ==> r == Err(Conflict(MsgAlreadyEnrolled)))
            && (s.sedeId == c.club.sedeId && EnrollmentModel.CountActive(rows, EnrollmentModel.StudentColumn, s.id) == 0
                && EnrollmentModel.CountActiveEnrollmentsByClub(rows, clubId.value) >= c.club.capacidad
                ==> r == Err(Conflict(MsgClubFull)))
  {
  }

  /** The row a successful registration appends. */
  function AdmittedRow(a: Admission, id: int): Enrollment {
    Enrollment(id, a.student.id, a.club.club.id, Activo)
  }

  /** `registerEnrollment`: on admission one ACTIVO row is appended under the next
      id and its details are returned; on any failure the enrollment table and
      its counter are untouched. */
  method RegisterEnrollment(db: Database, documento: string, clubId: Option<int>)
    returns (r: Result<EnrollmentModel.EnrollmentDetails>)
    requires db.Valid()
    modifies db`enrollments, db`nextEnrollmentId
    ensures db.Valid()
    ensures var d := RegisterDecision(db.students, db.clubs, db.sedes, old(db.enrollments), documento, clubId);
            (d.Err? ==> r == Err(d.error) && db.enrollments == old(db.enrollments)
                        && db.nextEnrollmentId == old(db.nextEnrollmentId))
            && (d.Ok? ==> db.enrollments == old(db.enrollments) + [AdmittedRow(d.value, old(db.nextEnrollmentId))]
                          && r == Ok(AdmittedDetails(d.value, old(db.nextEnrollmentId))))
  {
    // The checks read the tables only; the transaction writes after all pass.
    var d := RegisterDecision(db.students, db.clubs, db.sedes, db.enrollments, documento, clubId);
    if d.Err? {
      return Err(d.error);
    }
    var student, club := d.value.student, d.value.club;
    var id := EnrollmentModel.CreateEnrollment(db, student.id, club.club.id);
    AdmittedDetailsFound(db.students, db.clubs, old(db.enrollments), d.value, id);
    var details := EnrollmentModel.GetEnrollmentWithDetails(db.enrollments, db.students, db.clubs, id);
    r := Ok(details.value);
  }

  /** What `getEnrollmentWithDetails` returns for the appended row. */
  function AdmittedDetails(a: Admission, id: int): EnrollmentModel.EnrollmentDetails {
    EnrollmentModel.EnrollmentDetails(id, a.student.id, a.club.club.id, Activo, a.student.nombre,
                                      a.student.documento, a.student.grupo, a.student.sedeId,
                                      a.club.club.nombre, a.club.club.sedeId)
  }

  /** Reading the appended row back yields its student's and its club's columns. */
  lemma AdmittedDetailsFound(students: seq<Student>, clubs: seq<Club>, rows: seq<Enrollment>, a: Admission, id: int)
    requires StudentIdsDistinct(students) && ClubIdsDistinct(clubs)
    requires a.student in students && a.club.club in clubs
    requires EnrollmentModel.EnrollmentById(rows, id).None?
    ensures EnrollmentModel.GetEnrollmentWithDetails(rows + [AdmittedRow(a, id)], students, clubs, id)
            == Some(AdmittedDetails(a, id))
  {
    StudentByIdOfMember(students, a.student);
    ClubByIdOfMember(clubs, a.club.club);
    EnrollmentByIdAppendFresh(rows, AdmittedRow(a, id));
  }

  lemma {:induction false} EnrollmentByIdAppendFresh(rows: seq<Enrollment>, e: Enrollment)
    requires EnrollmentModel.EnrollmentById(rows, e.id).None?
    ensures EnrollmentModel.EnrollmentById(rows + [e], e.id) == Some(e)
  {
    if rows == [] {
      assert rows + [e] == [e];
    } else {
      assert (rows + [e])[1..] == rows[1..] + [e];
      EnrollmentByIdAppendFresh(rows[1..], e);
    }
  }

  /** `adminAssignEnrollment`: exactly `registerEnrollment` on the same input. */
  method AdminAssignEnrollment(db: Database, documento: string, clubId: Option<int>)
    returns (r: Result<EnrollmentModel.EnrollmentDetails>)
    requires db.Valid()
    modifies db`enrollments, db`nextEnrollmentId
    ensures db.Valid()
    ensures var d := RegisterDecision(db.students, db.clubs, db.sedes, old(db.enrollments), documento, clubId);
            (d.Err? ==> r == Err(d.error) && db.enrollments == old(db.enrollments)
                        && db.nextEnrollmentId == old(db.nextEnrollmentId))
            && (d.Ok? ==> db.enrollments == old(db.enrollments) + [AdmittedRow(d.value, old(db.nextEnrollmentId))]
                          && r == Ok(AdmittedDetails(d.value, old(db.nextEnrollmentId))))
  {
    r := RegisterEnrollment(db, documento, clubId);
  }

  /** Appending an ACTIVO row keeps the three rules when its student has no
      ACTIVO row yet, its club has a free seat and both are in the same sede. */
  lemma AppendActiveKeepsConsistent(students: seq<Student>, clubs: seq<Club>, rows: seq<Enrollment>, x: Enrollment)
    requires ClubIdsDistinct(clubs)
    requires Consistent(students, clubs, rows)
    requires x.estado == Activo && SameSede(x, students, clubs)
    requires EnrollmentModel.CountActive(rows, EnrollmentModel.StudentColumn, x.estudianteId) == 0
    requires ClubById(clubs, x.clubId).Some? ==>
               EnrollmentModel.CountActiveEnrollmentsByClub(rows, x.clubId) < ClubById(clubs, x.clubId).value.capacidad
    ensures Consistent(students, clubs, rows + [x])
  {
    var after := rows + [x];
    forall i, j | 0 <= i < j < |after| && after[i].estado == Activo && after[j].estado == Activo
      ensures after[i].estudianteId != after[j].estudianteId
    {
      if j == |rows| {
        assert after[i] in rows;
        assert !EnrollmentModel.ActiveIn(after[i], EnrollmentModel.StudentColumn, x.estudianteId);
      }
    }
    forall c | c in clubs ensures EnrollmentModel.CountActiveEnrollmentsByClub(after, c.id) <= c.capacidad {
      EnrollmentModel.CountActiveAppend(rows, x, EnrollmentModel.ClubColumn, c.id);
      if c.id == x.clubId {
        ClubByIdOfMember(clubs, c);
      }
    }
  }

  /** A successful registration keeps all three business rules. */
  lemma RegisterKeepsConsistent(students: seq<Student>, clubs: seq<Club>, sedes: seq<Sede>, rows: seq<Enrollment>,
                                documento: string, clubId: Option<int>, id: int)
    requires StudentIdsDistinct(students) && ClubIdsDistinct(clubs)
    requires Consistent(students, clubs, rows)
    requires RegisterDecision(students, clubs, sedes, rows, documento, clubId).Ok?
    ensures Consistent(students, clubs, rows + [AdmittedRow(RegisterDecision(students, clubs, sedes, rows, documento, clubId).value, id)])
  {
    var a := RegisterDecision(students, clubs, sedes, rows, documento, clubId).value;
    StudentByIdOfMember(students, a.student);
    ClubByIdOfMember(clubs, a.club.club);
    AppendActiveKeepsConsistent(students, clubs, rows, AdmittedRow(a, id));
  }

  /** Registration only appends: the history before it is kept as it was. */
  lemma AppendExtends(rows: seq<Enrollment>, x: Enrollment)
    ensures Extends(rows, rows + [x])
  {
  }

  /** The answer of `checkEnrollmentStatus`: not enrolled, or the student, the
      sede (the student's id, the club's sede name and slug) and the club. */
  datatype EnrollmentStatus =
    | NotEnrolled
    | Enrolled(nombre: string, documento: string, grupo: string,
               sedeId: int, sedeNombre: string, sedeSlug: string, club: Club)

  /** `checkEnrollmentStatus`: BadRequest for a blank document; otherwise whether
      the student with the normalized document has a (joined) ACTIVO enrollment. */
  function CheckEnrollmentStatus(rows: seq<Enrollment>, students: seq<Student>, clubs: seq<Club>, sedes: seq<Sede>,
                                 documento: string): (r: Result<EnrollmentStatus>)
    ensures r.Err? <==> NormalizeDocument(documento) == []
    ensures r.Err? ==> r.error == BadRequest(MsgDocumentRequired)
    ensures r == Ok(NotEnrolled) <==>
              NormalizeDocument(documento) != []
              && forall e :: e in rows ==> !EnrollmentModel.ActiveForDocument(e, students, clubs, sedes, NormalizeDocument(documento))
    ensures r.Ok? && r.value.Enrolled? ==>
              r.value.documento == NormalizeDocument(documento) && r.value.club in clubs
              && exists e :: e in rows && e.clubId == r.value.club.id
                             && EnrollmentModel.ActiveForDocument(e, students, clubs, sedes, NormalizeDocument(documento))
    ensures r.Ok? && r.value.Enrolled? ==>
              exists e :: e in rows && EnrollmentModel.ActiveForDocument(e, students, clubs, sedes, NormalizeDocument(documento))
                          && var j := EnrollmentModel.Join(e, students, clubs, sedes).value;
                             r.value == Enrolled(j.student.nombre, j.student.documento, j.student.grupo,
                                                 j.student.sedeId, j.sede.nombre, j.sede.slug, j.club)
  {
    var doc := NormalizeDocument(documento);
    if doc == [] then Err(BadRequest(MsgDocumentRequired))
    else
      var rec := EnrollmentModel.FindActiveEnrollmentByDocument(rows, students, clubs, sedes, doc);
      if rec.None? then Ok(NotEnrolled)
      else
        var j := rec.value;
        assert j.enrollment in rows;
        Ok(Enrolled(j.student.nombre, j.student.documento, j.student.grupo,
                    j.student.sedeId, j.sede.nombre, j.sede.slug, j.club))
  }

  /** When enrollments stay inside their student's sede, the status reports the
      club's own sede id. */
  lemma StatusSedeIsClubSede(rows: seq<Enrollment>, students: seq<Student>, clubs: seq<Club>, sedes: seq<Sede>,
                             documento: string)
    requires StudentIdsDistinct(students) && ClubIdsDistinct(clubs)
    requires SedesAgree(students, clubs, rows)
    requires CheckEnrollmentStatus(rows, students, clubs, sedes, documento).Ok?
    requires CheckEnrollmentStatus(rows, students, clubs, sedes, documento).value.Enrolled?
    ensures CheckEnrollmentStatus(rows, students, clubs, sedes, documento).value.sedeId
            == CheckEnrollmentStatus(rows, students, clubs, sedes, documento).value.club.sedeId
  {
    var j := EnrollmentModel.FindActiveEnrollmentByDocument(rows, students, clubs, sedes, NormalizeDocument(documento)).value;
    StudentByIdOfMember(students, j.student);
    ClubByIdOfMember(clubs, j.club);
    assert SameSede(j.enrollment, students, clubs);
  }

  lemma {:induction false} FindActiveAppend(rows: seq<Enrollment>, students: seq<Student>, clubs: seq<Club>,
                                            sedes: seq<Sede>, doc: string, x: Enrollment)
    requires forall e :: e in rows ==> !EnrollmentModel.ActiveForDocument(e, students, clubs, sedes, doc)
    requires EnrollmentModel.ActiveForDocument(x, students, clubs, sedes, doc)
    ensures EnrollmentModel.FindActiveEnrollmentByDocument(rows + [x], students, clubs, sedes, doc)
            == EnrollmentModel.Join(x, students, clubs, sedes)
  {
    if rows == [] {
      assert rows + [x] == [x];
    } else {
      assert (rows + [x])[1..] == rows[1..] + [x];
      FindActiveAppend(rows[1..], students, clubs, sedes, doc, x);
    }
  }

  /** After a successful registration the status check by the same document
      reports the student enrolled in the club just chosen. */
  lemma RegisterThenStatus(students: seq<Student>, clubs: seq<Club>, sedes: seq<Sede>, rows: seq<Enrollment>,
                           documento: string, clubId: Option<int>, id: int)
    requires StudentIdsDistinct(students) && DocumentsDistinct(students) && ClubIdsDistinct(clubs)
    requires RegisterDecision(students, clubs, sedes, rows, documento, clubId).Ok?
    ensures var a := RegisterDecision(students, clubs, sedes, rows, documento, clubId).value;
            var st := CheckEnrollmentStatus(rows + [AdmittedRow(a, id)], students, clubs, sedes, documento);
            st.Ok? && st.value.Enrolled? && st.value.club == a.club.club
            && st.value.documento == a.student.documento && st.value.sedeId == a.student.sedeId
  {
    var a := RegisterDecision(students, clubs, sedes, rows, documento, clubId).value;
    var doc := NormalizeDocument(documento);
    var x := AdmittedRow(a, id);
    forall e | e in rows ensures !EnrollmentModel.ActiveForDocument(e, students, clubs, sedes, doc) {
      if EnrollmentModel.Join(e, students, clubs, sedes).Some? {
        // A student carrying the document is the admitted one, who has no ACTIVO row.
        StudentByDocumentOfMember(students, EnrollmentModel.Join(e, students, clubs, sedes).value.student);
      }
    }
    StudentByIdOfMember(students, a.student);
    ClubByIdOfMember(clubs, a.club.club);
    FindActiveAppend(rows, students, clubs, sedes, doc, x);
  }

  /** `cancelEnrollment`: NotFound for an id `getEnrollmentWithDetails` does not
      find; otherwise the row turns CANCELADO, whatever its state, and the
      snapshot read before is returned with `estado = CANCELADO`. */
  method CancelEnrollment(db: Database, id: int) returns (r: Result<EnrollmentModel.EnrollmentDetails>)
    requires db.Valid()
    modifies db`enrollments
    ensures db.Valid()
    ensures var d := EnrollmentModel.GetEnrollmentWithDetails(old(db.enrollments), db.students, db.clubs, id);
            (d.None? ==> r == Err(NotFound(MsgEnrollmentNotFound)) && db.enrollments == old(db.enrollments))
            && (d.Some? ==> r == Ok(d.value.(estado := Cancelado))
                            && db.enrollments == EnrollmentModel.CancelRows(old(db.enrollments), id))
  {
    var enrollment := EnrollmentModel.GetEnrollmentWithDetails(db.enrollments, db.students, db.clubs, id);
    if enrollment.None? {
      return Err(NotFound(MsgEnrollmentNotFound));
    }
    EnrollmentModel.CancelEnrollment(db, id);
    r := Ok(enrollment.value.(estado := Cancelado));
  }

  lemma {:induction false} EnrollmentByIdCancel(rows: seq<Enrollment>, id: int)
    requires EnrollmentModel.EnrollmentById(rows, id).Some?
    ensures EnrollmentModel.EnrollmentById(EnrollmentModel.CancelRows(rows, id), id)
            == Some(EnrollmentModel.EnrollmentById(rows, id).value.(estado := Cancelado))
  {
    EnrollmentModel.CancelRowsTail(rows, id);
    if rows[0].id != id {
      EnrollmentByIdCancel(rows[1..], id);
    }
  }

  /** Reading a cancelled enrollment back yields the snapshot `cancelEnrollment`
      returned. */
  lemma CancelThenDetails(rows: seq<Enrollment>, students: seq<Student>, clubs: seq<Club>, id: int)
    requires EnrollmentModel.GetEnrollmentWithDetails(rows, students, clubs, id).Some?
    ensures EnrollmentModel.GetEnrollmentWithDetails(EnrollmentModel.CancelRows(rows, id), students, clubs, id)
            == Some(EnrollmentModel.GetEnrollmentWithDetails(rows, students, clubs, id).value.(estado := Cancelado))
  {
    EnrollmentByIdCancel(rows, id);
  }

  /** Cancellation keeps all three business rules and the history. */
  lemma CancelKeepsConsistent(students: seq<Student>, clubs: seq<Club>, rows: seq<Enrollment>, id: int)
    requires forall i, j :: 0 <= i < j < |rows| ==> rows[i].id != rows[j].id
    requires Consistent(students, clubs, rows)
    ensures Consistent(students, clubs, EnrollmentModel.CancelRows(rows, id))
    ensures Extends(rows, EnrollmentModel.CancelRows(rows, id))
  {
    var after := EnrollmentModel.CancelRows(rows, id);
    forall c | c in clubs ensures EnrollmentModel.CountActiveEnrollmentsByClub(after, c.id) <= c.capacidad {
      EnrollmentModel.CountActiveCancel(rows, id, EnrollmentModel.ClubColumn, c.id);
    }
    forall e | e in after ensures SameSede(e, students, clubs) {
      var k :| 0 <= k < |after| && after[k] == e;
      assert rows[k] in rows;
    }
  }

  /** The row being moved, as read before the move, and the club it moves to. */
  datatype MovePlan = MovePlan(moved: EnrollmentModel.EnrollmentDetails, target: ClubView)

  /** The conditions of a move, in no particular order. The state of the moved
      row is not among them. */
  predicate Movable(rows: seq<Enrollment>, students: seq<Student>, clubs: seq<Club>, sedes: seq<Sede>,
                    id: int, nuevoClubId: NumberArg)
  {
    var n := ToNumber(nuevoClubId);
    var d := EnrollmentModel.GetEnrollmentWithDetails(rows, students, clubs, id);
    TruthyNumber(n) && d.Some? && d.value.clubId != n.value
    && var c := GetClubById(clubs, sedes, rows, n.value);
       c.Some? && c.value.club.sedeId == d.value.sedeId
       && EnrollmentModel.CountActiveEnrollmentsByClub(rows, n.value) < c.value.club.capacidad
  }

  /** The decision `moveEnrollment` takes, check by check in the order of the source. */
  function MoveDecision(rows: seq<Enrollment>, students: seq<Student>, clubs: seq<Club>, sedes: seq<Sede>,
                        id: int, nuevoClubId: NumberArg): (r: Result<MovePlan>)
    ensures r.Ok? <==> Movable(rows, students, clubs, sedes, id, nuevoClubId)
    ensures r.Ok? ==> Some(r.value.moved) == EnrollmentModel.GetEnrollmentWithDetails(rows, students, clubs, id)
                      && r.value.target.club.id == ToNumber(nuevoClubId).value
                      && r.value.target.club in clubs
    ensures !TruthyNumber(ToNumber(nuevoClubId)) ==> r == Err(BadRequest(MsgNewClubRequired))
    ensures TruthyNumber(ToNumber(nuevoClubId))
            && EnrollmentModel.GetEnrollmentWithDetails(rows, students, clubs, id).None?
            ==> r == Err(NotFound(MsgEnrollmentNotFound))
    ensures TruthyNumber(ToNumber(nuevoClubId))
            && EnrollmentModel.GetEnrollmentWithDetails(rows, students, clubs, id).Some?
            && EnrollmentModel.GetEnrollmentWithDetails(rows, students, clubs, id).value.clubId
               == ToNumber(nuevoClubId).value
            ==> r == Err(Conflict(MsgSameClub))
    ensures r.Err? ==> r.error in {BadRequest(MsgNewClubRequired), NotFound(MsgEnrollmentNotFound),
                                   Conflict(MsgSameClub), NotFound(MsgClubNotFound),
                                   Conflict(MsgOtherSede), Conflict(MsgNewClubFull)}
  {
    var n := ToNumber(nuevoClubId);
    if !TruthyNumber(n) then Err(BadRequest(MsgNewClubRequired))
    else
      var d := EnrollmentModel.GetEnrollmentWithDetails(rows, students, clubs, id);
      if d.None? then Err(NotFound(MsgEnrollmentNotFound))
      else if d.value.clubId == n.value then Err(Conflict(MsgSameClub))
      else
        var c := EnsureClubAvailable(clubs, sedes, rows, n.value);
        if c.Err? then Err(c.error)
        else if c.value.club.sedeId != d.value.sedeId then Err(Conflict(MsgOtherSede))
        else if EnrollmentModel.CountActiveEnrollmentsByClub(rows, n.value) >= c.value.club.capacidad
        then Err(Conflict(MsgNewClubFull))
        else Ok(MovePlan(d.value, c.value))
  }

  /** The ACTIVO row a move appends. */
  function MovedRow(p: MovePlan, newId: int): Enrollment {
    Enrollment(newId, p.moved.estudianteId, p.target.club.id, Activo)
  }

  /** What `getEnrollmentWithDetails` returns for the appended row. */
  function MovedDetails(p: MovePlan, newId: int): EnrollmentModel.EnrollmentDetails {
    p.moved.(id := newId, clubId := p.target.club.id, estado := Activo,
             clubNombre := p.target.club.nombre, clubSedeId := p.target.club.sedeId)
  }

  /** Reading the appended row back yields the student's columns unchanged and
      the new club's. */
  lemma MovedDetailsFound(rows: seq<Enrollment>, students: seq<Student>, clubs: seq<Club>, sedes: seq<Sede>,
                          id: int, nuevoClubId: NumberArg, mid: seq<Enrollment>, newId: int)
    requires ClubIdsDistinct(clubs)
    requires MoveDecision(rows, students, clubs, sedes, id, nuevoClubId).Ok?
    requires EnrollmentModel.EnrollmentById(mid, newId).None?
    ensures var p := MoveDecision(rows, students, clubs, sedes, id, nuevoClubId).value;
            EnrollmentModel.GetEnrollmentWithDetails(mid + [MovedRow(p, newId)], students, clubs, newId)
            == Some(MovedDetails(p, newId))
  {
    var p := MoveDecision(rows, students, clubs, sedes, id, nuevoClubId).value;
    ClubByIdOfMember(clubs, p.target.club);
    EnrollmentByIdAppendFresh(mid, MovedRow(p, newId));
  }

  /** `moveEnrollment`: on success the moved row turns CANCELADO and one ACTIVO
      row for the same student at the new club is appended under the next id;
      on any failure nothing changes. */
  method MoveEnrollment(db: Database, id: int, nuevoClubId: NumberArg)
    returns (r: Result<EnrollmentModel.EnrollmentDetails>)
    requires db.Valid()
    modifies db`enrollments, db`nextEnrollmentId
    ensures db.Valid()
    ensures var d := MoveDecision(old(db.enrollments), db.students, db.clubs, db.sedes, id, nuevoClubId);
            (d.Err? ==> r == Err(d.error) && db.enrollments == old(db.enrollments)
                        && db.nextEnrollmentId == old(db.nextEnrollmentId))
            && (d.Ok? ==> db.enrollments == EnrollmentModel.CancelRows(old(db.enrollments), id)
                                            + [MovedRow(d.value, old(db.nextEnrollmentId))]
                          && r == Ok(MovedDetails(d.value, old(db.nextEnrollmentId))))
  {
    // The checks read the tables only; the transaction writes after all pass.
    var d := MoveDecision(db.enrollments, db.students, db.clubs, db.sedes, id, nuevoClubId);
    if d.Err? {
      return Err(d.error);
    }
    EnrollmentModel.CancelEnrollment(db, id);
    ghost var mid := db.enrollments;
    var nuevoId := EnrollmentModel.CreateEnrollment(db, d.value.moved.estudianteId, d.value.target.club.id);
    MovedDetailsFound(old(db.enrollments), db.students, db.clubs, db.sedes, id, nuevoClubId, mid, nuevoId);
    var details := EnrollmentModel.GetEnrollmentWithDetails(db.enrollments, db.students, db.clubs, nuevoId);
    r := Ok(details.value);
  }

  /** A move of an ACTIVO row keeps all three business rules and the history. */
  lemma MoveKeepsConsistent(rows: seq<Enrollment>, students: seq<Student>, clubs: seq<Club>, sedes: seq<Sede>,
                            id: int, nuevoClubId: NumberArg, newId: int)
    requires StudentIdsDistinct(students) && ClubIdsDistinct(clubs)
    requires forall i, j :: 0 <= i < j < |rows| ==> rows[i].id != rows[j].id
    requires Consistent(students, clubs, rows)
    requires MoveDecision(rows, students, clubs, sedes, id, nuevoClubId).Ok?
    requires EnrollmentModel.EnrollmentById(rows, id).value.estado == Activo
    ensures var p := MoveDecision(rows, students, clubs, sedes, id, nuevoClubId).value;
            var after := EnrollmentModel.CancelRows(rows, id) + [MovedRow(p, newId)];
            Consistent(students, clubs, after)
  {
    var p := MoveDecision(rows, students, clubs, sedes, id, nuevoClubId).value;
    var e := EnrollmentModel.EnrollmentById(rows, id).value;
    var mid := EnrollmentModel.CancelRows(rows, id);
    var x := MovedRow(p, newId);
    CancelKeepsConsistent(students, clubs, rows, id);
    EnrollmentModel.CountActiveCancel(rows, id, EnrollmentModel.StudentColumn, e.estudianteId);
    CountAtMostOne(rows, e.estudianteId);
    EnrollmentModel.CountActiveCancel(rows, id, EnrollmentModel.ClubColumn, x.clubId);
    ClubByIdOfMember(clubs, p.target.club);
    AppendActiveKeepsConsistent(students, clubs, mid, x);
  }

  /** A move of an ACTIVO row frees one seat of the old club, takes one of the new
      club, and leaves the student with exactly one ACTIVO row. */
  lemma MoveShiftsOneSeat(rows: seq<Enrollment>, students: seq<Student>, clubs: seq<Club>, sedes: seq<Sede>,
                          id: int, nuevoClubId: NumberArg, newId: int)
    requires forall i, j :: 0 <= i < j < |rows| ==> rows[i].id != rows[j].id
    requires OneActivePerStudent(rows)
    requires MoveDecision(rows, students, clubs, sedes, id, nuevoClubId).Ok?
    requires EnrollmentModel.EnrollmentById(rows, id).value.estado == Activo
    ensures var p := MoveDecision(rows, students, clubs, sedes, id, nuevoClubId).value;
            var after := EnrollmentModel.CancelRows(rows, id) + [MovedRow(p, newId)];
            EnrollmentModel.CountActiveEnrollmentsByClub(after, p.moved.clubId) + 1
              == EnrollmentModel.CountActiveEnrollmentsByClub(rows, p.moved.clubId)
            && EnrollmentModel.CountActiveEnrollmentsByClub(after, p.target.club.id)
               == EnrollmentModel.CountActiveEnrollmentsByClub(rows, p.target.club.id) + 1
            && EnrollmentModel.CountActive(after, EnrollmentModel.StudentColumn, p.moved.estudianteId) == 1
  {
    var p := MoveDecision(rows, students, clubs, sedes, id, nuevoClubId).value;
    var e := EnrollmentModel.EnrollmentById(rows, id).value;
    var mid := EnrollmentModel.CancelRows(rows, id);
    var x := MovedRow(p, newId);
    EnrollmentModel.CountActiveCancel(rows, id, EnrollmentModel.ClubColumn, p.moved.clubId);
    EnrollmentModel.CountActiveAppend(mid, x, EnrollmentModel.ClubColumn, p.moved.clubId);
    EnrollmentModel.CountActiveCancel(rows, id, EnrollmentModel.ClubColumn, p.target.club.id);
    EnrollmentModel.CountActiveAppend(mid, x, EnrollmentModel.ClubColumn, p.target.club.id);
    EnrollmentModel.CountActiveCancel(rows, id, EnrollmentModel.StudentColumn, e.estudianteId);
    CountAtMostOne(rows, e.estudianteId);
    EnrollmentModel.CountActiveAppend(mid, x, EnrollmentModel.StudentColumn, e.estudianteId);
  }

  /** A move only cancels one row and appends one: the history is kept. */
  lemma MoveExtends(rows: seq<Enrollment>, id: int, x: Enrollment)
    ensures Extends(rows, EnrollmentModel.CancelRows(rows, id) + [x])
  {
  }

  /** The move does not look at the state of the moved row: moving a CANCELADO
      row of a student who is ACTIVO elsewhere is accepted and leaves that student
      with two ACTIVO rows. A student of sede 1 has a cancelled row at club 1 and
      an active one at club 2; the cancelled row is moved to club 2. */
  lemma MoveOfCancelledRowBreaksOneActive(students: seq<Student>, clubs: seq<Club>, sedes: seq<Sede>,
                                          rows: seq<Enrollment>)
    requires students == [Student(1, 1, "6A", "Ana", "D1")] && sedes == [Sede(1, "Centro", "centro")]
    requires clubs == [Club(1, 1, "Ajedrez", "", "Luis", 5, ""), Club(2, 1, "Baile", "", "Marta", 5, "")]
    requires rows == [Enrollment(1, 1, 1, Cancelado), Enrollment(2, 1, 2, Activo)]
    ensures Consistent(students, clubs, rows)
    ensures MoveDecision(rows, students, clubs, sedes, 1, Num(2)).Ok?
    ensures !OneActivePerStudent(EnrollmentModel.CancelRows(rows, 1)
                                 + [MovedRow(MoveDecision(rows, students, clubs, sedes, 1, Num(2)).value, 3)])
  {
    assert rows[1..] == [Enrollment(2, 1, 2, Activo)];
    assert EnrollmentModel.CountActiveEnrollmentsByClub(rows[1..], 1) == 0;
    assert EnrollmentModel.CountActiveEnrollmentsByClub(rows, 1) == 0;
    assert EnrollmentModel.CountActiveEnrollmentsByClub(rows[1..], 2) == 1;
    assert EnrollmentModel.CountActiveEnrollmentsByClub(rows, 2) == 1;
    assert clubs[1..] == [Club(2, 1, "Baile", "", "Marta", 5, "")];
    assert ClubById(clubs, 2) == Some(clubs[1]);
    assert SedeModel.GetSedeById(sedes, 1) == Some(sedes[0]);
    assert EnrollmentModel.EnrollmentById(rows, 1) == Some(rows[0]);
    var d := EnrollmentModel.GetEnrollmentWithDetails(rows, students, clubs, 1);
    assert d.Some? && d.value.clubId == 1 && d.value.sedeId == 1;
    var after := EnrollmentModel.CancelRows(rows, 1) + [Enrollment(3, 1, 2, Activo)];
    assert after[1] == rows[1] && after[2].estado == Activo;
  }
}

=== FILE: errors.dfy ===
/** The error taxonomy of the services: `AppError` carries a message and an HTTP
    status, and four constructors build the statuses the services raise. */
module Errors {
  import opened Values

  datatype AppError = AppError(message: string, status: int)

  /** The kinds of failure, told apart by status alone. */
  datatype ErrorKind = BadRequestKind | UnauthorizedKind | NotFoundKind | ConflictKind | InternalKind

  function KindOf(e: AppError): ErrorKind {
    if e.status == 400 then BadRequestKind
    else if e.status == 401 then UnauthorizedKind
    else if e.status == 404 then NotFoundKind
    else if e.status == 409 then ConflictKind
    else InternalKind
  }

  /** A service outcome: a value, or the `AppError` it throws. */
  datatype Result<T> = Ok(value: T) | Err(error: AppError)

  /** `new AppError(message, status)`; an omitted status means 500. */
  function NewAppError(message: string, status: Option<int>): (e: AppError)
    ensures e.message == message
    ensures status.None? ==> e.status == 500 && KindOf(e) == InternalKind
    ensures status.Some? ==> e.status == status.value
  {
    AppError(message, if status.Some? then status.value else 500)
  }

  /** `badRequest(message)`: status 400, message kept as given. */
  function BadRequest(message: string): (e: AppError)
    ensures e.status == 400 && KindOf(e) == BadRequestKind && e.message == message
  {
    NewAppError(message, Some(400))
  }

  /** `notFound(message)`: status 404; an empty or absent message becomes 'No encontrado'. */
  function NotFound(message: string): (e: AppError)
    ensures e.status == 404 && KindOf(e) == NotFoundKind
    ensures e.message == (if message == "" then "No encontrado" else message)
  {
    NewAppError(if message == "" then "No encontrado" else message, Some(404))
  }

  /** `conflict(message)`: status 409, default message 'Conflicto'. */
  function Conflict(message: string): (e: AppError)
    ensures e.status == 409 && KindOf(e) == ConflictKind
    ensures e.message == (if message == "" then "Conflicto" else message)
  {
    NewAppError(if message == "" then "Conflicto" else message, Some(409))
  }

  /** `unauthorized(message)`: status 401, default message 'No autorizado'. */
  function Unauthorized(message: string): (e: AppError)
    ensures e.status == 401 && KindOf(e) == UnauthorizedKind
    ensures e.message == (if message == "" then "No autorizado" else message)
  {
    NewAppError(if message == "" then "No autorizado" else message, Some(401))
  }
}

=== FILE: invariants.dfy ===
/** The business rules the enrollment operations keep: at most one ACTIVO
    enrollment per student, no club above its capacity, every enrollment inside
    its student's sede, and a history in which rows are never removed and a
    cancellation is never undone. */
module Invariants {
  import opened Schema
  import opened EnrollmentModel

  /** No two ACTIVO rows belong to the same student. */
  ghost predicate OneActivePerStudent(rows: seq<Enrollment>) {
    forall i, j :: 0 <= i < j < |rows| && rows[i].estado == Activo && rows[j].estado == Activo
                   ==> rows[i].estudianteId != rows[j].estudianteId
  }

  /** Every club's ACTIVO count is within its capacity. */
  ghost predicate WithinCapacity(clubs: seq<Club>, rows: seq<Enrollment>) {
    forall c :: c in clubs ==> CountActiveEnrollmentsByClub(rows, c.id) <= c.capacidad
  }

  /** The enrollment's student and club, when both exist, are in the same sede. */
  predicate SameSede(e: Enrollment, students: seq<Student>, clubs: seq<Club>) {
    var s := StudentById(students, e.estudianteId);
    var c := ClubById(clubs, e.clubId);
    s.Some? && c.Some? ==> s.value.sedeId == c.value.sedeId
  }

  ghost predicate SedesAgree(students: seq<Student>, clubs: seq<Club>, rows: seq<Enrollment>) {
    forall e :: e in rows ==> SameSede(e, students, clubs)
  }

  ghost predicate Consistent(students: seq<Student>, clubs: seq<Club>, rows: seq<Enrollment>) {
    OneActivePerStudent(rows) && WithinCapacity(clubs, rows) && SedesAgree(students, clubs, rows)
  }

  /** `after` keeps every row of `before` in place with the same id, student and
      club, and a CANCELADO row stays CANCELADO. */
  ghost predicate Extends(before: seq<Enrollment>, after: seq<Enrollment>) {
    |before| <= |after|
    && forall i :: 0 <= i < |before| ==>
         after[i].id == before[i].id && after[i].estudianteId == before[i].estudianteId
         && after[i].clubId == before[i].clubId
         && (before[i].estado == Cancelado ==> after[i].estado == Cancelado)
  }

  /** The pairwise rule says the same as "every student has at most one ACTIVO row". */
  lemma OneActiveIffCountAtMostOne(rows: seq<Enrollment>)
    ensures OneActivePerStudent(rows) <==> forall sid :: CountActive(rows, StudentColumn, sid) <= 1
  {
    if OneActivePerStudent(rows) {
      forall sid ensures CountActive(rows, StudentColumn, sid) <= 1 {
        CountAtMostOne(rows, sid);
      }
    } else {
      var i, j :| 0 <= i < j < |rows| && rows[i].estado == Activo && rows[j].estado == Activo
                  && rows[i].estudianteId == rows[j].estudianteId;
      CountAtLeastTwo(rows, i, j, rows[i].estudianteId);
    }
  }

  lemma {:induction false} CountAtMostOne(rows: seq<Enrollment>, sid: int)
    requires OneActivePerStudent(rows)
    ensures CountActive(rows, StudentColumn, sid) <= 1
  {
    if rows != [] {
      var t := rows[1..];
      assert OneActivePerStudent(t) by {
        forall i, j | 0 <= i < j < |t| && t[i].estado == Activo && t[j].estado == Activo
          ensures t[i].estudianteId != t[j].estudianteId
        {
          assert t[i] == rows[i + 1] && t[j] == rows[j + 1];
        }
      }
      CountAtMostOne(t, sid);
      if ActiveIn(rows[0], StudentColumn, sid) {
        forall e | e in t ensures !ActiveIn(e, StudentColumn, sid) {
          var k :| 0 <= k < |t| && t[k] == e;
          assert rows[k + 1] == e;
        }
      }
    }
  }

  lemma {:induction false} CountAtLeastTwo(rows: seq<Enrollment>, i: int, j: int, sid: int)
    requires 0 <= i < j < |rows|
    requires ActiveIn(rows[i], StudentColumn, sid) && ActiveIn(rows[j], StudentColumn, sid)
    ensures CountActive(rows, StudentColumn, sid) >= 2
  {
    var t := rows[1..];
    if i == 0 {
      assert t[j - 1] in t;
    } else {
      CountAtLeastTwo(t, i - 1, j - 1, sid);
    }
  }
}

=== FILE: ordering.dfy ===
/** The orders the queries sort by. `ORDER BY a, b, c` and the report's
    comparator both compare rows by a key of strings, column after column. */
module Ordering {

  /** Code-point lexicographic order on strings, standing in for the database
      collation and for `localeCompare`. */
  predicate StrLe(a: string, b: string)
    decreases |a|
  {
    a == [] || (b != [] && (a[0] < b[0] || (a[0] == b[0] && StrLe(a[1..], b[1..]))))
  }

  lemma {:induction false} StrLeTotal(a: string, b: string)
    ensures StrLe(a, b) || StrLe(b, a)
    decreases |a|
  {
    if a != [] && b != [] && a[0] == b[0] {
      StrLeTotal(a[1..], b[1..]);
    }
  }

  lemma {:induction false} StrLeTrans(a: string, b: string, c: string)
    requires StrLe(a, b) && StrLe(b, c)
    ensures StrLe(a, c)
    decreases |a|
  {
    if a != [] && a[0] == b[0] && b[0] == c[0] {
      StrLeTrans(a[1..], b[1..], c[1..]);
    }
  }

  lemma {:induction false} StrLeAntisymmetric(a: string, b: string)
    requires StrLe(a, b) && StrLe(b, a)
    ensures a == b
    decreases |a|
  {
    if a != [] {
      StrLeAntisymmetric(a[1..], b[1..]);
      assert a == [a[0]] + a[1..] && b == [b[0]] + b[1..];
    }
  }

  /** Lexicographic order on sort keys: the first column that differs decides. */
  predicate KeyLe(a: seq<string>, b: seq<string>)
    decreases |a|
  {
    a == [] || (b != [] && (if a[0] == b[0] then KeyLe(a[1..], b[1..]) else StrLe(a[0], b[0])))
  }

  lemma {:induction false} KeyLeTotal(a: seq<string>, b: seq<string>)
    ensures KeyLe(a, b) || KeyLe(b, a)
    decreases |a|
  {
    if a != [] && b != [] {
      if a[0] == b[0] {
        KeyLeTotal(a[1..], b[1..]);
      } else {
        StrLeTotal(a[0], b[0]);
      }
    }
  }

  lemma {:induction false} KeyLeTrans(a: seq<string>, b: seq<string>, c: seq<string>)
    requires KeyLe(a, b) && KeyLe(b, c)
    ensures KeyLe(a, c)
    decreases |a|
  {
    if a != [] {
      if a[0] == b[0] && b[0] == c[0] {
        KeyLeTrans(a[1..], b[1..], c[1..]);
      } else if a[0] == b[0] {
        assert StrLe(b[0], c[0]);
      } else if b[0] == c[0] {
        assert StrLe(a[0], b[0]);
      } else {
        StrLeTrans(a[0], b[0], c[0]);
        if a[0] == c[0] {
          StrLeAntisymmetric(a[0], b[0]);
        }
      }
    }
  }

  /** Rows in ascending key order. */
  ghost predicate SortedBy<T>(s: seq<T>, key: T -> seq<string>) {
    forall i, j :: 0 <= i < j < |s| ==> KeyLe(key(s[i]), key(s[j]))
  }

  lemma SortedCons<T>(y: T, t: seq<T>, key: T -> seq<string>)
    requires SortedBy(t, key)
    requires forall z :: z in t ==> KeyLe(key(y), key(z))
    ensures SortedBy([y] + t, key)
  {
    var s := [y] + t;
    forall i, j | 0 <= i < j < |s| ensures KeyLe(key(s[i]), key(s[j])) {
      assert s[j] == t[j - 1];
      if i > 0 {
        assert s[i] == t[i - 1];
      }
    }
  }

  /** Puts `x` in front of the first element it does not follow, so that equal
      keys keep their order of arrival. */
  function InsertBy<T(==)>(x: T, s: seq<T>, key: T -> seq<string>): (r: seq<T>)
    ensures multiset(r) == multiset(s) + multiset{x}
    ensures SortedBy(s, key) ==> SortedBy(r, key)
  {
    if s == [] then [x]
    else if KeyLe(key(x), key(s[0])) then
      var r := [x] + s;
      assert SortedBy(s, key) ==> SortedBy(r, key) by {
        if SortedBy(s, key) {
          forall z | z in s ensures KeyLe(key(x), key(z)) {
            var j :| 0 <= j < |s| && s[j] == z;
            if j > 0 {
              KeyLeTrans(key(x), key(s[0]), key(z));
            }
          }
          SortedCons(x, s, key);
        }
      }
      r
    else
      var t := InsertBy(x, s[1..], key);
      var r := [s[0]] + t;
      assert s == [s[0]] + s[1..];
      assert SortedBy(s, key) ==> SortedBy(r, key) by {
        if SortedBy(s, key) {
          assert SortedBy(s[1..], key);
          forall z | z in t ensures KeyLe(key(s[0]), key(z)) {
            assert z in multiset(t);
            if z == x {
              KeyLeTotal(key(x), key(s[0]));
            } else {
              assert z in multiset(s[1..]);
              var j :| 0 <= j < |s[1..]| && s[1..][j] == z;
              assert s[j + 1] == z;
            }
          }
          SortedCons(s[0], t, key);
        }
      }
      r
  }

  /** A stable insertion sort by `key`: `ORDER BY` over the key's columns. */
  function SortBy<T(==)>(s: seq<T>, key: T -> seq<string>): (r: seq<T>)
    ensures multiset(r) == multiset(s) && |r| == |s|
    ensures SortedBy(r, key)
  {
    if s == [] then []
    else
      assert s == [s[0]] + s[1..];
      InsertBy(s[0], SortBy(s[1..], key), key)
  }

  /** Sorting keeps exactly the rows it was given. */
  lemma SortByMembers<T>(s: seq<T>, key: T -> seq<string>, x: T)
    ensures x in SortBy(s, key) <==> x in s
  {
    var r := SortBy(s, key);
    assert x in r <==> x in multiset(r);
    assert x in s <==> x in multiset(s);
  }
}

=== FILE: report.dfy ===
/** The enrollment report: the base set of clubs merged with the ACTIVO rows of
    the listing, one entry per club, sorted by sede name and club name.

    The report's `Map` keyed by club id is modelled as the sequence of its
    entries in insertion order, with distinct club ids: `set` on a present key
    replaces the entry in place, on an absent key appends it. */
module Report {
  import opened Values
  import opened Errors
  import opened Schema
  import opened Ordering
  import SedeModel
  import EnrollmentModel
  import opened ClubModel

  const MsgSedeNotFound: string := "Sede no encontrada"

  /** MySQL's message for `WHERE c.id = NaN`: the driver writes the number `NaN`
      into the SQL text as a bare word, which the server reads as a column name. */
  const MsgNaNColumn: string := "Unknown column 'NaN' in 'where clause'"

  /** The query string of the report. `clubId` is `Undefined` when absent or
      empty, `NaN` when it is text that is not a number. */
  datatype ReportFilters = ReportFilters(sedeSlug: Option<string>, grupo: Option<string>, clubId: NumberArg)

  datatype ReportStudent = ReportStudent(enrollmentId: int, nombre: string, documento: string, grupo: string)

  /** One club of the report. `cuposDisponibles` is `None` for JavaScript `null`. */
  datatype ReportEntry = ReportEntry(
    clubId: int, clubNombre: string, clubDescripcion: string, clubResponsable: string, capacidad: int,
    sedeId: int, sedeNombre: string, sedeSlug: string,
    cuposDisponibles: Option<int>, cuposOcupados: nat, estudiantes: seq<ReportStudent>)

  /** The echoed filters and the entries. */
  datatype ReportResult = ReportResult(sede: Option<Sede>, grupo: Option<string>, clubId: NumberArg,
                                       clubs: seq<ReportEntry>)

  /** The entry a base club starts as: its global free seats, nobody listed. */
  function BaseEntry(v: ClubView): ReportEntry {
    ReportEntry(v.club.id, v.club.nombre, v.club.descripcion, v.club.responsable, v.club.capacidad,
                v.club.sedeId, v.sedeNombre, v.sedeSlug, Some(v.cuposDisponibles), 0, [])
  }

  /** The entry a listing row creates for a club outside the base set; its sede
      id is the one the listing reports, the student's. */
  function RowEntry(j: EnrollmentModel.JoinedRow): ReportEntry {
    ReportEntry(j.club.id, j.club.nombre, "", j.club.responsable, j.club.capacidad,
                j.student.sedeId, j.sede.nombre, j.sede.slug, None, 0, [])
  }

  function StudentOf(j: EnrollmentModel.JoinedRow): ReportStudent {
    ReportStudent(j.enrollment.id, j.student.nombre, j.student.documento, j.student.grupo)
  }

  /** The columns of an entry that the rows never change. */
  function Header(e: ReportEntry): ReportEntry {
    e.(cuposDisponibles := None, cuposOcupados := 0, estudiantes := [])
  }

  /** The students the listing holds for a club, in listing order. */
  function StudentsOf(listing: seq<EnrollmentModel.JoinedRow>, clubId: int): (r: seq<ReportStudent>)
    ensures |r| <= |listing|
  {
    if listing == [] then []
    else
      var last := listing[|listing| - 1];
      StudentsOf(listing[..|listing| - 1], clubId) + (if last.club.id == clubId then [StudentOf(last)] else [])
  }

  lemma StudentsOfSnoc(listing: seq<EnrollmentModel.JoinedRow>, j: nat, clubId: int)
    requires j < |listing|
    ensures StudentsOf(listing[..j + 1], clubId)
            == StudentsOf(listing[..j], clubId) + (if listing[j].club.id == clubId then [StudentOf(listing[j])] else [])
  {
    assert listing[..j + 1][..j] == listing[..j];
  }

  /** The base club a `map.set` left last under a club id. */
  function BaseFor(base: seq<ClubView>, clubId: int): (r: Option<ClubView>)
    ensures r.Some? ==> r.value in base && r.value.club.id == clubId
    ensures r.None? <==> forall v :: v in base ==> v.club.id != clubId
  {
    if base == [] then None
    else if base[|base| - 1].club.id == clubId then Some(base[|base| - 1])
    else BaseFor(base[..|base| - 1], clubId)
  }

  lemma BaseForSnoc(base: seq<ClubView>, i: nat, clubId: int)
    requires i < |base|
    ensures BaseFor(base[..i + 1], clubId) == if base[i].club.id == clubId then Some(base[i]) else BaseFor(base[..i], clubId)
  {
    assert base[..i + 1][..i] == base[..i];
  }

  /** The first listing row of a club: the one that created its entry when the
      club is not in the base set. */
  function FirstRowFor(listing: seq<EnrollmentModel.JoinedRow>, clubId: int): (r: Option<EnrollmentModel.JoinedRow>)
    ensures r.Some? ==> r.value in listing && r.value.club.id == clubId
    ensures r.None? <==> forall j :: j in listing ==> j.club.id != clubId
  {
    if listing == [] then None
    else
      var init := listing[..|listing| - 1];
      var last := listing[|listing| - 1];
      assert listing == init + [last];
      var p := FirstRowFor(init, clubId);
      if p.Some? then p else if last.club.id == clubId then Some(last) else None
  }

  predicate KeysDistinct(entries: seq<ReportEntry>) {
    forall a, b :: 0 <= a < b < |entries| ==> entries[a].clubId != entries[b].clubId
  }

  predicate HasEntry(entries: seq<ReportEntry>, clubId: int) {
    exists t :: 0 <= t < |entries| && entries[t].clubId == clubId
  }

  /** `map.get(clubId)`: the position of the entry under that club id. */
  function IndexOf(entries: seq<ReportEntry>, clubId: int): (r: Option<nat>)
    ensures r.Some? ==> r.value < |entries| && entries[r.value].clubId == clubId
    ensures r.None? <==> !HasEntry(entries, clubId)
  {
    if entries == [] then None
    else if entries[0].clubId == clubId then Some(0)
    else
      var r := IndexOf(entries[1..], clubId);
      assert HasEntry(entries[1..], clubId) ==> HasEntry(entries, clubId) by {
        if HasEntry(entries[1..], clubId) {
          var t :| 0 <= t < |entries[1..]| && entries[1..][t].clubId == clubId;
          assert entries[t + 1].clubId == clubId;
        }
      }
      if r.None? then None else Some(r.value + 1)
  }

  /** `map.set`: replace the entry under the same club id, or append. */
  function SetEntry(entries: seq<ReportEntry>, e: ReportEntry): (r: seq<ReportEntry>)
    requires KeysDistinct(entries)
    ensures KeysDistinct(r)
    ensures HasEntry(entries, e.clubId) ==> |r| == |entries|
    ensures !HasEntry(entries, e.clubId) ==> r == entries + [e]
    ensures forall t :: 0 <= t < |entries| ==>
              r[t] == if entries[t].clubId == e.clubId then e else entries[t]
    ensures forall t :: |entries| <= t < |r| ==> r[t] == e
    ensures HasEntry(r, e.clubId)
    ensures forall id :: HasEntry(entries, id) ==> HasEntry(r, id)
  {
    var at := IndexOf(entries, e.clubId);
    if at.Some? then entries[at.value := e]
    else
      var r := entries + [e];
      assert r[|entries|].clubId == e.clubId;
      r
  }

  /** The entries after the first pass of `getReport`: every base club set
      under its id, in order. */
  function Fill(base: seq<ClubView>): (r: seq<ReportEntry>)
    ensures KeysDistinct(r)
  {
    if base == [] then []
    else SetEntry(Fill(base[..|base| - 1]), BaseEntry(base[|base| - 1]))
  }

  /** After the first pass every base club has an entry, and the entry under a
      club id is the last base club with that id, with its global free seats and
      nobody listed. */
  lemma {:induction false} FillEntries(base: seq<ClubView>)
    ensures forall t :: 0 <= t < |Fill(base)| ==>
              BaseFor(base, Fill(base)[t].clubId).Some?
              && Fill(base)[t] == BaseEntry(BaseFor(base, Fill(base)[t].clubId).value)
    ensures forall v :: v in base ==> HasEntry(Fill(base), v.club.id)
  {
    if base != [] {
      var init := base[..|base| - 1];
      var last := base[|base| - 1];
      FillEntries(init);
      assert base == init + [last];
    }
  }

  /** The first pass of `getReport`: `map.set` of each base club in turn. */
  method FillBase(base: seq<ClubView>) returns (entries: seq<ReportEntry>)
    ensures entries == Fill(base)
  {
    entries := [];
    var i := 0;
    while i < |base|
      invariant 0 <= i <= |base|
      invariant entries == Fill(base[..i])
    {
      assert base[..i + 1][..i] == base[..i];
      entries := SetEntry(entries, BaseEntry(base[i]));
      i := i + 1;
    }
    assert base[..i] == base;
  }

  /** A listing row pushed onto an entry: the student appended, the occupied
      seats recounted and the free seats recomputed as
      `max(capacidad - cuposOcupados, 0)`. */
  function AddRow(e: ReportEntry, j: EnrollmentModel.JoinedRow): (r: ReportEntry)
    ensures Header(r) == Header(e)
    ensures r.estudiantes == e.estudiantes + [StudentOf(j)]
    ensures r.cuposOcupados == |r.estudiantes|
    ensures r.cuposDisponibles == Some(AvailableSeats(e.capacidad, |r.estudiantes|))
  {
    var st := e.estudiantes + [StudentOf(j)];
    e.(estudiantes := st, cuposOcupados := |st|, cuposDisponibles := Some(AvailableSeats(e.capacidad, |st|)))
  }

  /** One step of the second pass: the entry already under the row's club, or a
      new one built from the row, gets the row and is set back. */
  function MergeRow(entries: seq<ReportEntry>, j: EnrollmentModel.JoinedRow): (r: seq<ReportEntry>)
    requires KeysDistinct(entries)
    ensures KeysDistinct(r)
  {
    var at := IndexOf(entries, j.club.id);
    var e := if at.Some? then entries[at.value] else RowEntry(j);
    SetEntry(entries, AddRow(e, j))
  }

  /** The entries after the second pass over a listing. */
  function Merge(entries: seq<ReportEntry>, listing: seq<EnrollmentModel.JoinedRow>): (r: seq<ReportEntry>)
    requires KeysDistinct(entries)
    ensures KeysDistinct(r)
  {
    if listing == [] then entries
    else MergeRow(Merge(entries, listing[..|listing| - 1]), listing[|listing| - 1])
  }

  /** The second pass of `getReport`: each listing row merged in turn. */
  method AddRows(entries0: seq<ReportEntry>, listing: seq<EnrollmentModel.JoinedRow>) returns (entries: seq<ReportEntry>)
    requires KeysDistinct(entries0)
    ensures entries == Merge(entries0, listing)
  {
    entries := entries0;
    var j := 0;
    while j < |listing|
      invariant 0 <= j <= |listing|
      invariant KeysDistinct(entries)
      invariant entries == Merge(entries0, listing[..j])
    {
      assert listing[..j + 1][..j] == listing[..j];
      var row := listing[j];
      var at := IndexOf(entries, row.club.id);
      var entry := if at.Some? then entries[at.value] else RowEntry(row);
      entries := SetEntry(entries, AddRow(entry, row));
      j := j + 1;
    }
    assert listing[..j] == listing;
  }

  /** What a report entry holds, given the base clubs and the listing: the
      listing's students of its club in listing order, the occupied seats as
      their number, the club columns of the base club (or, for a club outside
      the base set, of its first listing row), and free seats recomputed from the
      capacity once a student is listed, or else the base club's global figure. */
  ghost predicate EntryInvariant(base: seq<ClubView>, listing: seq<EnrollmentModel.JoinedRow>, e: ReportEntry) {
    var id := e.clubId;
    var b := BaseFor(base, id);
    e.estudiantes == StudentsOf(listing, id)
    && e.cuposOcupados == |e.estudiantes|
    && (e.estudiantes != [] ==> e.cuposDisponibles == Some(AvailableSeats(e.capacidad, |e.estudiantes|)))
    && (b.Some? ==> Header(e) == Header(BaseEntry(b.value))
                    && (e.estudiantes == [] ==> e.cuposDisponibles == Some(b.value.cuposDisponibles)))
    && (b.None? ==> e.estudiantes != [] && FirstRowFor(listing, id).Some?
                    && Header(e) == Header(RowEntry(FirstRowFor(listing, id).value)))
  }

  ghost predicate MergeInvariant(base: seq<ClubView>, listing: seq<EnrollmentModel.JoinedRow>, entries: seq<ReportEntry>) {
    KeysDistinct(entries)
    && (forall t :: 0 <= t < |entries| ==> EntryInvariant(base, listing, entries[t]))
    && (forall v :: v in base ==> HasEntry(entries, v.club.id))
    && (forall j :: j in listing ==> HasEntry(entries, j.club.id))
  }

  lemma FillInvariant(base: seq<ClubView>)
    ensures MergeInvariant(base, [], Fill(base))
  {
    FillEntries(base);
  }

  /** An entry of another club is untouched by a row and still holds. */
  lemma EntryInvariantOther(base: seq<ClubView>, s: seq<EnrollmentModel.JoinedRow>, x: EnrollmentModel.JoinedRow,
                            e: ReportEntry)
    requires EntryInvariant(base, s, e) && e.clubId != x.club.id
    ensures EntryInvariant(base, s + [x], e)
  {
    assert (s + [x])[..|s|] == s;
  }

  /** The entry a row updates holds for the longer listing. */
  lemma EntryInvariantRow(base: seq<ClubView>, s: seq<EnrollmentModel.JoinedRow>, x: EnrollmentModel.JoinedRow,
                          entries: seq<ReportEntry>)
    requires MergeInvariant(base, s, entries)
    ensures EntryInvariant(base, s + [x], AddRow(
              if IndexOf(entries, x.club.id).Some? then entries[IndexOf(entries, x.club.id).value] else RowEntry(x), x))
  {
    var id := x.club.id;
    var s' := s + [x];
    assert s'[..|s|] == s;
    assert StudentsOf(s', id) == StudentsOf(s, id) + [StudentOf(x)];
    var at := IndexOf(entries, id);
    if at.None? {
      assert forall j :: j in s ==> j.club.id != id;
      assert BaseFor(base, id).None?;
      assert FirstRowFor(s, id).None?;
      assert StudentsOf(s, id) == [] by { StudentsOfNone(s, id); }
    } else {
      assert EntryInvariant(base, s, entries[at.value]);
    }
  }

  lemma {:induction false} StudentsOfNone(s: seq<EnrollmentModel.JoinedRow>, id: int)
    requires forall j :: j in s ==> j.club.id != id
    ensures StudentsOf(s, id) == []
  {
    if s != [] {
      var init := s[..|s| - 1];
      assert forall j :: j in init ==> j in s;
      StudentsOfNone(init, id);
    }
  }

  /** One merged row keeps the invariant. */
  lemma MergeRowInvariant(base: seq<ClubView>, s: seq<EnrollmentModel.JoinedRow>, x: EnrollmentModel.JoinedRow,
                          entries: seq<ReportEntry>)
    requires MergeInvariant(base, s, entries)
    ensures MergeInvariant(base, s + [x], MergeRow(entries, x))
  {
    var r := MergeRow(entries, x);
    EntryInvariantRow(base, s, x, entries);
    forall t | 0 <= t < |r| ensures EntryInvariant(base, s + [x], r[t]) {
      if r[t].clubId != x.club.id {
        assert r[t] == entries[t];
        EntryInvariantOther(base, s, x, r[t]);
      }
    }
    forall j | j in s + [x] ensures HasEntry(r, j.club.id) {
      if j != x {
        assert j in s;
      }
    }
  }

  /** The whole second pass keeps the invariant. */
  lemma {:induction false} MergeInvariantHolds(base: seq<ClubView>, listing: seq<EnrollmentModel.JoinedRow>)
    ensures MergeInvariant(base, listing, Merge(Fill(base), listing))
  {
    if listing == [] {
      FillInvariant(base);
    } else {
      var init := listing[..|listing| - 1];
      var last := listing[|listing| - 1];
      var prev := Merge(Fill(base), init);
      MergeInvariantHolds(base, init);
      assert listing == init + [last];
      assert Merge(Fill(base), listing) == MergeRow(prev, last);
      MergeRowInvariant(base, init, last, prev);
    }
  }

  /** Under distinct club ids no entry occurs twice. */
  lemma {:induction false} DistinctOnce(a: seq<ReportEntry>, x: ReportEntry)
    requires KeysDistinct(a)
    ensures multiset(a)[x] <= 1
  {
    if a != [] {
      var init := a[..|a| - 1];
      var last := a[|a| - 1];
      assert a == init + [last];
      DistinctOnce(init, x);
      if x == last {
        forall k | 0 <= k < |init| ensures init[k] != x {
          assert a[k].clubId != a[|a| - 1].clubId;
        }
        assert x !in init;
      }
    }
  }

  lemma TwoCopies(b: seq<ReportEntry>, i: nat, j: nat)
    requires i < j < |b| && b[i] == b[j]
    ensures multiset(b)[b[i]] >= 2
  {
    assert b == b[..j] + [b[j]] + b[j + 1..];
    assert b[i] in b[..j];
  }

  /** Reordering the entries keeps their club ids distinct and every id present. */
  lemma PermutedEntries(a: seq<ReportEntry>, b: seq<ReportEntry>)
    requires KeysDistinct(a) && multiset(a) == multiset(b)
    ensures KeysDistinct(b)
    ensures forall id :: HasEntry(a, id) ==> HasEntry(b, id)
  {
    forall i, j | 0 <= i < j < |b| ensures b[i].clubId != b[j].clubId {
      if b[i].clubId == b[j].clubId {
        assert b[i] in multiset(a) && b[j] in multiset(a);
        var p :| 0 <= p < |a| && a[p] == b[i];
        var q :| 0 <= q < |a| && a[q] == b[j];
        if p == q {
          TwoCopies(b, i, j);
          DistinctOnce(a, b[i]);
        }
        assert false;
      }
    }
    forall id | HasEntry(a, id) ensures HasEntry(b, id) {
      var t :| 0 <= t < |a| && a[t].clubId == id;
      assert a[t] in multiset(b);
      var u :| 0 <= u < |b| && b[u] == a[t];
    }
  }

  /** The sede the report is restricted to: none without a slug, and the error
      "Sede no encontrada" for a slug no sede has. */
  function ReportSede(sedes: seq<Sede>, slug: Option<string>): (r: Result<Option<Sede>>)
    ensures r.Err? <==> TruthyString(slug) && SedeModel.GetSedeBySlug(sedes, slug.value).None?
    ensures r.Err? ==> r.error == NotFound(MsgSedeNotFound)
    ensures r.Ok? && TruthyString(slug) ==> r.value.Some? && r.value.value in sedes && r.value.value.slug == slug.value
    ensures r.Ok? && !TruthyString(slug) ==> r.value.None?
  {
    if !TruthyString(slug) then Ok(None)
    else
      var sede := SedeModel.GetSedeBySlug(sedes, slug.value);
      if sede.None? then Err(NotFound(MsgSedeNotFound)) else Ok(sede)
  }

  /** The filters handed to `listEnrollments`: the sede's id, the group when
      supplied, `Number(clubId)` when supplied. */
  function ListingFilter(sede: Option<Sede>, f: ReportFilters): EnrollmentModel.EnrollmentFilter {
    EnrollmentModel.EnrollmentFilter(
      if sede.Some? then Some(sede.value.id) else None,
      if TruthyString(f.grupo) then f.grupo else None,
      ToNumber(f.clubId))
  }

  /** The clubs listed even without students: the one club asked for (none when
      it is unknown), else the sede's clubs, else every club. A `clubId` that is
      not a number reaches `getClubById` as `NaN`; the query fails, and its error
      carries no status, so it is answered as an internal error (500). */
  function BaseClubs(clubs: seq<Club>, sedes: seq<Sede>, rows: seq<Enrollment>, sede: Option<Sede>, clubId: NumberArg)
    : (r: Result<seq<ClubView>>)
    ensures r.Err? <==> clubId.NaN?
    ensures r.Err? ==> r.error.status == 500 && KindOf(r.error) == InternalKind && r.error.message == MsgNaNColumn
    ensures r.Ok? ==> forall v :: v in r.value ==> v.club in clubs && ViewOf(v.club, sedes, rows) == Some(v)
    ensures clubId.Num? ==> |r.value| <= 1 && forall v :: v in r.value ==> v.club.id == clubId.n
    ensures clubId.Num? ==> (r.value != [] <==> GetClubById(clubs, sedes, rows, clubId.n).Some?)
    ensures clubId.Undefined? && sede.Some? && sede.value.id != 0 ==>
              forall v :: v in r.value <==> v.club in clubs && v.club.sedeId == sede.value.id
                                            && ViewOf(v.club, sedes, rows) == Some(v)
    ensures clubId.Undefined? && (sede.None? || sede.value.id == 0) ==>
              forall v :: v in r.value <==> v.club in clubs && ViewOf(v.club, sedes, rows) == Some(v)
  {
    if clubId.Num? then
      var c := GetClubById(clubs, sedes, rows, clubId.n);
      Ok(if c.Some? then [c.value] else [])
    else if clubId.NaN? then Err(NewAppError(MsgNaNColumn, None))
    else if sede.Some? && sede.value.id != 0 then Ok(GetClubsBySedeId(clubs, sedes, rows, sede.value.id))
    else Ok(GetAllClubs(clubs, sedes, rows))
  }

  /** The report's order: sede name, then club name. */
  function EntryKey(e: ReportEntry): seq<string> {
    [e.sedeNombre, e.clubNombre]
  }

  /** `getReport`: on an unknown sede slug the "Sede no encontrada" error; else,
      for a `clubId` that is not a number, the failed query's internal error;
      else the echoed filters and one entry per club of the base set or of the
      listing, under distinct club ids, each holding what `EntryInvariant`
      describes, sorted by sede name and club name. */
  method GetReport(db: Database, f: ReportFilters) returns (r: Result<ReportResult>)
    ensures r.Err? <==> (TruthyString(f.sedeSlug) && SedeModel.GetSedeBySlug(db.sedes, f.sedeSlug.value).None?)
                        || f.clubId.NaN?
    ensures TruthyString(f.sedeSlug) && SedeModel.GetSedeBySlug(db.sedes, f.sedeSlug.value).None? ==>
              r == Err(NotFound(MsgSedeNotFound))
    ensures !(TruthyString(f.sedeSlug) && SedeModel.GetSedeBySlug(db.sedes, f.sedeSlug.value).None?)
            && f.clubId.NaN? ==>
              r.Err? && r.error.status == 500 && r.error.message == MsgNaNColumn
    ensures r.Ok? ==>
              var sede := ReportSede(db.sedes, f.sedeSlug).value;
              var base := BaseClubs(db.clubs, db.sedes, db.enrollments, sede, f.clubId).value;
              var listing := EnrollmentModel.ListEnrollments(db.enrollments, db.students, db.clubs, db.sedes,
                                                             ListingFilter(sede, f));
              r.value.sede == sede
              && r.value.grupo == (if TruthyString(f.grupo) then f.grupo else None)
              && r.value.clubId == f.clubId
              && SortedBy(r.value.clubs, EntryKey)
              && KeysDistinct(r.value.clubs)
              && (forall e :: e in r.value.clubs ==> EntryInvariant(base, listing, e))
              && (forall v :: v in base ==> HasEntry(r.value.clubs, v.club.id))
              && (forall j :: j in listing ==> HasEntry(r.value.clubs, j.club.id))
  {
    var sede := ReportSede(db.sedes, f.sedeSlug);
    if sede.Err? {
      return Err(sede.error);
    }
    var listing := EnrollmentModel.ListEnrollments(db.enrollments, db.students, db.clubs, db.sedes,
                                                   ListingFilter(sede.value, f));
    var baseClubs := BaseClubs(db.clubs, db.sedes, db.enrollments, sede.value, f.clubId);
    if baseClubs.Err? {
      return Err(baseClubs.error);
    }
    var base := baseClubs.value;
    var entries := FillBase(base);
    entries := AddRows(entries, listing);
    MergeInvariantHolds(base, listing);
    var sorted := SortBy(entries, EntryKey);
    PermutedEntries(entries, sorted);
    forall e | e in sorted ensures EntryInvariant(base, listing, e) {
      SortByMembers(entries, EntryKey, e);
      var t :| 0 <= t < |entries| && entries[t] == e;
    }
    r := Ok(ReportResult(sede.value, if TruthyString(f.grupo) then f.grupo else None, f.clubId, sorted));
  }
}

=== FILE: schema.dfy ===
/** The relational store: one row type per table, and a `Database` object whose
    fields are the tables that the model operations read and update in place. */
module Schema {
  import opened Values

  datatype Sede = Sede(id: int, nombre: string, slug: string)

  datatype Student = Student(id: int, sedeId: int, grupo: string, nombre: string, documento: string)

  datatype Club = Club(id: int, sedeId: int, nombre: string, descripcion: string,
                       responsable: string, capacidad: int, imagenUrl: string)

  /** `ENROLLMENT_STATE.ACTIVO` and `ENROLLMENT_STATE.CANCELADO`. */
  datatype EnrollmentState = Activo | Cancelado

  datatype Enrollment = Enrollment(id: int, estudianteId: int, clubId: int, estado: EnrollmentState)

  /** The row a join `ON x.id = ?` reaches: the first student with that id. */
  function StudentById(students: seq<Student>, id: int): (r: Option<Student>)
    ensures r.Some? ==> r.value in students && r.value.id == id
    ensures r.None? <==> forall s :: s in students ==> s.id != id
  {
    if students == [] then None
    else if students[0].id == id then Some(students[0])
    else StudentById(students[1..], id)
  }

  /** The first club with that id. */
  function ClubById(clubs: seq<Club>, id: int): (r: Option<Club>)
    ensures r.Some? ==> r.value in clubs && r.value.id == id
    ensures r.None? <==> forall c :: c in clubs ==> c.id != id
  {
    if clubs == [] then None
    else if clubs[0].id == id then Some(clubs[0])
    else ClubById(clubs[1..], id)
  }

  /** Primary keys of the enrollment table: distinct, positive, below the counter. */
  ghost predicate EnrollmentKeys(rows: seq<Enrollment>, next: int) {
    1 <= next
    && (forall i, j :: 0 <= i < j < |rows| ==> rows[i].id != rows[j].id)
    && (forall e :: e in rows ==> 1 <= e.id < next)
  }

  ghost predicate ClubIdsDistinct(rows: seq<Club>) {
    forall i, j :: 0 <= i < j < |rows| ==> rows[i].id != rows[j].id
  }

  ghost predicate ClubKeys(rows: seq<Club>, next: int) {
    1 <= next && ClubIdsDistinct(rows) && (forall c :: c in rows ==> 1 <= c.id < next)
  }

  ghost predicate StudentIdsDistinct(rows: seq<Student>) {
    forall i, j :: 0 <= i < j < |rows| ==> rows[i].id != rows[j].id
  }

  ghost predicate DocumentsDistinct(rows: seq<Student>) {
    forall i, j :: 0 <= i < j < |rows| ==> rows[i].documento != rows[j].documento
  }

  /** A table whose rows differ pairwise holds each row at most once. */
  lemma {:induction false} RowsOnce<T>(rows: seq<T>, x: T)
    requires forall i, j :: 0 <= i < j < |rows| ==> rows[i] != rows[j]
    ensures multiset(rows)[x] <= 1
  {
    if rows != [] {
      var init := rows[..|rows| - 1];
      assert rows == init + [rows[|rows| - 1]];
      RowsOnce(init, x);
      if x == rows[|rows| - 1] {
        forall k | 0 <= k < |init| ensures init[k] != x {
          assert rows[k] != rows[|rows| - 1];
        }
      }
    }
  }

  /** Student ids are keys, and `documento` carries a unique index. */
  ghost predicate StudentKeys(rows: seq<Student>, next: int) {
    1 <= next && StudentIdsDistinct(rows) && DocumentsDistinct(rows)
    && (forall s :: s in rows ==> 1 <= s.id < next)
  }

  /** With distinct ids, the lookup by id finds each row of the table. */
  lemma {:induction false} ClubByIdOfMember(rows: seq<Club>, c: Club)
    requires ClubIdsDistinct(rows) && c in rows
    ensures ClubById(rows, c.id) == Some(c)
  {
    if rows[0] != c {
      var k :| 0 <= k < |rows| && rows[k] == c;
      assert rows[1..][k - 1] == c;
      ClubByIdOfMember(rows[1..], c);
    }
  }

  lemma {:induction false} StudentByIdOfMember(rows: seq<Student>, s: Student)
    requires StudentIdsDistinct(rows) && s in rows
    ensures StudentById(rows, s.id) == Some(s)
  {
    if rows[0] != s {
      var k :| 0 <= k < |rows| && rows[k] == s;
      assert rows[1..][k - 1] == s;
      StudentByIdOfMember(rows[1..], s);
    }
  }

  /** Sede ids are positive primary keys. */
  ghost predicate SedeKeys(rows: seq<Sede>) {
    (forall i, j :: 0 <= i < j < |rows| ==> rows[i].id != rows[j].id)
    && (forall s :: s in rows ==> 1 <= s.id)
  }

  /** Under distinct ids, two sedes with the same id are the same sede. */
  lemma SedeOfId(rows: seq<Sede>, a: Sede, b: Sede)
    requires SedeKeys(rows) && a in rows && b in rows && a.id == b.id
    ensures a == b
  {
    var i :| 0 <= i < |rows| && rows[i] == a;
    var j :| 0 <= j < |rows| && rows[j] == b;
    assert !(i < j) && !(j < i);
  }

  /** The five tables of the store. Each `next…Id` field is the table's
      AUTO_INCREMENT counter: the id the next INSERT receives. */
  class Database {
    var sedes: seq<Sede>
    var students: seq<Student>
    var clubs: seq<Club>
    var enrollments: seq<Enrollment>
    var config: map<string, string>
    var nextStudentId: int
    var nextClubId: int
    var nextEnrollmentId: int

    /** What the storage engine guarantees: primary keys and the unique document. */
    ghost predicate Valid()
      reads this
    {
      SedeKeys(sedes) && StudentKeys(students, nextStudentId)
      && ClubKeys(clubs, nextClubId) && EnrollmentKeys(enrollments, nextEnrollmentId)
    }

    /** The student table and its counter after a write that keeps their keys. */
    method SetStudents(rows: seq<Student>, next: int)
      requires Valid() && StudentKeys(rows, next)
      modifies this`students, this`nextStudentId
      ensures Valid() && students == rows && nextStudentId == next
    {
      students, nextStudentId := rows, next;
    }

    /** A store holding only the given sedes and configuration. */
    constructor (sedes: seq<Sede>, config: map<string, string>)
      requires SedeKeys(sedes)
      ensures Valid()
      ensures this.sedes == sedes && this.config == config
      ensures students == [] && clubs == [] && enrollments == []
    {
      this.sedes := sedes;
      this.config := config;
      students, clubs, enrollments := [], [], [];
      nextStudentId, nextClubId, nextEnrollmentId := 1, 1, 1;
    }
  }
}

=== FILE: sede_model.dfy ===
/** Read-only queries over the `sedes` table. Being functions of the table,
    none of them can change the store. */
module SedeModel {
  import opened Values
  import opened Schema
  import opened Ordering

  function SedeNameKey(s: Sede): seq<string> {
    [s.nombre]
  }

  /** `getAllSedes`: every sede, `ORDER BY nombre ASC`. */
  function GetAllSedes(sedes: seq<Sede>): (r: seq<Sede>)
    ensures multiset(r) == multiset(sedes)
    ensures SortedBy(r, SedeNameKey)
  {
    SortBy(sedes, SedeNameKey)
  }

  /** `getSedeBySlug`: `WHERE slug = ? LIMIT 1`, the first match in table order. */
  function GetSedeBySlug(sedes: seq<Sede>, slug: string): (r: Option<Sede>)
    ensures r.Some? ==> r.value in sedes && r.value.slug == slug
    ensures r.None? <==> forall s :: s in sedes ==> s.slug != slug
  {
    if sedes == [] then None
    else if sedes[0].slug == slug then Some(sedes[0])
    else GetSedeBySlug(sedes[1..], slug)
  }

  /** `getSedeById`: `WHERE id = ? LIMIT 1`. */
  function GetSedeById(sedes: seq<Sede>, id: int): (r: Option<Sede>)
    ensures r.Some? ==> r.value in sedes && r.value.id == id
    ensures r.None? <==> forall s :: s in sedes ==> s.id != id
  {
    if sedes == [] then None
    else if sedes[0].id == id then Some(sedes[0])
    else GetSedeById(sedes[1..], id)
  }
}

=== FILE: student_model.dfy ===
/** The `estudiantes` table: the document lookup, the INSERT guarded by the
    unique document index, insert-or-existing, and the filtered listing. */
module StudentModel {
  import opened Values
  import opened Schema
  import opened Ordering
  import opened Text

  /** `WHERE documento = ? LIMIT 1`: the first student with exactly that document. */
  function StudentByDocument(students: seq<Student>, documento: string): (r: Option<Student>)
    ensures r.Some? ==> r.value in students && r.value.documento == documento
    ensures r.None? <==> forall s :: s in students ==> s.documento != documento
  {
    if students == [] then None
    else if students[0].documento == documento then Some(students[0])
    else StudentByDocument(students[1..], documento)
  }

  /** `findStudentByDocument`: the lookup after trimming and upper-casing the
      argument (an empty argument looks up the empty document). */
  function FindStudentByDocument(students: seq<Student>, documento: string): (r: Option<Student>)
    ensures r.Some? ==> r.value in students && r.value.documento == NormalizeDocument(documento)
    ensures r.None? <==> forall s :: s in students ==> s.documento != NormalizeDocument(documento)
  {
    StudentByDocument(students, NormalizeDocument(documento))
  }

  /** Surrounding whitespace and letter case of the argument do not change the
      student found. */
  lemma FindStudentByDocumentInsensitive(students: seq<Student>, w1: string, d: string, w2: string)
    requires AllWhitespace(w1) && AllWhitespace(w2)
    ensures FindStudentByDocument(students, w1 + ToLower(d) + w2) == FindStudentByDocument(students, d)
  {
    NormalizeDocumentInsensitive(w1, ToLower(d), w2);
    NormalizeDocumentInsensitive([], d, []);
  }

  /** The columns a new student row is given. */
  datatype NewStudent = NewStudent(sedeId: int, grupo: string, nombre: string, documento: string)

  /** What the INSERT reports: the new id, or `ER_DUP_ENTRY`. */
  datatype InsertOutcome = Inserted(insertId: int) | DuplicateEntry

  /** `createStudent`: INSERT with the document trimmed and upper-cased; the
      unique index on `documento` turns a second row with the same document
      into `DuplicateEntry`, and then nothing is written. */
  method CreateStudent(db: Database, s: NewStudent) returns (outcome: InsertOutcome)
    requires db.Valid()
    modifies db`students, db`nextStudentId
    ensures db.Valid()
    ensures outcome.DuplicateEntry? <==> StudentByDocument(old(db.students), NormalizeDocument(s.documento)).Some?
    ensures outcome.DuplicateEntry? ==> db.students == old(db.students) && db.nextStudentId == old(db.nextStudentId)
    ensures outcome.Inserted? ==>
              outcome.insertId == old(db.nextStudentId) && db.nextStudentId == old(db.nextStudentId) + 1
              && db.students == old(db.students)
                                + [Student(outcome.insertId, s.sedeId, s.grupo, s.nombre, NormalizeDocument(s.documento))]
  {
    var doc := NormalizeDocument(s.documento);
    if StudentByDocument(db.students, doc).Some? {
      return DuplicateEntry;
    }
    var id := db.nextStudentId;
    var row := Student(id, s.sedeId, s.grupo, s.nombre, doc);
    var rows := db.students + [row];
    StudentKeysAppend(db.students, id, row);
    db.SetStudents(rows, id + 1);
    outcome := Inserted(id);
  }

  /** A row under the counter's id and with an unused document keeps the keys. */
  lemma StudentKeysAppend(rows: seq<Student>, next: int, s: Student)
    requires StudentKeys(rows, next) && s.id == next
    requires StudentByDocument(rows, s.documento).None?
    ensures StudentKeys(rows + [s], next + 1)
  {
    var r := rows + [s];
    forall i, j | 0 <= i < j < |r| ensures r[i].id != r[j].id && r[i].documento != r[j].documento {
      if j == |rows| {
        assert r[i] in rows;
      } else {
        assert r[i] == rows[i] && r[j] == rows[j];
      }
    }
  }

  /** `ensureStudent`: inserts a new student (`created`), or on a duplicate
      document inserts nothing and reports the existing student's id. Either way
      exactly one student then carries the normalized document, under `insertId`. */
  method EnsureStudent(db: Database, s: NewStudent) returns (insertId: int, created: bool)
    requires db.Valid()
    modifies db`students, db`nextStudentId
    ensures db.Valid()
    ensures created <==> StudentByDocument(old(db.students), NormalizeDocument(s.documento)).None?
    ensures !created ==> db.students == old(db.students) && db.nextStudentId == old(db.nextStudentId)
                         && insertId == StudentByDocument(old(db.students), NormalizeDocument(s.documento)).value.id
    ensures created ==> insertId == old(db.nextStudentId) && db.nextStudentId == old(db.nextStudentId) + 1
                        && db.students == old(db.students)
                                          + [Student(insertId, s.sedeId, s.grupo, s.nombre, NormalizeDocument(s.documento))]
    ensures FindStudentByDocument(db.students, s.documento).Some?
            && FindStudentByDocument(db.students, s.documento).value.id == insertId
  {
    var outcome := CreateStudent(db, s);
    var doc := NormalizeDocument(s.documento);
    if outcome.Inserted? {
      insertId, created := outcome.insertId, true;
      StudentByDocumentAppendFresh(old(db.students), Student(insertId, s.sedeId, s.grupo, s.nombre, doc));
    } else {
      NormalizeDocumentIdempotent(s.documento);
      var existing := FindStudentByDocument(db.students, s.documento);
      insertId, created := existing.value.id, false;
    }
  }

  lemma {:induction false} StudentByDocumentAppendFresh(rows: seq<Student>, s: Student)
    requires StudentByDocument(rows, s.documento).None?
    ensures StudentByDocument(rows + [s], s.documento) == Some(s)
  {
    if rows == [] {
      assert rows + [s] == [s];
    } else {
      assert (rows + [s])[1..] == rows[1..] + [s];
      StudentByDocumentAppendFresh(rows[1..], s);
    }
  }

  /** With the unique document index, the lookup by document finds each student. */
  lemma {:induction false} StudentByDocumentOfMember(rows: seq<Student>, s: Student)
    requires DocumentsDistinct(rows) && s in rows
    ensures StudentByDocument(rows, s.documento) == Some(s)
  {
    if rows[0] != s {
      var k :| 0 <= k < |rows| && rows[k] == s;
      assert rows[1..][k - 1] == s;
      StudentByDocumentOfMember(rows[1..], s);
    }
  }

  /** `p` occurs in `s` as a contiguous piece: `LIKE '%p%'`. */
  predicate Contains(s: string, p: string)
    decreases |s|
  {
    (|p| <= |s| && s[..|p|] == p) || (s != [] && Contains(s[1..], p))
  }

  /** The optional filters of `getStudents`; each applies only when truthy. */
  datatype StudentFilter = StudentFilter(sedeId: Option<int>, grupo: Option<string>, search: Option<string>)

  predicate MatchesStudentFilter(s: Student, f: StudentFilter) {
    (TruthyNumber(f.sedeId) ==> s.sedeId == f.sedeId.value)
    && (TruthyString(f.grupo) ==> s.grupo == f.grupo.value)
    && (TruthyString(f.search) ==> Contains(s.nombre, f.search.value) || Contains(s.documento, f.search.value))
  }

  function FilterStudents(students: seq<Student>, f: StudentFilter): (r: seq<Student>)
    ensures forall s :: s in r <==> s in students && MatchesStudentFilter(s, f)
    ensures forall s :: multiset(r)[s] == if MatchesStudentFilter(s, f) then multiset(students)[s] else 0
  {
    if students == [] then []
    else
      assert students == [students[0]] + students[1..];
      if MatchesStudentFilter(students[0], f) then [students[0]] + FilterStudents(students[1..], f)
      else FilterStudents(students[1..], f)
  }

  function StudentNameKey(s: Student): seq<string> {
    [s.nombre]
  }

  /** `getStudents`: exactly the students passing every supplied filter, each
      as often as in the table, `ORDER BY nombre`. */
  function GetStudents(students: seq<Student>, f: StudentFilter): (r: seq<Student>)
    ensures forall s :: s in r <==> s in students && MatchesStudentFilter(s, f)
    ensures forall s :: multiset(r)[s] == if MatchesStudentFilter(s, f) then multiset(students)[s] else 0
    ensures SortedBy(r, StudentNameKey)
  {
    var filtered := FilterStudents(students, f);
    var r := SortBy(filtered, StudentNameKey);
    forall s ensures s in r <==> s in filtered {
      SortByMembers(filtered, StudentNameKey, s);
    }
    r
  }

  /** With no filter supplied, the listing holds every student. */
  lemma GetStudentsUnfiltered(students: seq<Student>)
    ensures multiset(GetStudents(students, StudentFilter(None, None, None))) == multiset(students)
  {
    var f := StudentFilter(None, None, None);
    FilterStudentsAll(students, f);
  }

  /** Under the primary key, the listing holds each student at most once. */
  lemma GetStudentsOnce(students: seq<Student>, f: StudentFilter)
    requires StudentIdsDistinct(students)
    ensures forall s :: multiset(GetStudents(students, f))[s] <= 1
  {
    forall s ensures multiset(students)[s] <= 1 {
      RowsOnce(students, s);
    }
  }

  lemma {:induction false} FilterStudentsAll(students: seq<Student>, f: StudentFilter)
    requires forall s :: s in students ==> MatchesStudentFilter(s, f)
    ensures FilterStudents(students, f) == students
  {
    if students != [] {
      FilterStudentsAll(students[1..], f);
    }
  }
}

=== FILE: student_service.dfy ===
/** The student service: the bulk import of a CSV roster, which sorts every
    record into added, duplicate or error, and the two eligibility checks
    that look a student up by document. */
module StudentService {
  import opened Values
  import opened Errors
  import opened Schema
  import opened Text
  import SedeModel
  import EnrollmentModel
  import opened StudentModel
  import opened Invariants

  const MsgFileNotFound: string := "Archivo no encontrado para importar"
  const MsgStudentNotEligible: string := "Estudiante no habilitado"
  const MsgSedeMismatch: string := "La sede del estudiante no coincide con el club"
  const MsgSedeMismatchSelected: string := "La sede del estudiante no coincide con el club seleccionado"
  const MsgAlreadyEnrolled: string := "El estudiante ya está inscrito en un club"

  /** One parsed CSV line with the columns `sede, grupo, nombre, documento`; a
      missing column is `None`. */
  datatype CsvRecord = CsvRecord(sede: Option<string>, grupo: Option<string>, nombre: Option<string>,
                                 documento: Option<string>)

  /** The messages of `errores`, by kind; `linea` is the 1-based record number. */
  datatype ImportError =
    | EmptyFile
    | MissingFields(linea: int)
    | InvalidSede(linea: int, sede: string)
    | InvalidDocument(linea: int, documento: string)

  datatype DuplicateReason = DuplicateInFile | AlreadyRegistered

  datatype Added = Added(documento: string, nombre: string, sede: string)

  datatype Duplicate = Duplicate(documento: string, motivo: DuplicateReason)

  datatype ImportResult = ImportResult(agregados: seq<Added>, duplicados: seq<Duplicate>, errores: seq<ImportError>)

  /** `x?.trim()`. */
  function TrimField(x: Option<string>): (r: Option<string>)
    ensures r.Some? <==> x.Some?
    ensures r.Some? ==> r.value == Trim(x.value)
  {
    if x.Some? then Some(Trim(x.value)) else None
  }

  /** `/^[0-9A-Za-z-]+$/`. */
  predicate IsDocumentChar(c: char) {
    '0' <= c <= '9' || 'A' <= c <= 'Z' || 'a' <= c <= 'z' || c == '-'
  }

  predicate DocumentPattern(d: string) {
    d != [] && forall k :: 0 <= k < |d| ==> IsDocumentChar(d[k])
  }

  /** `sedeMap[key]`: the map holds each sede under its slug and under its
      normalized name, written in `getAllSedes` order, so a key maps to the last
      sede that wrote it. */
  function SedeMapLookup(sedes: seq<Sede>, key: string): (r: Option<Sede>)
    ensures r.Some? ==> r.value in sedes && (r.value.slug == key || NormalizeSlug(r.value.nombre) == key)
    ensures r.None? <==> forall s :: s in sedes ==> s.slug != key && NormalizeSlug(s.nombre) != key
  {
    if sedes == [] then None
    else
      var last := sedes[|sedes| - 1];
      assert sedes == sedes[..|sedes| - 1] + [last];
      if last.slug == key || NormalizeSlug(last.nombre) == key then Some(last)
      else SedeMapLookup(sedes[..|sedes| - 1], key)
  }

  /** A sede value written exactly as a sede's slug finds a sede. */
  lemma SlugFindsSede(sedes: seq<Sede>, s: Sede)
    requires s in sedes && IsSlug(s.slug)
    ensures SedeMapLookup(sedes, NormalizeSlug(s.slug)).Some?
  {
    SlugIsFixed(s.slug);
    NormalizeSlugOfWord(s.slug);
  }

  /** What the checks before the insert make of a record. */
  datatype RecordCheck =
    | Rejected(error: ImportError)
    | SeenBefore(documento: string)
    | Accepted(sede: Sede, grupo: string, nombre: string, documento: string)

  /** The document as the importer keeps it: trimmed and upper-cased, or empty. */
  function RecordDocument(raw: CsvRecord): (r: string)
    ensures TruthyString(TrimField(raw.documento)) ==> r == ToUpper(Trim(raw.documento.value))
    ensures r == [] <==> !TruthyString(TrimField(raw.documento))
  {
    var d := TrimField(raw.documento);
    if TruthyString(d) then ToUpper(d.value) else ""
  }

  predicate FieldsPresent(raw: CsvRecord) {
    TruthyString(TrimField(raw.sede)) && TruthyString(TrimField(raw.grupo))
    && TruthyString(TrimField(raw.nombre)) && RecordDocument(raw) != []
  }

  /** The trimmed sede column, or the empty text when it is missing. */
  function SedeValue(raw: CsvRecord): string {
    if raw.sede.Some? then Trim(raw.sede.value) else ""
  }

  /** What the checks read from a record before the seen-set: nothing when a
      field is blank, otherwise the trimmed fields, the sede the sede value
      names, and whether the document has the allowed form. */
  datatype Prepared =
    | Blank
    | Candidate(sedeValor: string, sede: Option<Sede>, grupo: string, nombre: string, documento: string,
                wellFormed: bool)

  function Prepare(sedes: seq<Sede>, raw: CsvRecord): Prepared {
    var sedeValor := TrimField(raw.sede);
    var grupo := TrimField(raw.grupo);
    var nombre := TrimField(raw.nombre);
    var documento := RecordDocument(raw);
    if !TruthyString(sedeValor) || !TruthyString(grupo) || !TruthyString(nombre) || documento == [] then Blank
    else Candidate(sedeValor.value, SedeMapLookup(sedes, NormalizeSlug(sedeValor.value)), grupo.value, nombre.value,
                   documento, DocumentPattern(documento))
  }

  /** The checks in their order once the record is read. */
  function Classify(vistos: set<string>, p: Prepared, linea: int): RecordCheck {
    if p.Blank? then Rejected(MissingFields(linea))
    else if p.documento in vistos then SeenBefore(p.documento)
    else if p.sede.None? then Rejected(InvalidSede(linea, p.sedeValor))
    else if !p.wellFormed then Rejected(InvalidDocument(linea, p.documento))
    else Accepted(p.sede.value, p.grupo, p.nombre, p.documento)
  }

  /** The checks of one record, in order: a blank field, a document already
      seen in this file, an unknown sede, a document outside `[0-9A-Za-z-]+`;
      `CheckRecordOrder` states what each outcome means. */
  function CheckRecord(sedes: seq<Sede>, vistos: set<string>, raw: CsvRecord, linea: int): RecordCheck {
    Classify(vistos, Prepare(sedes, raw), linea)
  }

  /** Each outcome of the checks, and the order in which they apply. */
  lemma CheckRecordOrder(sedes: seq<Sede>, vistos: set<string>, raw: CsvRecord, linea: int)
    ensures var r := CheckRecord(sedes, vistos, raw, linea);
            var found := SedeMapLookup(sedes, NormalizeSlug(SedeValue(raw)));
            (!FieldsPresent(raw) <==> r == Rejected(MissingFields(linea)))
            && (r.SeenBefore? <==> FieldsPresent(raw) && RecordDocument(raw) in vistos)
            && (r.SeenBefore? ==> r.documento == RecordDocument(raw))
            && ((FieldsPresent(raw) && RecordDocument(raw) !in vistos && found.None?)
                <==> r == Rejected(InvalidSede(linea, SedeValue(raw))))
            && ((FieldsPresent(raw) && RecordDocument(raw) !in vistos && found.Some?
                 && !DocumentPattern(RecordDocument(raw)))
                <==> r == Rejected(InvalidDocument(linea, RecordDocument(raw))))
            && (r.Accepted? ==> FieldsPresent(raw) && r.documento !in vistos && DocumentPattern(r.documento)
                                && r.documento == RecordDocument(raw) && Some(r.sede) == found
                                && r.grupo == Trim(raw.grupo.value) && r.nombre == Trim(raw.nombre.value))
  {
  }

  /** An accepted document is its own normal form: `ensureStudent` looks it up
      and stores it unchanged. */
  lemma AcceptedIsNormal(sedes: seq<Sede>, vistos: set<string>, raw: CsvRecord, linea: int)
    requires CheckRecord(sedes, vistos, raw, linea).Accepted?
    ensures NormalizeDocument(CheckRecord(sedes, vistos, raw, linea).documento)
            == CheckRecord(sedes, vistos, raw, linea).documento
  {
    NormalizeDocumentIdempotent(raw.documento.value);
  }

  /** Where one record ends up. */
  datatype Outcome = ToAdded(added: Added) | ToDuplicate(duplicate: Duplicate) | ToError(error: ImportError)

  /** The importer's state after some records: the outcome of each, the student
      table and its counter, and the documents seen. */
  datatype Run = Run(outcomes: seq<Outcome>, students: seq<Student>, next: int, vistos: set<string>)

  /** One record: the checks, then for an accepted record `ensureStudent`. The
      accepted document is already trimmed and upper-cased, so the insert stores
      it as it is (`AcceptedIsNormal`). */
  function Step(s: Run, p: Prepared, linea: int): (r: Run)
    ensures |r.outcomes| == |s.outcomes| + 1 && r.outcomes[..|s.outcomes|] == s.outcomes
    ensures s.vistos <= r.vistos
  {
    match Classify(s.vistos, p, linea)
    case Rejected(e) => s.(outcomes := s.outcomes + [ToError(e)])
    case SeenBefore(d) => s.(outcomes := s.outcomes + [ToDuplicate(Duplicate(d, DuplicateInFile))])
    case Accepted(sede, grupo, nombre, d) =>
      var vistos := s.vistos + {d};
      if StudentByDocument(s.students, d).Some? then
        Run(s.outcomes + [ToDuplicate(Duplicate(d, AlreadyRegistered))], s.students, s.next, vistos)
      else
        Run(s.outcomes + [ToAdded(Added(d, nombre, sede.slug))],
            s.students + [Student(s.next, sede.id, grupo, nombre, d)], s.next + 1, vistos)
  }

  /** What one step did: its outcome follows the checks, only an added record
      grows the table, and an added document was not seen before. */
  lemma StepFacts(s: Run, p: Prepared, linea: int)
    ensures var r := Step(s, p, linea);
            var c := Classify(s.vistos, p, linea);
            var o := r.outcomes[|s.outcomes|];
            (o.ToError? <==> c.Rejected?) && (o.ToError? ==> o.error == c.error)
            && (o.ToAdded? ==> c.Accepted? && o.added.documento == c.documento && c.documento !in s.vistos
                               && c.documento in r.vistos
                               && r.students == s.students + [Student(s.next, c.sede.id, c.grupo, c.nombre,
                                                                      c.documento)]
                               && r.next == s.next + 1)
            && (!o.ToAdded? ==> r.students == s.students && r.next == s.next)
  {
  }

  /** The prepared records in turn, from the given student table; record `i`
      is line `i + 1`. */
  function RunAll(students: seq<Student>, next: int, ps: seq<Prepared>): (r: Run)
    ensures |r.outcomes| == |ps|
  {
    if ps == [] then Run([], students, next, {})
    else Step(RunAll(students, next, ps[..|ps| - 1]), ps[|ps| - 1], |ps|)
  }

  function PrepareAll(sedes: seq<Sede>, records: seq<CsvRecord>): (r: seq<Prepared>)
    ensures |r| == |records| && forall i :: 0 <= i < |records| ==> r[i] == Prepare(sedes, records[i])
  {
    seq(|records|, i requires 0 <= i < |records| => Prepare(sedes, records[i]))
  }

  function AddedOf(os: seq<Outcome>): (r: seq<Added>)
    ensures |r| <= |os|
  {
    if os == [] then []
    else AddedOf(os[..|os| - 1]) + (if os[|os| - 1].ToAdded? then [os[|os| - 1].added] else [])
  }

  function DuplicatesOf(os: seq<Outcome>): (r: seq<Duplicate>)
    ensures |r| <= |os|
  {
    if os == [] then []
    else DuplicatesOf(os[..|os| - 1]) + (if os[|os| - 1].ToDuplicate? then [os[|os| - 1].duplicate] else [])
  }

  function ErrorsOf(os: seq<Outcome>): (r: seq<ImportError>)
    ensures |r| <= |os|
  {
    if os == [] then []
    else ErrorsOf(os[..|os| - 1]) + (if os[|os| - 1].ToError? then [os[|os| - 1].error] else [])
  }

  /** The three lists, each in record order. */
  function Partition(os: seq<Outcome>): ImportResult {
    ImportResult(AddedOf(os), DuplicatesOf(os), ErrorsOf(os))
  }

  /** Every outcome is in exactly one list: the three lengths add up. */
  lemma {:induction false} PartitionCounts(os: seq<Outcome>)
    ensures |AddedOf(os)| + |DuplicatesOf(os)| + |ErrorsOf(os)| == |os|
  {
    if os != [] {
      PartitionCounts(os[..|os| - 1]);
    }
  }

  /** One step as the three lists see it: a rejected record adds its error, a
      record seen before or already registered adds a duplicate, and a new
      document adds the record and one student. */
  lemma {:induction false} StepPartition(before: Run, p: Prepared, linea: int)
    ensures var after := Step(before, p, linea);
            var c := Classify(before.vistos, p, linea);
            var os, os' := before.outcomes, after.outcomes;
            && (c.Rejected? ==>
                  AddedOf(os') == AddedOf(os) && DuplicatesOf(os') == DuplicatesOf(os)
                  && ErrorsOf(os') == ErrorsOf(os) + [c.error]
                  && after.vistos == before.vistos && after.students == before.students && after.next == before.next)
            && (c.SeenBefore? ==>
                  AddedOf(os') == AddedOf(os) && DuplicatesOf(os') == DuplicatesOf(os) + [Duplicate(c.documento, DuplicateInFile)]
                  && ErrorsOf(os') == ErrorsOf(os)
                  && after.vistos == before.vistos && after.students == before.students && after.next == before.next)
            && (c.Accepted? ==> after.vistos == before.vistos + {c.documento})
            && (c.Accepted? && StudentByDocument(before.students, c.documento).Some? ==>
                  AddedOf(os') == AddedOf(os)
                  && DuplicatesOf(os') == DuplicatesOf(os) + [Duplicate(c.documento, AlreadyRegistered)]
                  && ErrorsOf(os') == ErrorsOf(os) && after.students == before.students && after.next == before.next)
            && (c.Accepted? && StudentByDocument(before.students, c.documento).None? ==>
                  AddedOf(os') == AddedOf(os) + [Added(c.documento, c.nombre, c.sede.slug)]
                  && DuplicatesOf(os') == DuplicatesOf(os) && ErrorsOf(os') == ErrorsOf(os)
                  && after.students == before.students + [Student(before.next, c.sede.id, c.grupo, c.nombre,
                                                                  c.documento)]
                  && after.next == before.next + 1)
  {
    var after := Step(before, p, linea);
    assert after.outcomes[..|before.outcomes|] == before.outcomes;
  }

  /** `importStudentsCsv` on already-parsed records: a missing file is an error;
      no records give exactly the "empty file" error; otherwise every record is
      classified in order, accepted new documents are inserted, and the lists
      are those of `RunAll`. */
  method ImportStudentsCsv(db: Database, fileExists: bool, records: seq<CsvRecord>) returns (r: Result<ImportResult>)
    requires db.Valid()
    modifies db`students, db`nextStudentId
    ensures db.Valid()
    ensures !fileExists ==> r == Err(BadRequest(MsgFileNotFound))
    ensures fileExists && records == [] ==> r == Ok(ImportResult([], [], [EmptyFile]))
    ensures !fileExists || records == [] ==> db.students == old(db.students)
    ensures fileExists && records != [] ==>
              var run := RunAll(old(db.students), old(db.nextStudentId), PrepareAll(SedeModel.GetAllSedes(db.sedes), records));
              r == Ok(Partition(run.outcomes)) && db.students == run.students && db.nextStudentId == run.next
  {
    if !fileExists {
      return Err(BadRequest(MsgFileNotFound));
    }
    if records == [] {
      return Ok(ImportResult([], [], [EmptyFile]));
    }
    var sedes := SedeModel.GetAllSedes(db.sedes);
    var result := ImportAll(db, sedes, records);
    r := Ok(result);
  }

  /** The records in turn, each through `ImportRecord`: the lists and the
      student table are those `RunAll` gives. */
  method ImportAll(db: Database, sedes: seq<Sede>, records: seq<CsvRecord>) returns (result: ImportResult)
    requires db.Valid()
    modifies db`students, db`nextStudentId
    ensures db.Valid()
    ensures var run := RunAll(old(db.students), old(db.nextStudentId), PrepareAll(sedes, records));
            result == Partition(run.outcomes) && db.students == run.students && db.nextStudentId == run.next
  {
    ghost var ps := PrepareAll(sedes, records);
    ghost var students0, next0 := db.students, db.nextStudentId;
    ghost var run := Run([], students0, next0, {});
    var agregados: seq<Added> := [];
    var duplicados: seq<Duplicate> := [];
    var errores: seq<ImportError> := [];
    var vistos: set<string> := {};
    var index := 0;
    while index < |records|
      invariant 0 <= index <= |records|
      invariant db.Valid()
      invariant run == RunAll(students0, next0, ps[..index])
      invariant agregados == AddedOf(run.outcomes) && duplicados == DuplicatesOf(run.outcomes)
                && errores == ErrorsOf(run.outcomes) && vistos == run.vistos
                && db.students == run.students && db.nextStudentId == run.next
    {
      agregados, duplicados, errores, vistos :=
        ImportRecord(db, sedes, records[index], index + 1, run, agregados, duplicados, errores, vistos);
      assert ps[..index + 1][..index] == ps[..index];
      run := Step(run, ps[index], index + 1);
      index := index + 1;
    }
    assert ps[..index] == ps;
    result := ImportResult(agregados, duplicados, errores);
  }

  /** One record of the import: the checks, then `ensureStudent` for an
      accepted record. The three lists, the seen documents and the student table
      go from the state `before` describes to the one `Step` gives. */
  method ImportRecord(db: Database, sedes: seq<Sede>, raw: CsvRecord, linea: int, ghost before: Run,
                      agregados: seq<Added>, duplicados: seq<Duplicate>, errores: seq<ImportError>,
                      vistos: set<string>)
    returns (agregados': seq<Added>, duplicados': seq<Duplicate>, errores': seq<ImportError>, vistos': set<string>)
    requires db.Valid()
    requires agregados == AddedOf(before.outcomes) && duplicados == DuplicatesOf(before.outcomes)
             && errores == ErrorsOf(before.outcomes) && vistos == before.vistos
             && db.students == before.students && db.nextStudentId == before.next
    modifies db`students, db`nextStudentId
    ensures db.Valid()
    ensures var after := Step(before, Prepare(sedes, raw), linea);
            agregados' == AddedOf(after.outcomes) && duplicados' == DuplicatesOf(after.outcomes)
            && errores' == ErrorsOf(after.outcomes) && vistos' == after.vistos
            && db.students == after.students && db.nextStudentId == after.next
  {
    agregados', duplicados', errores', vistos' := agregados, duplicados, errores, vistos;
    var check := CheckRecord(sedes, vistos, raw, linea);
    StepPartition(before, Prepare(sedes, raw), linea);
    match check {
      case Rejected(e) =>
        errores' := errores + [e];
      case SeenBefore(d) =>
        duplicados' := duplicados + [Duplicate(d, DuplicateInFile)];
      case Accepted(sede, grupo, nombre, d) =>
        AcceptedIsNormal(sedes, vistos, raw, linea);
        assert NormalizeDocument(d) == d;
        vistos' := vistos + {d};
        var insertId, created := EnsureStudent(db, NewStudent(sede.id, grupo, nombre, d));
        if created {
          agregados' := agregados + [Added(d, nombre, sede.slug)];
        } else {
          duplicados' := duplicados + [Duplicate(d, AlreadyRegistered)];
        }
    }
  }

  /** The outcome of record `i` is decided by the state the earlier records left. */
  lemma {:induction false} RunAllAt(students: seq<Student>, next: int, ps: seq<Prepared>, i: nat)
    requires i < |ps|
    ensures RunAll(students, next, ps).outcomes[i] == Step(RunAll(students, next, ps[..i]), ps[i], i + 1).outcomes[i]
  {
    var n := |ps|;
    var init := ps[..n - 1];
    if i == n - 1 {
      assert init == ps[..i];
    } else {
      RunAllAt(students, next, init, i);
      assert init[..i] == ps[..i];
    }
  }

  /** Record `i` goes to `errores` exactly when a check rejects it, and with
      that check's error. */
  lemma RecordRejected(sedes: seq<Sede>, students: seq<Student>, next: int, records: seq<CsvRecord>, i: nat)
    requires i < |records|
    ensures var ps := PrepareAll(sedes, records);
            var c := CheckRecord(sedes, RunAll(students, next, ps[..i]).vistos, records[i], i + 1);
            var o := RunAll(students, next, ps).outcomes[i];
            (o.ToError? <==> c.Rejected?) && (o.ToError? ==> o.error == c.error)
  {
    var ps := PrepareAll(sedes, records);
    var before := RunAll(students, next, ps[..i]);
    RunAllAt(students, next, ps, i);
    StepFacts(before, ps[i], i + 1);
    assert CheckRecord(sedes, before.vistos, records[i], i + 1) == Classify(before.vistos, ps[i], i + 1);
  }

  /** A record with a blank field is an error naming its line. */
  lemma BlankFieldIsError(sedes: seq<Sede>, students: seq<Student>, next: int, records: seq<CsvRecord>, i: nat)
    requires i < |records| && !FieldsPresent(records[i])
    ensures RunAll(students, next, PrepareAll(sedes, records)).outcomes[i] == ToError(MissingFields(i + 1))
  {
    var ps := PrepareAll(sedes, records);
    RunAllAt(students, next, ps, i);
    CheckRecordOrder(sedes, RunAll(students, next, ps[..i]).vistos, records[i], i + 1);
  }

  /** Every document added is in the seen set, and no two added records share
      a document. */
  ghost predicate AddedDistinct(r: Run) {
    (forall k :: 0 <= k < |r.outcomes| && r.outcomes[k].ToAdded? ==> r.outcomes[k].added.documento in r.vistos)
    && (forall k, l :: 0 <= k < l < |r.outcomes| && r.outcomes[k].ToAdded? && r.outcomes[l].ToAdded?
                       ==> r.outcomes[k].added.documento != r.outcomes[l].added.documento)
  }

  /** No document is added twice in one import. */
  lemma {:induction false} RunAllAddsDistinct(students: seq<Student>, next: int, ps: seq<Prepared>)
    ensures AddedDistinct(RunAll(students, next, ps))
  {
    if ps != [] {
      var n := |ps|;
      RunAllAddsDistinct(students, next, ps[..n - 1]);
      DistinctStep(RunAll(students, next, ps[..n - 1]), ps[n - 1], n);
    }
  }

  lemma DistinctStep(before: Run, p: Prepared, n: int)
    requires AddedDistinct(before)
    ensures AddedDistinct(Step(before, p, n))
  {
    var after := Step(before, p, n);
    var m := |before.outcomes|;
    StepFacts(before, p, n);
    assert after.outcomes[..m] == before.outcomes;
    forall k | 0 <= k < m + 1 && after.outcomes[k].ToAdded? ensures after.outcomes[k].added.documento in after.vistos {
      if k < m {
        assert after.outcomes[k] == before.outcomes[k];
      }
    }
    forall k, l | 0 <= k < l < m + 1 && after.outcomes[k].ToAdded? && after.outcomes[l].ToAdded?
      ensures after.outcomes[k].added.documento != after.outcomes[l].added.documento
    {
      assert after.outcomes[k] == before.outcomes[k];
      if l < m {
        assert after.outcomes[l] == before.outcomes[l];
      }
    }
  }

  /** `now` holds a student that `start` did not, with the document. */
  ghost predicate NewlyStored(start: seq<Student>, now: seq<Student>, documento: string) {
    exists s :: s in now && s !in start && s.documento == documento
  }

  lemma NewlyStoredGrows(start: seq<Student>, now: seq<Student>, later: seq<Student>, documento: string)
    requires NewlyStored(start, now, documento) && forall s :: s in now ==> s in later
    ensures NewlyStored(start, later, documento)
  {
    var s :| s in now && s !in start && s.documento == documento;
    assert s in later;
  }

  /** Every record added is a new student of the table, with the document as the
      importer keeps it. */
  lemma {:induction false} AddedAreStored(students: seq<Student>, next: int, ps: seq<Prepared>)
    requires StudentKeys(students, next)
    ensures var run := RunAll(students, next, ps);
            forall k :: 0 <= k < |run.outcomes| && run.outcomes[k].ToAdded? ==>
              NewlyStored(students, run.students, run.outcomes[k].added.documento)
  {
    if ps != [] {
      var n := |ps|;
      AddedAreStored(students, next, ps[..n - 1]);
      StudentsBelowNext(students, next, ps[..n - 1]);
      StoredStep(students, next, RunAll(students, next, ps[..n - 1]), ps[n - 1], n);
    }
  }

  lemma StoredStep(students: seq<Student>, next: int, before: Run, p: Prepared, n: int)
    requires StudentKeys(students, next) && next <= before.next
    requires forall k :: 0 <= k < |before.outcomes| && before.outcomes[k].ToAdded? ==>
               NewlyStored(students, before.students, before.outcomes[k].added.documento)
    ensures var after := Step(before, p, n);
            forall k :: 0 <= k < |after.outcomes| && after.outcomes[k].ToAdded? ==>
              NewlyStored(students, after.students, after.outcomes[k].added.documento)
  {
    var after := Step(before, p, n);
    var m := |before.outcomes|;
    StepFacts(before, p, n);
    assert after.outcomes[..m] == before.outcomes;
    assert forall s :: s in before.students ==> s in after.students;
    forall k | 0 <= k < m + 1 && after.outcomes[k].ToAdded?
      ensures NewlyStored(students, after.students, after.outcomes[k].added.documento)
    {
      if k < m {
        assert after.outcomes[k] == before.outcomes[k];
        NewlyStoredGrows(students, before.students, after.students, before.outcomes[k].added.documento);
      } else {
        var s := after.students[|after.students| - 1];
        assert s.id == before.next >= next;
        assert s !in students;
        assert s in after.students;
      }
    }
  }

  /** The run only appends to the table and only raises the counter. */
  lemma {:induction false} StudentsBelowNext(students: seq<Student>, next: int, ps: seq<Prepared>)
    ensures var run := RunAll(students, next, ps);
            next <= run.next && |students| <= |run.students| && run.students[..|students|] == students
  {
    if ps != [] {
      StudentsBelowNext(students, next, ps[..|ps| - 1]);
    }
  }

  /** `getEligibleStudent`: the student carrying the document (trimmed and
      upper-cased; a missing document is the empty text), NotFound when there is
      none, and Conflict when a sede is given (truthy) and the student's differs. */
  function GetEligibleStudent(students: seq<Student>, documento: string, sedeId: Option<int>): (r: Result<Student>)
    ensures var found := FindStudentByDocument(students, documento);
            && (r.Ok? <==> found.Some? && (TruthyNumber(sedeId) ==> found.value.sedeId == sedeId.value))
            && (r.Ok? ==> r.value == found.value)
            && (found.None? ==> r == Err(NotFound(MsgStudentNotEligible)))
            && (found.Some? && TruthyNumber(sedeId) && found.value.sedeId != sedeId.value
                ==> r == Err(Conflict(MsgSedeMismatch)))
  {
    NormalizeDocumentIdempotent(documento);
    var student := FindStudentByDocument(students, NormalizeDocument(documento));
    if student.None? then Err(NotFound(MsgStudentNotEligible))
    else if TruthyNumber(sedeId) && student.value.sedeId != sedeId.value then Err(Conflict(MsgSedeMismatch))
    else Ok(student.value)
  }

  /** `ensureStudentAvailableForClub`: the student carrying the document, in the
      club's sede and without an ACTIVO enrollment; otherwise the first of
      NotFound, sede Conflict and already-enrolled Conflict that applies. */
  function EnsureStudentAvailableForClub(students: seq<Student>, rows: seq<Enrollment>, documento: string, club: Club)
    : (r: Result<Student>)
    ensures var found := FindStudentByDocument(students, documento);
            && (r.Ok? <==> found.Some? && found.value.sedeId == club.sedeId
                           && EnrollmentModel.CountActive(rows, EnrollmentModel.StudentColumn, found.value.id) == 0)
            && (r.Ok? ==> r.value == found.value)
            && (found.None? ==> r == Err(NotFound(MsgStudentNotEligible)))
            && (found.Some? && found.value.sedeId != club.sedeId ==> r == Err(Conflict(MsgSedeMismatchSelected)))
            && (found.Some? && found.value.sedeId == club.sedeId
                && EnrollmentModel.CountActive(rows, EnrollmentModel.StudentColumn, found.value.id) > 0
                ==> r == Err(Conflict(MsgAlreadyEnrolled)))
  {
    NormalizeDocumentIdempotent(documento);
    var student := FindStudentByDocument(students, NormalizeDocument(documento));
    if student.None? then Err(NotFound(MsgStudentNotEligible))
    else if student.value.sedeId != club.sedeId then Err(Conflict(MsgSedeMismatchSelected))
    else if EnrollmentModel.GetActiveEnrollmentByStudentId(rows, student.value.id).Some? then Err(Conflict(MsgAlreadyEnrolled))
    else Ok(student.value)
  }

  /** A student available for a club is also eligible for the club's sede. */
  lemma AvailableIsEligible(students: seq<Student>, rows: seq<Enrollment>, documento: string, club: Club)
    requires EnsureStudentAvailableForClub(students, rows, documento, club).Ok?
    ensures GetEligibleStudent(students, documento, Some(club.sedeId))
            == EnsureStudentAvailableForClub(students, rows, documento, club)
  {
  }

  /** Enrolling an available student as ACTIVO keeps one ACTIVO row per student,
      and the new row lies inside the student's sede. */
  lemma {:induction false} AvailableKeepsOneActive(students: seq<Student>, clubs: seq<Club>, rows: seq<Enrollment>,
                                                   documento: string, club: Club, id: int)
    requires StudentIdsDistinct(students) && ClubIdsDistinct(clubs) && club in clubs
    requires OneActivePerStudent(rows)
    requires EnsureStudentAvailableForClub(students, rows, documento, club).Ok?
    ensures var x := Enrollment(id, EnsureStudentAvailableForClub(students, rows, documento, club).value.id, club.id, Activo);
            OneActivePerStudent(rows + [x]) && SameSede(x, students, clubs)
  {
    var st := EnsureStudentAvailableForClub(students, rows, documento, club).value;
    var x := Enrollment(id, st.id, club.id, Activo);
    var after := rows + [x];
    assert forall e :: e in rows ==> !EnrollmentModel.ActiveIn(e, EnrollmentModel.StudentColumn, st.id);
    forall i, j | 0 <= i < j < |after| && after[i].estado == Activo && after[j].estado == Activo
      ensures after[i].estudianteId != after[j].estudianteId
    {
      assert after[i] == rows[i];
      if j == |rows| {
        assert rows[i] in rows;
      } else {
        assert after[j] == rows[j];
      }
    }
    StudentByIdOfMember(students, st);
    ClubByIdOfMember(clubs, club);
  }
}

=== FILE: text.dfy ===
/** String helpers shared by the services: JavaScript's `trim`, ASCII upper/lower
    casing, the document normalisation `documento.trim().toUpperCase()` and the
    slug normaliser of the student importer. */
module Text {

  /** The characters JavaScript's `trim` removes and the regex class `\s` matches
      (white space and line terminators). */
  predicate IsWhitespace(c: char) {
    c == ' ' || c == '\t' || c == '\n' || c == '\r' || c == '\U{0B}' || c == '\U{0C}'
    || c == '\U{A0}' || c == '\U{1680}' || ('\U{2000}' <= c <= '\U{200A}')
    || c == '\U{2028}' || c == '\U{2029}' || c == '\U{202F}' || c == '\U{205F}'
    || c == '\U{3000}' || c == '\U{FEFF}'
  }

  predicate AllWhitespace(s: string) {
    forall k :: 0 <= k < |s| ==> IsWhitespace(s[k])
  }

  predicate NoWhitespace(s: string) {
    forall k :: 0 <= k < |s| ==> !IsWhitespace(s[k])
  }

  /** A string that `trim` leaves alone: empty, or non-blank at both ends. */
  predicate Trimmed(s: string) {
    s == [] || (!IsWhitespace(s[0]) && !IsWhitespace(s[|s| - 1]))
  }

  /** `trimStart`: the suffix left after dropping the leading white space. */
  function TrimStart(s: string): (r: string)
    ensures |r| <= |s| && r == s[|s| - |r|..]
    ensures forall k :: 0 <= k < |s| - |r| ==> IsWhitespace(s[k])
    ensures r == [] || !IsWhitespace(r[0])
  {
    if s != [] && IsWhitespace(s[0]) then TrimStart(s[1..]) else s
  }

  /** `trimEnd`: the prefix left after dropping the trailing white space. */
  function TrimEnd(s: string): (r: string)
    ensures |r| <= |s| && r == s[..|r|]
    ensures forall k :: |r| <= k < |s| ==> IsWhitespace(s[k])
    ensures r == [] || !IsWhitespace(r[|r| - 1])
  {
    if s != [] && IsWhitespace(s[|s| - 1]) then TrimEnd(s[..|s| - 1]) else s
  }

  /** JavaScript's `String.prototype.trim`. */
  function Trim(s: string): (r: string)
    ensures Trimmed(r) && |r| <= |s|
  {
    TrimEnd(TrimStart(s))
  }

  lemma {:induction false} TrimStartOfPadded(a: string, m: string)
    requires AllWhitespace(a)
    requires m == [] || !IsWhitespace(m[0])
    ensures TrimStart(a + m) == m
  {
    if a == [] {
      assert a + m == m;
    } else {
      assert (a + m)[1..] == a[1..] + m;
      TrimStartOfPadded(a[1..], m);
    }
  }

  lemma {:induction false} TrimEndOfPadded(m: string, b: string)
    requires AllWhitespace(b)
    requires m == [] || !IsWhitespace(m[|m| - 1])
    ensures TrimEnd(m + b) == m
  {
    if b == [] {
      assert m + b == m;
    } else {
      assert (m + b)[..|m + b| - 1] == m + b[..|b| - 1];
      TrimEndOfPadded(m, b[..|b| - 1]);
    }
  }

  /** `trim` is determined by the split: blank prefix, trimmed middle, blank suffix. */
  lemma TrimOfPadded(a: string, m: string, b: string)
    requires AllWhitespace(a) && AllWhitespace(b) && Trimmed(m)
    ensures Trim(a + m + b) == m
  {
    if m == [] {
      assert a + m + b == (a + b) + m;
      assert AllWhitespace(a + b);
      TrimStartOfPadded(a + b, m);
    } else {
      assert a + m + b == a + (m + b);
      TrimStartOfPadded(a, m + b);
      TrimEndOfPadded(m, b);
    }
  }

  lemma Assoc<T>(a: seq<T>, m: seq<T>, b: seq<T>)
    ensures a + (m + b) == a + m + b
  {
  }

  lemma SplitAt<T>(s: seq<T>, i: nat)
    requires i <= |s|
    ensures s == s[..i] + s[i..]
  {
  }

  lemma TrimStartSplit(s: string) returns (a: string)
    ensures AllWhitespace(a) && s == a + TrimStart(s)
  {
    var t := TrimStart(s);
    a := s[..|s| - |t|];
    SplitAt(s, |s| - |t|);
  }

  lemma TrimEndSplit(s: string) returns (b: string)
    ensures AllWhitespace(b) && s == TrimEnd(s) + b
  {
    var m := TrimEnd(s);
    b := s[|m|..];
    SplitAt(s, |m|);
  }

  /** Every string splits into blank prefix, `Trim(s)` and blank suffix. */
  lemma TrimSplit(s: string) returns (a: string, b: string)
    ensures AllWhitespace(a) && AllWhitespace(b) && s == a + Trim(s) + b
  {
    a := TrimStartSplit(s);
    var t := TrimStart(s);
    b := TrimEndSplit(t);
    Assoc(a, Trim(s), b);
  }

  lemma Regroup<T>(w1: seq<T>, a: seq<T>, m: seq<T>, b: seq<T>, w2: seq<T>)
    ensures w1 + (a + m + b) + w2 == (w1 + a) + m + (b + w2)
  {
  }

  lemma AllWhitespaceConcat(x: string, y: string)
    requires AllWhitespace(x) && AllWhitespace(y)
    ensures AllWhitespace(x + y)
  {
  }

  /** Surrounding white space never changes the result of `trim`. */
  lemma TrimIgnoresPadding(w1: string, s: string, w2: string)
    requires AllWhitespace(w1) && AllWhitespace(w2)
    ensures Trim(w1 + s + w2) == Trim(s)
  {
    var a, b := TrimSplit(s);
    var m := Trim(s);
    Regroup(w1, a, m, b, w2);
    AllWhitespaceConcat(w1, a);
    AllWhitespaceConcat(b, w2);
    TrimOfPadded(w1 + a, m, b + w2);
  }


  // ASCII case mapping (non-ASCII case folding is not modelled).

  function UpperChar(c: char): (u: char)
    ensures 'a' <= c <= 'z' ==> 'A' <= u <= 'Z' && u as int == c as int - 32
    ensures !('a' <= c <= 'z') ==> u == c
  {
    if 'a' <= c <= 'z' then (c as int - 32) as char else c
  }

  function LowerChar(c: char): (l: char)
    ensures 'A' <= c <= 'Z' ==> 'a' <= l <= 'z' && l as int == c as int + 32
    ensures !('A' <= c <= 'Z') ==> l == c
  {
    if 'A' <= c <= 'Z' then (c as int + 32) as char else c
  }

  /** `toUpperCase` restricted to ASCII letters. */
  function ToUpper(s: string): (r: string)
    ensures |r| == |s|
    ensures forall k :: 0 <= k < |s| ==> r[k] == UpperChar(s[k])
  {
    seq(|s|, k requires 0 <= k < |s| => UpperChar(s[k]))
  }

  /** `toLowerCase` restricted to ASCII letters. */
  function ToLower(s: string): (r: string)
    ensures |r| == |s|
    ensures forall k :: 0 <= k < |s| ==> r[k] == LowerChar(s[k])
  {
    seq(|s|, k requires 0 <= k < |s| => LowerChar(s[k]))
  }

  lemma ToUpperConcat(a: string, b: string)
    ensures ToUpper(a + b) == ToUpper(a) + ToUpper(b)
  {
  }

  lemma ToLowerConcat(a: string, b: string)
    ensures ToLower(a + b) == ToLower(a) + ToLower(b)
  {
  }

  lemma UpperIdempotent(s: string)
    ensures ToUpper(ToUpper(s)) == ToUpper(s)
  {
  }

  /** Upper-casing after lower-casing is upper-casing: case is forgotten. */
  lemma UpperOfLower(s: string)
    ensures ToUpper(ToLower(s)) == ToUpper(s)
  {
  }

  /** Case mapping keeps white space white and everything else non-white. */
  lemma CaseKeepsWhitespace(s: string)
    ensures AllWhitespace(s) ==> AllWhitespace(ToLower(s)) && AllWhitespace(ToUpper(s))
    ensures Trimmed(s) ==> Trimmed(ToLower(s)) && Trimmed(ToUpper(s))
  {
  }

  lemma TrimOfTrimmed(m: string)
    requires Trimmed(m)
    ensures Trim(m) == m
  {
    assert [] + m + [] == m;
    TrimOfPadded([], m, []);
  }

  lemma TrimIdempotent(s: string)
    ensures Trim(Trim(s)) == Trim(s)
  {
    TrimOfTrimmed(Trim(s));
  }

  /** Lower-casing commutes with `trim` (it maps white space to white space). */
  lemma TrimOfLower(s: string)
    ensures Trim(ToLower(s)) == ToLower(Trim(s))
  {
    var a, b := TrimSplit(s);
    var m := Trim(s);
    ToLowerConcat(a + m, b);
    ToLowerConcat(a, m);
    CaseKeepsWhitespace(a);
    CaseKeepsWhitespace(b);
    CaseKeepsWhitespace(m);
    TrimOfPadded(ToLower(a), ToLower(m), ToLower(b));
  }

  /** `documento.trim().toUpperCase()`, the key under which students are stored. */
  function NormalizeDocument(d: string): string {
    ToUpper(Trim(d))
  }

  /** A document's normal form ignores surrounding white space and letter case. */
  lemma NormalizeDocumentInsensitive(w1: string, d: string, w2: string)
    requires AllWhitespace(w1) && AllWhitespace(w2)
    ensures NormalizeDocument(w1 + d + w2) == NormalizeDocument(d)
    ensures NormalizeDocument(ToLower(d)) == NormalizeDocument(d)
  {
    TrimIgnoresPadding(w1, d, w2);
    TrimOfLower(d);
    UpperOfLower(Trim(d));
  }

  /** Normalising twice is normalising once. */
  lemma NormalizeDocumentIdempotent(d: string)
    ensures NormalizeDocument(NormalizeDocument(d)) == NormalizeDocument(d)
  {
    CaseKeepsWhitespace(Trim(d));
    TrimOfTrimmed(ToUpper(Trim(d)));
    UpperIdempotent(Trim(d));
  }

  // Slugs.

  /** The characters of `[a-z0-9-]`. */
  predicate IsSlugChar(c: char) {
    ('a' <= c <= 'z') || ('0' <= c <= '9') || c == '-'
  }

  /** `.replace(/\s+/g, '-')`: every maximal run of white space becomes one '-'. */
  function ReplaceWhitespaceRuns(s: string): (r: string)
    ensures NoWhitespace(r)
    ensures NoWhitespace(s) ==> r == s
    decreases |s|
  {
    if s == [] then []
    else if IsWhitespace(s[0]) then "-" + ReplaceWhitespaceRuns(TrimStart(s[1..]))
    else [s[0]] + ReplaceWhitespaceRuns(s[1..])
  }

  /** A run between two white-space-free stretches is replaced by exactly one '-'. */
  lemma ReplaceRunAtStart(w: string, b: string)
    requires w != [] && AllWhitespace(w)
    requires b == [] || !IsWhitespace(b[0])
    ensures ReplaceWhitespaceRuns(w + b) == "-" + ReplaceWhitespaceRuns(b)
  {
    var s := w + b;
    assert s[0] == w[0] && s[1..] == w[1..] + b;
    TrimStartOfPadded(w[1..], b);
  }

  lemma ConsSplit<T>(a: seq<T>, m: seq<T>, b: seq<T>)
    requires a != []
    ensures a + m + b == [a[0]] + (a[1..] + m + b)
  {
  }

  lemma ReplaceRunsCons(c: char, t: string)
    requires !IsWhitespace(c)
    ensures ReplaceWhitespaceRuns([c] + t) == [c] + ReplaceWhitespaceRuns(t)
  {
    assert ([c] + t)[1..] == t;
  }

  lemma {:induction false} ReplaceRunBetween(a: string, w: string, b: string)
    requires NoWhitespace(a) && w != [] && AllWhitespace(w)
    requires b == [] || !IsWhitespace(b[0])
    ensures ReplaceWhitespaceRuns(a + w + b) == a + "-" + ReplaceWhitespaceRuns(b)
  {
    if a == [] {
      assert a + w + b == w + b;
      ReplaceRunAtStart(w, b);
    } else {
      var t := a[1..] + w + b;
      var r := ReplaceWhitespaceRuns(b);
      ConsSplit(a, w, b);
      ReplaceRunsCons(a[0], t);
      ReplaceRunBetween(a[1..], w, b);
      ConsSplit(a, "-", r);
      calc {
        ReplaceWhitespaceRuns(a + w + b);
        [a[0]] + ReplaceWhitespaceRuns(t);
        [a[0]] + (a[1..] + "-" + r);
        a + "-" + r;
      }
    }
  }

  /** `.replace(/[^a-z0-9-]/g, '')`. */
  function KeepSlugChars(s: string): (r: string)
    ensures |r| <= |s|
    ensures forall k :: 0 <= k < |r| ==> IsSlugChar(r[k])
    ensures (forall k :: 0 <= k < |s| ==> IsSlugChar(s[k])) ==> r == s
    ensures |s| == 1 ==> r == (if IsSlugChar(s[0]) then s else [])
  {
    if s == [] then []
    else if IsSlugChar(s[0]) then [s[0]] + KeepSlugChars(s[1..])
    else KeepSlugChars(s[1..])
  }

  /** Filtering distributes over concatenation, so the kept characters of a
      mixed input are exactly its `[a-z0-9-]` characters, in order. */
  lemma {:induction false} KeepSlugCharsConcat(a: string, b: string)
    ensures KeepSlugChars(a + b) == KeepSlugChars(a) + KeepSlugChars(b)
  {
    if a == [] {
      assert a + b == b;
    } else {
      assert (a + b)[0] == a[0];
      assert (a + b)[1..] == a[1..] + b;
      KeepSlugCharsConcat(a[1..], b);
      if IsSlugChar(a[0]) {
        assert [a[0]] + KeepSlugChars(a[1..]) + KeepSlugChars(b)
            == [a[0]] + (KeepSlugChars(a[1..]) + KeepSlugChars(b));
      }
    }
  }

  /** `normalizeSlug` of the student importer, on the ASCII range: lower-case,
      white-space runs to '-', then drop everything outside `[a-z0-9-]`. */
  function NormalizeSlug(v: string): (r: string)
    ensures forall k :: 0 <= k < |r| ==> IsSlugChar(r[k])
  {
    KeepSlugChars(ReplaceWhitespaceRuns(ToLower(v)))
  }

  predicate IsSlug(s: string) {
    forall k :: 0 <= k < |s| ==> IsSlugChar(s[k])
  }

  /** Letters of either case, digits and '-'. */
  predicate IsWord(s: string) {
    forall k :: 0 <= k < |s| ==> IsSlugChar(s[k]) || 'A' <= s[k] <= 'Z'
  }

  lemma SlugIsFixed(s: string)
    requires IsSlug(s)
    ensures ToLower(s) == s && NoWhitespace(s)
  {
  }

  lemma LowerOfWord(s: string)
    requires IsWord(s)
    ensures IsSlug(ToLower(s)) && NoWhitespace(ToLower(s))
  {
  }

  /** A slug is a fixed point of the normaliser. */
  lemma NormalizeSlugIdempotent(v: string)
    ensures NormalizeSlug(NormalizeSlug(v)) == NormalizeSlug(v)
  {
    SlugIsFixed(NormalizeSlug(v));
  }

  /** On letters, digits and '-', the normaliser only lower-cases. */
  lemma NormalizeSlugOfWord(v: string)
    requires IsWord(v)
    ensures NormalizeSlug(v) == ToLower(v)
  {
    LowerOfWord(v);
  }

  /** Two words separated by white space become `word-word`. */
  lemma NormalizeSlugOfTwoWords(a: string, w: string, b: string)
    requires IsWord(a) && IsWord(b)
    requires w != [] && AllWhitespace(w)
    ensures NormalizeSlug(a + w + b) == ToLower(a) + "-" + ToLower(b)
  {
    ToLowerConcat(a + w, b);
    ToLowerConcat(a, w);
    CaseKeepsWhitespace(w);
    LowerOfWord(a);
    LowerOfWord(b);
    var la, lb := ToLower(a), ToLower(b);
    ReplaceRunBetween(la, ToLower(w), lb);
    var r := la + "-" + lb;
    assert IsSlug(r);
  }
}

=== FILE: values.dfy ===
/** The JavaScript values the services receive, reduced to what their checks look at. */
module Values {

  datatype Option<T> = None | Some(value: T)

  /** A request field as seen by `Number(x)`: absent (`undefined`, or the empty query
      string the report treats as absent), something that is not a number, or an
      integer. Non-integral numbers are not modelled. */
  datatype NumberArg = Undefined | NaN | Num(n: int)

  /** `Number(x)`; `None` stands for `NaN`. */
  function ToNumber(a: NumberArg): (r: Option<int>)
    ensures r.Some? <==> a.Num?
    ensures a.Num? ==> r.value == a.n
  {
    match a
    case Num(n) => Some(n)
    case _ => None
  }

  /** JavaScript truthiness of a number: neither `NaN` nor 0. */
  predicate TruthyNumber(n: Option<int>) {
    n.Some? && n.value != 0
  }

  /** JavaScript truthiness of an optional string: present and non-empty. */
  predicate TruthyString(s: Option<string>) {
    s.Some? && s.value != ""
  }

  /** `s || ''`. */
  function OrEmpty(s: Option<string>): (r: string)
    ensures TruthyString(s) ==> r == s.value
    ensures !TruthyString(s) ==> r == ""
  {
    if s.Some? then s.value else ""
  }
}
